=== FILE: README.md ===
# NotebookLM MCP client — a verified model of its pure core

The repository is a Model Context Protocol server that drives Google NotebookLM. It has no
public API, so the client talks to the web app's own endpoints. This project models in Dafny
the parts of that client that are deterministic data-in/data-out logic, and proves what they do:

- **Wire codec** (`protocol.py`):
  - the form-encoded request bodies of the batch-RPC and streaming-query endpoints, with
    `urllib.parse.quote` / `urlencode` percent-encoding (sections 2.1 and 2.3 of RFC 3986);
  - their URLs;
  - the line framing of responses: the `)]}'` anti-XSSI prefix, byte-count marker lines, and
    payload lines;
  - the choice of one RPC's result, with the "RPC error 16" auth-expired signature checked first;
  - the longest-answer / longest-thinking-step rule of the streaming endpoint.
- **Call executor** (`notebook_julian/client.py`):
  - the retry policy of `_call_rpc` / `_retry_after_auth_refresh`: bounded exponential backoff
    on 429/5xx, at most one credential refresh, and a reload of the saved credentials when the
    refresh is refused;
  - the per-conversation turn cache and the history it renders;
  - `query`;
  - the positional reshapers `list_notebooks`, `list_sources`, `get_source_content`,
    `_extract_all_text`, `_extract_source_ids`, `_parse_source_result` and `_parse_timestamp`;
  - the parameter shapes of `add_url_source` / `add_text_source` and their timeout result.
- **Validators and mappers**:
  - the configuration constants;
  - the credential bundle (`to_dict` / `from_dict` / `load_tokens`);
  - cookie-set validation, the browser-cookie filter, the missing-cookie report and the login poll;
  - CSRF-token and session-id extraction by their fixed regular expressions, with `re.search`
    semantics;
  - the argument validation and exception-to-status-dict mapping of the MCP tools;
  - `merge_mcp_config` of the installer.

## Layout

Modules follow the program's structure:

- `Wrappers` — `Option` / `Result`.
- `Text` — `str` helpers: `strip`, `split`, `join`, `isspace`, decimal rendering, ordering.
- `Json` — the JSON value datatype and the Python truthiness, `int`/`bool` and indexing rules used
  on decoded values. JSON text is a parameter, `JsonCodec(decode, encode, pretty)`. Its laws are
  stated in `Json.Lawful`:
  - `decode` inverts `encode` and `pretty`, with or without one trailing newline;
  - `encode` output is ASCII (`ensure_ascii`);
  - `pretty` output does not end with a newline;
  - blank text does not decode.
- `Config` — constants of `config.py`.
- `Percent` — `quote`, `quote_plus`, `urlencode` and form decoding.
- `Protocol` — request bodies and URLs.
- `Framing` — `parse_response`.
- `Extract` — `extract_rpc_result`.
- `Streaming` — `parse_query_response` and `_extract_answer_from_chunk`.
- `PageTokens` — the two HTML extractors.
- `Auth` — the token bundle and cookie logic.
- `Lists` — the shared filter-map loop.
- `Executor` — the retry policy.
- `Reshape` — the positional reshapers.
- `Client` — the cache, `query` and the add-source calls.
- `Tools` — the MCP tool functions.
- `McpConfig` — the installer's config merge.

Paths below are relative to the repository root. The two module trees `notebooklm_mcp_2026` and
`notebook_julian` carry the same helpers; each is modelled once, and both are cited where they
differ only in line numbers.

## Model

| member | source | states |
|---|---|---|
| Config.RequiredCookiesAreEssential | src/notebook_julian/config.py:72-82 | exactly five cookies are required, every required cookie is also kept from the browser, and the sorted list holds exactly the required names |
| Config.RetryableExcludesAuthStatuses | src/notebook_julian/config.py:130 | 401 and 403 are never retried as server errors, so the auth branch is reachable; 501 is not retried; every retried code is 429 or 500-504 |
| Config.SourceTypesDomain | src/notebook_julian/config.py:54-65 | exactly ten type codes have names; 6, 7, 10 and 12 have none |
| Config.RpcIdsDistinct | src/notebook_julian/config.py:44-48 | the five RPC identifiers are pairwise distinct |
| Percent.QuoteIsQuotedText | src/notebooklm_mcp_2026/protocol.py:57-60 | quoted text is ASCII and holds no `&`, `=`, space or `+`, so a quoted value cannot break the form syntax |
| Percent.QuoteRoundTrip | src/notebooklm_mcp_2026/protocol.py:57-60 | percent-decoding `quote(s, safe='')` gives back exactly the UTF-8 bytes of `s` |
| Percent.QuotePlusRoundTrip | src/notebooklm_mcp_2026/protocol.py:74-83 | decoding the `quote_plus` quoting that `urlencode` applies gives back exactly the UTF-8 bytes of the input |
| Percent.UrlEncodeRoundTrip | src/notebooklm_mcp_2026/protocol.py:74-83 | form-decoding an encoded field list, even when `&`s follow it, yields every key and value in order |
| Protocol.FormBody | src/notebooklm_mcp_2026/protocol.py:57-60 | every request body starts with `f.req=` and ends with `&` |
| Protocol.FormBodyFields | src/notebooklm_mcp_2026/protocol.py:57-60 | a body decodes to exactly its `f.req` field, followed by an `at` field only when the token is non-empty |
| Protocol.TokenFieldPresence | src/notebooklm_mcp_2026/protocol.py:203-206 | in both bodies the `at` field occurs exactly once when the token is non-empty and never otherwise, and it carries the token |
| Protocol.RequestEnvelopeRoundTrip | src/notebooklm_mcp_2026/protocol.py:53-60 | percent-decoding and JSON-decoding the `f.req` value gives `[[[rpc_id, json(params), null, "generic"]]]`, and JSON-decoding slot 1 again gives the parameters back |
| Protocol.QueryEnvelopeRoundTrip | src/notebooklm_mcp_2026/protocol.py:199-206 | the same round trip for the query body, whose envelope is `[null, json(params)]` |
| Protocol.OptionalFieldQuery | src/notebooklm_mcp_2026/protocol.py:81-83 | after fixed fields, the optional key is present in the decoded query exactly when it was added, and then carries its value |
| Protocol.BuildUrlQuery | src/notebooklm_mcp_2026/protocol.py:63-83 | the batch URL's query decodes, in order, to `rpcids`, `source-path` and `bl` carrying the inputs, `hl=en` and `rt=c`, then `f.sid` exactly when a session id is given; so five fields without a session and six with one |
| Protocol.BuildQueryUrlQuery | src/notebooklm_mcp_2026/protocol.py:209-219 | the query URL's query decodes, in order, to `bl` carrying the build label, `hl=en`, `_reqid` (the counter in decimal) and `rt=c`, then `f.sid` exactly when a session id is given; so four fields without a session and five with one |
| Framing.Lines | src/notebooklm_mcp_2026/protocol.py:110-113 | splitting yields at least one line and no line holds a newline |
| Framing.ScanLoop | src/notebooklm_mcp_2026/protocol.py:113-141 | the index loop, which may step past the end, produces the same payloads as the recursive scan |
| Framing.ScanPayloads | src/notebooklm_mcp_2026/protocol.py:117-139 | every payload is a stripped non-blank line that is not a marker, or the raw line after a marker |
| Framing.ScanOrdered | src/notebooklm_mcp_2026/protocol.py:117-139 | payloads come out in strictly increasing line order |
| Framing.ScanBound | src/notebooklm_mcp_2026/protocol.py:117-139 | there are never more payloads than non-blank lines |
| Framing.DecodeAllAppend | src/notebooklm_mcp_2026/protocol.py:128-138 | decoding distributes over concatenation, so the output keeps the payloads' order |
| Framing.ParseResponseBound | src/notebooklm_mcp_2026/protocol.py:91-141 | the output of `parse_response` never has more elements than the body has non-blank lines |
| Framing.EmptyBodyParsesToNothing | src/notebooklm_mcp_2026/protocol.py:110-113 | an empty body parses to `[]` |
| Framing.PrefixOnlyParsesToNothing | src/notebooklm_mcp_2026/protocol.py:110-113 | a body that is only `)]}'` parses to `[]` |
| Framing.ArrayLineIsNotMarker | src/notebooklm_mcp_2026/protocol.py:125 | a line that opens a JSON array is never taken for a marker |
| Framing.ByteCountIsMarker | src/notebooklm_mcp_2026/protocol.py:125 | the decimal rendering of a byte count is a marker exactly when it has at most 4300 digits, the limit past which `int()` raises `ValueError` and the line is read as payload |
| Framing.DigitLimitExamples | src/notebooklm_mcp_2026/protocol.py:125 | a line of 4300 digits is a marker; 4301 digits, signed or not, are not |
| Framing.MarkerThenPayload | src/notebooklm_mcp_2026/protocol.py:124-132 | a marker followed by any line yields that line, unstripped, as the only payload; a marker on the last line yields nothing |
| Framing.MarkerAfterMarker | src/notebooklm_mcp_2026/protocol.py:124-132 | after two markers and an array line, the second marker is a payload and is never examined as a marker |
| Framing.FramedExample | src/notebooklm_mcp_2026/protocol.py:117-139 | the usual frame, a byte count then an array line, yields the array line |
| Extract.FirstMatch | src/notebooklm_mcp_2026/protocol.py:157-164 | the index found is of a matching entry with no match before it, and `None` means no entry matches |
| Extract.ScanItemsFirst | src/notebooklm_mcp_2026/protocol.py:160-182 | the scan of one frame is decided by its first matching entry |
| Extract.ExtractIsFirstMatch | src/notebooklm_mcp_2026/protocol.py:144-184 | the nested frame-then-entry scan equals the reference: the first matching entry over all list frames decides, and no match gives `None` |
| Extract.NoMatchIsNone | src/notebooklm_mcp_2026/protocol.py:184 | without a matching entry the result is `None`, not an error |
| Extract.OtherRpcIdIsNone | src/notebooklm_mcp_2026/protocol.py:163-164 | frames that only answer one id give `None` for any other id, even when they hold an error-16 entry |
| Extract.AuthExpiredBeforeSlot2 | src/notebooklm_mcp_2026/protocol.py:166-174 | when the first match carries the error-16 signature, the result is the auth-expired signal whatever slot 2 holds and however it decodes |
| Extract.Slot2Result | src/notebooklm_mcp_2026/protocol.py:176-182 | otherwise a string slot 2 is JSON-decoded, falling back to the raw string, and any other slot 2 is returned as it is |
| Extract.SignatureExamples | src/notebooklm_mcp_2026/protocol.py:168-173 | the error-16 entry of the tests has the signature; a slot 5 of `[True]` does not |
| Streaming.ItemAnswer | src/notebooklm_mcp_2026/protocol.py:292-322 | any text an entry yields is longer than 20 characters |
| Streaming.OnlyFirstQualifying | src/notebooklm_mcp_2026/protocol.py:292-324 | only the first qualifying `wrb.fr` entry of a frame is used; later ones are ignored |
| Streaming.RunSplits | src/notebooklm_mcp_2026/protocol.py:253-266 | the two running values evolve independently: each is the scan of its own kind's texts |
| Streaming.LongestFromSpec | src/notebooklm_mcp_2026/protocol.py:255-258 | the strict-`>` scan keeps the running value when nothing is longer, and otherwise ends on the first text of maximal length |
| Streaming.FirstLongestFromEmpty | src/notebooklm_mcp_2026/protocol.py:239-258 | from `""`, the scan over non-empty texts yields the first longest text |
| Streaming.ParseQueryResponseIsReference | src/notebooklm_mcp_2026/protocol.py:222-269 | the result is the first longest answer if any answer exists, else the first longest thinking step, else `""` |
| Streaming.ParseQueryResponseLength | src/notebooklm_mcp_2026/protocol.py:269 | a non-empty result is always longer than 20 characters |
| Streaming.ChunkAnswerLong | src/notebooklm_mcp_2026/protocol.py:313 | every text a frame contributes is longer than 20 characters |
| Streaming.TieKeepsEarlier | src/notebooklm_mcp_2026/protocol.py:255 | a later answer of equal length does not replace an earlier one |
| Streaming.TypeMarkerExamples | src/notebooklm_mcp_2026/protocol.py:315-319 | a last type element of `1` or `True` makes an answer; `[1, 2]`, `[]` or no slot 4 make a thinking step |
| Streaming.BareStringIsThinking | src/notebooklm_mcp_2026/protocol.py:321-322 | a bare string as the first inner element is a thinking step |
| PageTokens.RunEnd | src/notebooklm_mcp_2026/auth.py:355 | the longest run of a character class starting at a position: every character inside is in the class and the next one is not |
| PageTokens.MatchAt | src/notebooklm_mcp_2026/auth.py:353-365 | a session-id capture is a digit string, and a CSRF capture is a non-empty string without quotes |
| PageTokens.Search | src/notebooklm_mcp_2026/auth.py:355 | `re.search` returns the capture at the leftmost matching position, and `None` only when no position matches |
| PageTokens.FindLeftmost | src/notebooklm_mcp_2026/auth.py:355 | the loop over start positions equals the leftmost search |
| PageTokens.SearchFirst | src/notebooklm_mcp_2026/auth.py:362 | the search returns the match at a position when nothing matches before it |
| PageTokens.NoMatchInPrefix | src/notebooklm_mcp_2026/auth.py:361 | no match starts inside a prefix lacking the pattern's first character |
| PageTokens.CsrfShape | src/notebooklm_mcp_2026/auth.py:353-356 | the CSRF token is empty or a run without quotes |
| PageTokens.SessionIdShape | src/notebooklm_mcp_2026/auth.py:359-365 | the session id is empty or a non-empty run of digits |
| PageTokens.FdrTakesPriority | src/notebooklm_mcp_2026/auth.py:361-364 | wherever the two patterns occur, any `FdrFJe` match decides the session id |
| PageTokens.FSidFallback | src/notebooklm_mcp_2026/auth.py:361-365 | without an `FdrFJe` match, the leftmost `f.sid` capture is used, else `""` |
| PageTokens.CsrfRoundTrip | src/notebook_julian/auth.py:297-300 | a page embedding `"SNlM0e":"<token>"` with no quote before it yields exactly the token |
| PageTokens.SessionIdRoundTrip | src/notebook_julian/auth.py:303-309 | a page embedding `"FdrFJe":"<digits>"` with no quote before it yields exactly the digits |
| Auth.DictRoundTrip | src/notebooklm_mcp_2026/auth.py:57-67 | `from_dict(to_dict(t)) == t`, and `to_dict` writes exactly the four fields |
| Auth.FromDictDefaults | src/notebook_julian/auth.py:55-65 | each missing field defaults to `{}`, `""`, `""` or zero, and an empty dict gives the all-default bundle |
| Auth.LoadTokensListRaises | src/notebooklm_mcp_2026/auth.py:99-106 | a credential file holding a JSON list makes `load_tokens` raise `AttributeError`, while the corrected loader returns `None` |
| Auth.LoadTokensCheckedNeverRaises | src/notebooklm_mcp_2026/auth.py:95-106 | the corrected loader never raises, and agrees with `load_tokens` wherever that does not raise |
| Auth.SaveLoadRoundTrip | src/notebooklm_mcp_2026/auth.py:95-106 | loading a saved bundle, with `load_tokens` as written or the checked loader, gives it back, or `None` when its cookies are empty |
| Auth.EmptyCookiesRejected | src/notebooklm_mcp_2026/auth.py:101-104 | a bundle with an empty or absent cookie map is rejected by both loaders |
| Auth.MissingCookies | src/notebook_julian/auth.py:398-399 | the missing names are exactly the required names that are not keys |
| Auth.ValidateCookiesIff | src/notebooklm_mcp_2026/auth.py:109-111 | cookies are valid exactly when every required name is a key, that is when none is missing; adding keys keeps them valid |
| Auth.ValidateCookiesExamples | src/notebook_julian/auth.py:107-109 | the five names plus an extra are valid; four of them are not |
| Auth.FilterNames | src/notebook_julian/auth.py:399 | the filtered list holds exactly the listed names that are not keys |
| Auth.FilterNamesSorted | src/notebook_julian/auth.py:401 | dropping names from a strictly sorted list keeps it strictly sorted |
| Auth.RequiredCookiesSortedIsSorted | src/notebook_julian/config.py:72 | the sorted required list is strictly sorted and holds exactly the required names |
| Auth.SortedMissingSpec | src/notebook_julian/auth.py:398-403 | the error's list holds exactly the missing names, in strictly increasing order |
| Auth.FilterCookies | src/notebooklm_mcp_2026/auth.py:451-456 | the filter keeps only essential names |
| Auth.FilterCookiesKeys | src/notebook_julian/auth.py:391-396 | the filter keeps exactly the names of records with an essential name and a `.google.com` domain |
| Auth.FilterCookiesLastWins | src/notebook_julian/auth.py:392-396 | each kept name maps to the value of the last kept record with that name |
| Auth.CollectCookies | src/notebook_julian/auth.py:386-403 | a successful collection is the filtered map, and it passes validation |
| Auth.CollectCookiesIff | src/notebook_julian/auth.py:386-403 | collection fails exactly when there are no records or a required name is missing |
| Auth.PollForCookies | src/notebooklm_mcp_2026/auth.py:447-467 | a successful login is the filtered map of a poll that covers the required names |
| Auth.PollStopsAtFirstCover | src/notebooklm_mcp_2026/auth.py:447-462 | polling stops at the first covering poll, and times out only when no poll covers |
| Executor.Classify | src/notebook_julian/client.py:229-235 | an attempt is a status failure exactly for a status outside 200-299, and a network failure exactly when the transport failed |
| Executor.BackoffDelay | src/notebook_julian/client.py:241-244 | no sleep is longer than the cap |
| Executor.Refresh | src/notebook_julian/client.py:148-184 | a successful refresh keeps the cookies and installs a non-empty token |
| Executor.Phase | src/notebook_julian/client.py:239-258 | a stretch of attempts makes at most the retry budget plus one attempt, sleeping `min(base * 2^n, cap)` before each retry |
| Executor.FirstCallIsStretch | src/notebook_julian/client.py:229-271 | before the refresh, a call is a stretch that either settles or hands over to the refresh |
| Executor.RetriedCallIsStretch | src/notebook_julian/client.py:253-271 | after the refresh, a call is a stretch whose authentication failures are final |
| Executor.ExecuteIsReference | src/notebook_julian/client.py:207-298 | the recursive call machinery equals two stretches around at most one refresh, trace and credentials included |
| Executor.CallBounds | src/notebook_julian/client.py:253-298 | a call makes at most one refresh and at most `2 * (MAX_RETRIES + 1)` attempts, and never sleeps longer than the cap |
| Executor.BackoffSchedule | src/notebook_julian/config.py:127-129 | with base 1, cap 16 and three retries the delays are 1, 2, 4 and the cap is never reached |
| Executor.BackoffRunNonDecreasing | src/notebook_julian/client.py:241-244 | the sleeps of one stretch are non-decreasing |
| Executor.DelaysPerStretch | src/notebook_julian/client.py:294-298 | a call's sleeps are two prefixes of the schedule, the second starting over after the refresh |
| Executor.RetriedWithRecoveredCreds | src/notebook_julian/client.py:281-298 | every attempt after the refresh sends the recovered credentials, which the client keeps |
| Executor.NoRefreshWithoutAuthFailure | src/notebook_julian/client.py:260-267 | without an authentication failure there is no refresh and the credentials never change |
| Executor.ServerRetriesRunOut | src/notebook_julian/client.py:239-258 | four retryable statuses in a row sleep 1, 2 and 4 and fail with the server error naming four attempts |
| Executor.OtherStatusFailsAtOnce | src/notebook_julian/client.py:261-263 | any other non-retryable, non-auth status fails after one attempt |
| Executor.ExpiredTwice | src/notebook_julian/client.py:265-271 | a second auth-expired signal after a refresh is final, after one refresh and two attempts |
| Executor.AuthStatusTwice | src/notebook_julian/client.py:261-263 | a second 401/403 after the refresh is an HTTP error, not another refresh |
| Executor.RefusedRefreshFallback | src/notebook_julian/client.py:281-291 | a refused refresh falls back to the saved credentials exactly when they load with a non-empty cookie map; a reload that raises (as `load_tokens` does on a credential file holding a list) ends the call with that exception; otherwise the refusal ends the call |
| Executor.RefreshInstallsPageTokens | src/notebook_julian/client.py:173-184 | a refresh that reaches the page keeps the cookies and installs the page's token, keeping the old session id when the page has none |
| Executor.RefreshRefusals | src/notebook_julian/client.py:162-179 | a login redirect is refused whatever the status, any other non-200 status is refused, and a page without a token is refused |
| Executor.RefreshFromTokenPage | src/notebook_julian/client.py:162-184 | a 200 page, not redirected to the login page, that embeds `"SNlM0e":"<token>"` with no quote before it refreshes successfully with exactly that token and the same cookies |
| Client.CacheTurn | src/notebook_julian/client.py:609-615 | a new turn is appended to its conversation, numbered one past the previous count, and no other conversation changes |
| Client.CacheTurnNumbered | src/notebook_julian/client.py:609-615 | caching keeps every conversation's turns numbered 1, 2, ... |
| Client.HistoryEntriesSpec | src/notebook_julian/client.py:603-606 | the history has two entries per turn, in turn order: `[answer, None, 2]` then `[query, None, 1]` |
| Client.BuildHistorySpec | src/notebook_julian/client.py:599-607 | the history is `None` exactly when nothing is cached, and otherwise twice as long as the turns |
| Client.SourcesArrayNamesIds | src/notebook_julian/client.py:565 | the wrapped sources array names exactly the given ids, in order, and is empty exactly when there are none |
| Client.AskTurns | src/notebook_julian/client.py:584-593 | `turn_number` is the cached count after the call, one more than before exactly when the answer is non-empty, and `is_follow_up` holds exactly when an id was given |
| Client.AskCache | src/notebook_julian/client.py:584-586 | only the asked conversation changes, by at most one appended turn, and numbering stays consecutive |
| Client.AskRequest | src/notebook_julian/client.py:551-579 | every POST advances the request counter by exactly 100000 and sends it in the URL, and carries the cookies of the HTTP client obtained first; a new conversation sends no history and a follow-up sends its cached turns; the parameters carry the sources, query and conversation id |
| Client.FollowUpNumbering | src/notebook_julian/client.py:558-593 | an answered follow-up is numbered one past the answered query that opened the conversation, and carries that conversation's id |
| Client.QueryLookupFails | src/notebook_julian/client.py:554-556 | a failed notebook lookup ends the query before anything is sent or cached |
| Client.QueryUsesNotebookSources | src/notebook_julian/client.py:551-579 | without explicit ids the query uses the notebook's string source ids; its body and URL use the token and session id the lookup left, but its cookies are those held before the lookup, because the HTTP client was obtained first |
| Client.SourceDataShapes | src/notebook_julian/client.py:476-481 | both descriptors have eleven slots ending in 1; the URL sits at slot 7 for YouTube and slot 2 otherwise; text sits at slot 1 with type 2 at slot 3 |
| Client.YouTubeDetected | src/notebook_julian/client.py:476 | a URL containing `youtube.com` or `youtu.be` is treated as YouTube |
| Client.AddSourceOutcomes | src/notebook_julian/client.py:490-500 | a timed-out call gives the timeout dict, never an error; a parsed reply gives exactly `id` and `title`, the title defaulting as the caller says |
| Reshape.FromTimestamp | src/notebook_julian/client.py:671 | a second converts exactly when it lies within the years 1 to 9999 UTC; outside a 64-bit `time_t` it raises `OverflowError`, otherwise `ValueError` |
| Reshape.ParseTimestamp | src/notebook_julian/client.py:666-672 | `None` exactly when the value is not a non-empty list with an `int` first; otherwise that many seconds, or a raise exactly when they are out of `datetime`'s range |
| Reshape.ParseTimestampExamples | src/notebook_julian/client.py:668-671 | a `[seconds, nanos]` pair gives its seconds; `None`, `[]` and a string give `None`; the last second of 9999 converts, the next raises `ValueError`, and `10**20` raises `OverflowError` |
| Reshape.SourceTypeName | src/notebook_julian/client.py:417 | naming a type code raises exactly when the code is a list or a dict (unhashable) |
| Reshape.SourceTypeNameLookup | src/notebook_julian/client.py:417 | known codes get their names; unnamed codes, strings and `None` read as "unknown"; `True` reads as code 1 |
| Reshape.NotebookOfSpec | src/notebook_julian/client.py:320-364 | an entry yields a notebook exactly when it is a list of at least three slots with a truthy id whose timestamps convert; the title and counts follow, without metadata the notebook is owned, not shared and undated, and the timestamps are metadata slots 5 and 8 |
| Reshape.NotebookOfRaises | src/notebook_julian/client.py:336-344 | an entry raises exactly when it qualifies and a metadata timestamp is out of range; the modification time is converted first, so its error wins |
| Reshape.CollectNotebooksMembers | src/notebook_julian/client.py:320-364 | the listing succeeds exactly when no entry raises, then lists exactly the notebooks the entries yield; otherwise it raises the error of an entry all of whose predecessors converted |
| Reshape.ListNotebooksMembers | src/notebook_julian/client.py:318-366 | the call raises exactly when some examined entry does; otherwise a notebook is listed exactly when some examined entry yields it |
| Reshape.ListNotebooksShape | src/notebook_julian/client.py:355-364 | every listed notebook has a truthy id and a count equal to its summaries |
| Reshape.ListNotebooksEmpty | src/notebook_julian/client.py:315-316 | a result that is not a non-empty list lists nothing |
| Reshape.ListNotebooksReadsFirst | src/notebook_julian/client.py:318 | when the first element is a list it alone is read |
| Reshape.ListNotebooksOutOfRange | src/notebook_julian/client.py:342-343 | a notebook whose modification time is `10**20` seconds makes the whole listing raise `OverflowError` |
| Reshape.NameRowsSpec | src/notebook_julian/client.py:397-419 | listing fails exactly when some row's type code is unhashable; otherwise each row keeps its slots and gets its code's name |
| Reshape.NameRowsError | src/notebook_julian/client.py:417 | the only error naming raises is `TypeError` |
| Reshape.ListSourcesNames | src/notebook_julian/client.py:380-421 | every listed source's name is its code's name, or "unknown" for codes without one |
| Reshape.ListSourcesUnhashable | src/notebook_julian/client.py:417 | a list-valued type code raises `TypeError` instead of reading as "unknown" |
| Reshape.AllText | src/notebook_julian/client.py:655-663 | every flattened string is non-empty |
| Reshape.AllTextAppend | src/notebook_julian/client.py:658-662 | flattening distributes over concatenation |
| Reshape.AllTextLeaves | src/notebook_julian/client.py:655-663 | the flattening holds exactly the non-empty string leaves |
| Reshape.AllTextExamples | src/notebook_julian/client.py:655-663 | nesting is flattened left to right and empty strings are dropped |
| Reshape.BlocksTextIsAllText | src/notebook_julian/client.py:457-459 | blocks without top-level strings give the same text as flattening them whole |
| Reshape.SourceContentSpec | src/notebook_julian/client.py:453-468 | `char_count` is the content's length; the content is the blocks' texts joined by blank lines, empty exactly when there is no text |
| Reshape.SourceIdsMembers | src/notebook_julian/client.py:635-652 | an id is listed exactly when some source carries it as a string |
| Reshape.SourceIdsExample | src/notebook_julian/client.py:635-652 | the test's notebook yields `["src-1", "src-2"]`; `None` and `[]` yield nothing |
| Reshape.ParseSourceResultWellFormed | src/notebook_julian/client.py:623-631 | the service's response shape yields its id and title |
| Reshape.ParseSourceResultFallbacks | src/notebook_julian/client.py:625-632 | a non-list or empty result gives `None`; a one-slot source takes the default title |
| Reshape.ParseSourceResultRaises | src/notebook_julian/client.py:627-629 | a truthy number where the source list belongs raises `TypeError`, and a dict raises `KeyError` |
| Tools.NewAuthError | src/notebook_julian/client.py:56-61 | an authentication error always has a hint: the given one, else the login hint |
| Tools.RaisedOfKinds | src/notebook_julian/client.py:258-271 | authentication failures raise `AuthenticationError` with the login hint, server and HTTP failures raise `APIError`, and only a transport error or the credential reload's own exception escapes the library |
| Tools.ErrorReply | src/notebooklm_mcp_2026/tools/sources.py:32-41 | every error reply has status "error" and an error; a hint appears exactly for authentication errors and, with the doctor hint, unexpected ones |
| Tools.NotebooksUnexpectedErrorLacksHint | src/notebooklm_mcp_2026/tools/notebooks.py:35-36 | the notebook tools as written return an unexpected error without any hint |
| Tools.ToolErrorHints | src/notebooklm_mcp_2026/tools/query.py:49-58 | in the source and query tools a reply has a hint exactly when the error is not a plain library error; authentication errors carry their own hint and unexpected ones the doctor hint |
| Tools.MissingIffBlank | src/notebooklm_mcp_2026/tools/query.py:35-38 | an argument is missing exactly when it is empty or whitespace |
| Tools.OverlaySpec | src/notebooklm_mcp_2026/tools/sources.py:107 | the reply has the client's keys plus `status`; the client's values win, `status` included |
| Tools.SliceTo | src/notebooklm_mcp_2026/tools/notebooks.py:28-29 | a Python slice is a prefix, no longer than the list |
| Tools.ListNotebooksToolSpec | src/notebooklm_mcp_2026/tools/notebooks.py:23-30 | the reply lists the first `max_results` notebooks in order, all of them when there are fewer, and `count` is their number; a negative bound drops that many from the end |
| Tools.ListNotebooksToolExample | src/notebooklm_mcp_2026/tools/notebooks.py:28-29 | ten notebooks with bound 3 give count 3; bound -1 gives 9 |
| Tools.FindNotebook | src/notebooklm_mcp_2026/tools/notebooks.py:60 | a found notebook is one of the listed notebooks |
| Tools.FindNotebookSpec | src/notebooklm_mcp_2026/tools/notebooks.py:60 | the lookup stops at the first dict that lacks `id` (raising `KeyError`) or carries the wanted id |
| Tools.FindNotebookNone | src/notebooklm_mcp_2026/tools/notebooks.py:60 | with no match and no dict lacking `id`, nothing is found |
| Tools.GetNotebookToolTitle | src/notebooklm_mcp_2026/tools/notebooks.py:54-68 | the title is the first matching notebook's, and the source count is the number of sources |
| Tools.GetNotebookToolUnknown | src/notebooklm_mcp_2026/tools/notebooks.py:65 | without a match the title is "Unknown" |
| Tools.GetNotebookToolKeyError | src/notebooklm_mcp_2026/tools/notebooks.py:60 | a notebook dict without `id` before the match is an unexpected `KeyError('id')` |
| Tools.GetNotebookToolSourcesFirst | src/notebooklm_mcp_2026/tools/notebooks.py:56-59 | a failing `list_sources` decides the reply, whatever listing the notebooks would do |
| Tools.NotebooksErrorAsWritten | src/notebooklm_mcp_2026/tools/notebooks.py:31-36 | a notebook tool's error reply has a hint exactly for an authentication error, which carries its own; an unexpected error reads `Unexpected error: <message>`, a library error only its message |
| Tools.NotebookToolsErrorHints | src/notebooklm_mcp_2026/tools/notebooks.py:69-74 | `list_notebooks` and `get_notebook` both reply to an unexpected exception without a hint, and to an authentication error with its hint |
| Tools.SingleIdTools | src/notebooklm_mcp_2026/tools/sources.py:20-76 | a blank id is refused before the client is used; otherwise the client's result or error decides the reply |
| Tools.AddSourceUrlToolValidation | src/notebooklm_mcp_2026/tools/sources.py:95-100 | the notebook id, then the URL, then the scheme are checked, and a refused call never depends on the client |
| Tools.UrlSchemeExamples | src/notebooklm_mcp_2026/tools/sources.py:99-100 | the scheme check is case-sensitive and does not forgive leading spaces |
| Tools.TextLimitBoundary | src/notebooklm_mcp_2026/tools/sources.py:144-145 | exactly 500,000 characters are accepted and one more is refused |
| Tools.BlankTextRefused | src/notebooklm_mcp_2026/tools/sources.py:142-143 | whitespace-only text is refused as missing |
| Tools.TimeoutStatusKept | src/notebooklm_mcp_2026/tools/sources.py:107 | a client dict with its own status, such as the timeout dict, is reported as it is, not as success |
| Tools.QueryNotebookToolValidation | src/notebooklm_mcp_2026/tools/query.py:35-48 | the notebook id is checked before the query, and a refused call never depends on the client |
| Tools.QueryToolReportsAnswer | src/notebooklm_mcp_2026/tools/query.py:48 | a successful query reports the client's four fields under a success status |
| McpConfig.Suffix | src/notebooklm_mcp_2026/cli.py:222-223 | a path suffix is the tail of the name from its last dot, holding no other dot and shorter than the name; it is non-empty exactly when the name has a dot after its first character and does not end in one |
| McpConfig.BackupName | src/notebooklm_mcp_2026/cli.py:222-223 | every backup name ends with `.json.backup` |
| McpConfig.BackupOfJsonFile | src/notebooklm_mcp_2026/cli.py:222-223 | `<stem>.json` is backed up as `<stem>.json.backup` |
| McpConfig.BackupOfPlainName | src/notebooklm_mcp_2026/cli.py:222-223 | a name without a dot gets `.json.backup` appended |
| McpConfig.PlaceEntry | src/notebooklm_mcp_2026/cli.py:229-234 | the entry is placed exactly when the document and the section are dicts, and the placed entry is the given one; otherwise `TypeError` |
| McpConfig.MergeMcpConfig | src/notebooklm_mcp_2026/cli.py:204-246 | success always comes with written text and no write error; failure writes nothing |
| McpConfig.MergeSetsOnlyTheEntry | src/notebooklm_mcp_2026/cli.py:229-246 | the written config is the old one with only the server's entry set: other top-level keys and other servers are kept |
| McpConfig.FreshConfig | src/notebooklm_mcp_2026/cli.py:214-231 | a missing or blank file gives a config holding only the entry, reported as added |
| McpConfig.CorruptFileStops | src/notebooklm_mcp_2026/cli.py:219-224 | text that does not parse stops with the corrupt-file message naming the backup, and nothing is written |
| McpConfig.NonDictCrashes | src/notebooklm_mcp_2026/cli.py:229-234 | a document or section that is not a dict raises `TypeError` |
| McpConfig.UpdatedIffAlreadyConfigured | src/notebooklm_mcp_2026/cli.py:233-246 | the message says "Updated" exactly when the server was already in the section |
| McpConfig.WriteErrorReported | src/notebooklm_mcp_2026/cli.py:236-242 | a write error is reported with its detail and nothing counts as written |
| McpConfig.RenderEndsWithOneNewline | src/notebooklm_mcp_2026/cli.py:237-240 | the written text ends with exactly one newline |
| McpConfig.MergeIdempotent | src/notebooklm_mcp_2026/cli.py:229-246 | merging the same entry again writes the same file and reports "Updated" |

## Left out

- I/O is not modelled: HTTP, the browser and Chrome DevTools automation, sockets, subprocesses, file system access, `chmod`, `time.sleep` and clocks. Where the logic depends on them, the model takes them as parameters:
  - the transport as a script of outcomes indexed by attempt number;
  - the refresh's home-page fetch as one outcome;
  - the outcome of reloading the saved credential bundle: credentials, none, or the exception the load raised;
  - the poll results;
  - the configuration file's state and the write error.

  Sleeps are recorded as delays, and the login timeout is the number of polls made.
- `save_tokens`, `_persist_tokens`, `ensure_storage_dir` and the backup copy are left out. They are file writes, and `_persist_tokens` swallows every error.
- `uuid.uuid4` and the random first request counter are parameters; only the `+100000` step is modelled.
- Floats are not modelled: timeouts, `extracted_at` (modelled as an integer) and age arithmetic. A decoded server payload has no float value either: `Json` numbers are integers, so a fractional or exponent number in a reply is not represented. The code does compare against such numbers: `16 in item[5]` (src/notebooklm_mcp_2026/protocol.py:172) also holds for `16.0`, while a type marker `1.0` fails `isinstance(..., int)` (line 318) and reads as thinking. The retry constants are whole numbers of seconds, so delays are integers.
- JSON text is not parsed or printed. `JsonCodec` is a parameter constrained by `Json.Lawful`.
- Json.Lawful: demands a round trip for every `Num(n)`, but `json.loads` and `json.dumps` raise `ValueError` on an integer of more than 4300 digits, and that is not the `json.JSONDecodeError` the parsers catch. In src/notebooklm_mcp_2026/protocol.py there are three outcomes:
  - A plain (unannounced) line holding such a number makes `parse_response` raise (lines 135-137). It also makes `parse_query_response` raise, because `_extract_answer_from_chunk` is called there from inside the `except ValueError` handler (lines 260-261).
  - A payload announced by a byte-count marker: its `ValueError` is raised inside `try: int(line)`, so the outer `except ValueError` at line 133 catches it. `parse_response` then appends the marker's own integer in place of the payload.
  - `parse_query_response` reads that marker line as a chunk that yields no text, so the payload is silently skipped (lines 249-265).

  The codec cannot raise, so the model decodes such a payload in all three cases. `Framing.IsIntLiteral` applies the limit, so a line of more than 4300 digits is not a marker.
- Reshape.ParseTimestamp: models whether a timestamp is produced or raises, and the seconds value it is built from. The `datetime` ISO rendering is not modelled. Float seconds are not modelled.
- Reshape.FromTimestamp: seconds that fit a 64-bit `time_t` but whose year overflows the C library's `gmtime` raise `OSError` in CPython; the model reports them as `ValueError`, like the other out-of-range seconds.
- Character handling is ASCII only:
  - `str.lower()` is modelled on ASCII letters only.
  - `int()` and `\d` accept ASCII digits only; Python also accepts other Unicode decimal digits.
- The `httpx` exception text inside `"HTTP {status}: {e}"` is a `detail` parameter of Tools.RaisedOf.
- A `UnicodeDecodeError` raised while reading the MCP configuration file is not modelled.
- The tools take the client's outcome as a parameter. Forwarding `source_ids`, `conversation_id` and `title` to the client is therefore not modelled inside Tools; Client models what the client does with them.
- `src/notebooklm_mcp_2026/client.py`, which the tools import, is not part of this model. `src/notebook_julian/client.py` is modelled in its place and is assumed to match it; likewise `notebook_julian/protocol.py` is assumed to match the modelled `protocol.py`. Neither correspondence is checked.
- The login hint (the constant `LoginHint` in Tools), the text "Run 'notebook-julian login' to re-authenticate." is the hint `src/notebook_julian/client.py` attaches. The tools package's own client is not part of this model, so whether its hint names the `notebooklm-mcp-2026 login` command instead, as `tools/auth_tools.py` and `server.py` do, is not checked.
- The conversion of a loaded credential bundle, whose fields are JSON values, into the client's cookie map, token and session id is not modelled. The retry policy takes the reload's outcome as given, with a raising load standing for `Auth.LoadTokens` returning `LoadRaises`.
- `server.py` (FastMCP registration and the client singleton) is framework glue and is left out. So are `tools/auth_tools.py`, `notebook_julian/tools/__init__.py`, and all of `cli.py` apart from `merge_mcp_config` (console output, argument parsing, client detection).
- Executor.BackoffRunNonDecreasing: sleeps are non-decreasing within each stretch of attempts, not across a whole call. After a refresh the counter restarts at 0, so a call can sleep 1, 2, 1. Executor.DelaysPerStretch states the whole call's sleeps.
- The comments at src/notebook_julian/client.py:9 and :222 speak of retrying "429/5xx"; config.py:130 retries only 429, 500, 502, 503 and 504 (`Config.RetryableExcludesAuthStatuses`), and the model follows config.py.
- The reshapers raise on an unhashable type code, on a notebook timestamp `datetime` cannot represent and on some add-source reply shapes (`Reshape.ListSourcesUnhashable`, `Reshape.ListNotebooksOutOfRange`, `Reshape.ParseSourceResultRaises`).

## Findings

| source | as written | input that shows it | evidently intended | confidence | as-written member | corrected member |
|---|---|---|---|---|---|---|
| src/notebooklm_mcp_2026/auth.py:95-106 | `load_tokens` catches only `JSONDecodeError`, `KeyError` and `TypeError`, but a decoded document that is not an object reaches `data.get` and raises `AttributeError` | a credential file holding `[]` | return `None` for a corrupt file, as its docstring says | not executed | Auth.LoadTokensListRaises | Auth.LoadTokensCheckedNeverRaises |
| src/notebooklm_mcp_2026/tools/notebooks.py:35-36 | the notebook tools answer an unexpected exception with no `hint`, unlike every other tool | `list_notebooks` raising `RuntimeError("boom")`, for which tests/test_tools.py:108-116 expects a hint | add the doctor hint, as `sources.py` and `query.py` do | not executed | Tools.NotebooksUnexpectedErrorLacksHint | Tools.ToolErrorHints |

=== FILE: auth.dfy ===
/**
 * The pure parts of authentication: the persisted token bundle, cookie-set validation,
 * the browser-cookie filter, and the missing-cookie report.
 */
module Auth {
  import opened Wrappers
  import opened Text
  import opened Json
  import Config

  // ---------------------------------------------------------------------------
  // The persisted bundle
  // ---------------------------------------------------------------------------

  /**
   * `AuthTokens` as `from_dict` builds it: the constructor does not check types, so each
   * field holds whatever JSON value the dictionary had.
   */
  datatype Tokens = Tokens(cookies: Json, csrfToken: Json, sessionId: Json, extractedAt: Json)

  /** `to_dict`: the dataclass fields under their Python names. */
  function ToDict(t: Tokens): map<string, Json> {
    map["cookies" := t.cookies, "csrf_token" := t.csrfToken, "session_id" := t.sessionId, "extracted_at" := t.extractedAt]
  }

  /** Python's `d.get(key, default)`. */
  function Get(d: map<string, Json>, key: string, default: Json): (v: Json)
    ensures key in d ==> v == d[key]
    ensures key !in d ==> v == default
  {
    if key in d then d[key] else default
  }

  /** `from_dict`: missing fields default to `{}`, `""`, `""` and zero. */
  function FromDict(d: map<string, Json>): Tokens {
    Tokens(
      Get(d, "cookies", Obj(map[])),
      Get(d, "csrf_token", Str("")),
      Get(d, "session_id", Str("")),
      Get(d, "extracted_at", Num(0)))
  }

  /** `from_dict(to_dict(t)) == t`, and `to_dict` writes exactly the four fields. */
  lemma DictRoundTrip(t: Tokens)
    ensures FromDict(ToDict(t)) == t
    ensures ToDict(t).Keys == {"cookies", "csrf_token", "session_id", "extracted_at"}
  {
  }

  /** Each missing field takes its default; an empty dictionary gives the all-default bundle. */
  lemma FromDictDefaults(d: map<string, Json>)
    ensures "cookies" !in d ==> FromDict(d).cookies == Obj(map[])
    ensures "csrf_token" !in d ==> FromDict(d).csrfToken == Str("")
    ensures "session_id" !in d ==> FromDict(d).sessionId == Str("")
    ensures "extracted_at" !in d ==> FromDict(d).extractedAt == Num(0)
    ensures FromDict(map[]) == Tokens(Obj(map[]), Str(""), Str(""), Num(0))
  {
  }

  /** What `load_tokens` gives: a bundle, `None`, or an exception it does not catch. */
  datatype LoadResult = Loaded(tokens: Tokens) | NoTokens | LoadRaises(error: string)

  /**
   * `load_tokens` on the credential file's text (`None` when the file is absent). Text that
   * does not decode, and a bundle whose cookies are falsy, give `None`. Decoded JSON that is
   * not an object reaches `data.get`, which raises `AttributeError`.
   */
  function LoadTokens(decode: string -> Option<Json>, file: Option<string>): LoadResult {
    match file
    case None => NoTokens
    case Some(text) =>
      match decode(text)
      case None => NoTokens
      case Some(data) =>
        if !data.Obj? then LoadRaises("AttributeError")
        else
          var t := FromDict(data.fields);
          if !Truthy(t.cookies) then NoTokens else Loaded(t)
  }

  /** `load_tokens` with every non-object document treated as corrupt, as its contract says. */
  function LoadTokensChecked(decode: string -> Option<Json>, file: Option<string>): LoadResult {
    match file
    case None => NoTokens
    case Some(text) =>
      match decode(text)
      case None => NoTokens
      case Some(data) =>
        if !data.Obj? then NoTokens
        else
          var t := FromDict(data.fields);
          if !Truthy(t.cookies) then NoTokens else Loaded(t)
  }

  /** A file holding a JSON list makes `load_tokens` raise instead of returning `None`. */
  lemma LoadTokensListRaises(decode: string -> Option<Json>, text: string)
    requires decode(text) == Some(Arr([]))
    ensures LoadTokens(decode, Some(text)) == LoadRaises("AttributeError")
    ensures LoadTokensChecked(decode, Some(text)) == NoTokens
  {
  }

  /** The checked loader never raises, and agrees with `load_tokens` as written whenever that does not raise. */
  lemma LoadTokensCheckedNeverRaises(decode: string -> Option<Json>, file: Option<string>)
    ensures !LoadTokensChecked(decode, file).LoadRaises?
    ensures !LoadTokens(decode, file).LoadRaises? ==> LoadTokensChecked(decode, file) == LoadTokens(decode, file)
  {
  }

  /**
   * Saving (`json.dumps(to_dict(t), indent=2)`) and loading again gives the bundle back, or
   * `None` when its cookies are empty.
   */
  lemma SaveLoadRoundTrip(codec: JsonCodec, t: Tokens)
    requires Lawful(codec)
    ensures LoadTokens(codec.decode, Some(codec.pretty(Obj(ToDict(t)))))
      == (if Truthy(t.cookies) then Loaded(t) else NoTokens)
    ensures LoadTokensChecked(codec.decode, Some(codec.pretty(Obj(ToDict(t)))))
      == (if Truthy(t.cookies) then Loaded(t) else NoTokens)
  {
    assert codec.decode(codec.pretty(Obj(ToDict(t)))) == Some(Obj(ToDict(t)));
    DictRoundTrip(t);
  }

  /** A bundle with an empty cookie map, or none at all, is rejected. */
  lemma EmptyCookiesRejected(decode: string -> Option<Json>, text: string, d: map<string, Json>)
    requires decode(text) == Some(Obj(d))
    requires "cookies" !in d || d["cookies"] == Obj(map[])
    ensures LoadTokens(decode, Some(text)) == NoTokens
    ensures LoadTokensChecked(decode, Some(text)) == NoTokens
  {
  }

  // ---------------------------------------------------------------------------
  // Cookie-set validation
  // ---------------------------------------------------------------------------

  /** `validate_cookies`. */
  predicate ValidateCookies(c: map<string, string>) {
    Config.RequiredCookies <= c.Keys
  }

  /** The required names that are absent. */
  function MissingCookies(c: map<string, string>): (m: set<string>)
    ensures m <= Config.RequiredCookies
    ensures forall n :: n in m <==> n in Config.RequiredCookies && n !in c
  {
    Config.RequiredCookies - c.Keys
  }

  /** Valid exactly when every required name is a key; extra keys never matter. */
  lemma ValidateCookiesIff(c: map<string, string>, extra: map<string, string>)
    ensures ValidateCookies(c) <==> forall n :: n in Config.RequiredCookies ==> n in c
    ensures ValidateCookies(c) <==> MissingCookies(c) == {}
    ensures ValidateCookies(c) ==> ValidateCookies(c + extra) && ValidateCookies(extra + c)
  {
    if MissingCookies(c) == {} {
      forall n | n in Config.RequiredCookies ensures n in c {
        assert n !in MissingCookies(c);
      }
    }
  }

  /** The source's own examples: the five names suffice; four of them do not. */
  lemma ValidateCookiesExamples()
    ensures ValidateCookies(map["SID" := "a", "HSID" := "b", "SSID" := "c", "APISID" := "d", "SAPISID" := "e", "NID" := "f"])
    ensures !ValidateCookies(map["SID" := "a", "HSID" := "b", "SSID" := "c", "APISID" := "d"])
  {
    var four := map["SID" := "a", "HSID" := "b", "SSID" := "c", "APISID" := "d"];
    assert "SAPISID" in Config.RequiredCookies && "SAPISID" !in four;
  }

  /** The names of `xs` that are not keys of `c`, in order. */
  function FilterNames(xs: seq<string>, c: map<string, string>): (r: seq<string>)
    ensures forall n :: n in r <==> n in xs && n !in c
    ensures |r| <= |xs|
    decreases |xs|
  {
    if |xs| == 0 then []
    else (if xs[0] !in c then [xs[0]] else []) + FilterNames(xs[1..], c)
  }

  /** Dropping elements of a strictly sorted list keeps it strictly sorted. */
  lemma {:induction false} FilterNamesSorted(xs: seq<string>, c: map<string, string>)
    requires SortedStrictly(xs)
    ensures SortedStrictly(FilterNames(xs, c))
    decreases |xs|
  {
    if |xs| > 0 {
      var rest := FilterNames(xs[1..], c);
      assert SortedStrictly(xs[1..]) by {
        forall i, j | 0 <= i < j < |xs[1..]| ensures LessThan(xs[1..][i], xs[1..][j]) {
          assert xs[1..][i] == xs[i + 1] && xs[1..][j] == xs[j + 1];
        }
      }
      FilterNamesSorted(xs[1..], c);
      if xs[0] !in c {
        var r := [xs[0]] + rest;
        forall i, j | 0 <= i < j < |r| ensures LessThan(r[i], r[j]) {
          if i == 0 {
            assert r[j] in rest;
            var k :| 0 <= k < |xs[1..]| && xs[1..][k] == r[j];
            assert xs[k + 1] == r[j];
          } else {
            assert r[i] == rest[i - 1] && r[j] == rest[j - 1];
          }
        }
      }
    }
  }

  lemma RequiredCookiesSortedIsSorted()
    ensures SortedStrictly(Config.RequiredCookiesSorted)
    ensures forall n :: n in Config.RequiredCookiesSorted <==> n in Config.RequiredCookies
  {
    var xs := Config.RequiredCookiesSorted;
    assert LessThan(xs[0], xs[1]) && LessThan(xs[1], xs[2]) && LessThan(xs[2], xs[3]) && LessThan(xs[3], xs[4]);
    assert LessThan(xs[0], xs[2]) && LessThan(xs[0], xs[3]) && LessThan(xs[0], xs[4]);
    assert LessThan(xs[1], xs[3]) && LessThan(xs[1], xs[4]) && LessThan(xs[2], xs[4]);
  }

  /** `sorted(REQUIRED_COOKIES - cookies.keys())`. */
  function SortedMissing(c: map<string, string>): seq<string> {
    FilterNames(Config.RequiredCookiesSorted, c)
  }

  /** The missing-name list holds exactly the missing names, in strictly increasing order. */
  lemma SortedMissingSpec(c: map<string, string>)
    ensures SortedStrictly(SortedMissing(c))
    ensures forall n :: n in SortedMissing(c) <==> n in MissingCookies(c)
  {
    RequiredCookiesSortedIsSorted();
    FilterNamesSorted(Config.RequiredCookiesSorted, c);
  }

  /** The login error for an incomplete cookie set. */
  function MissingMessage(c: map<string, string>): string {
    "Missing required cookies: " + JoinWith(SortedMissing(c), ", ") + ". Make sure you are fully logged in."
  }

  // ---------------------------------------------------------------------------
  // The browser-cookie filter
  // ---------------------------------------------------------------------------

  /** One cookie record from the browser; an absent field reads as `""`. */
  datatype CookieRecord = CookieRecord(name: string, domain: string, value: string)

  /** A record is kept when its name is essential and its domain contains `.google.com`. */
  predicate Keeps(r: CookieRecord) {
    r.name in Config.EssentialCookies && Contains(r.domain, ".google.com")
  }

  /** The filter loop: each kept record overwrites any earlier value for its name. */
  function FilterCookies(raw: seq<CookieRecord>): (m: map<string, string>)
    ensures m.Keys <= Config.EssentialCookies
    decreases |raw|
  {
    if |raw| == 0 then map[]
    else
      var m := FilterCookies(raw[..|raw| - 1]);
      var r := raw[|raw| - 1];
      if Keeps(r) then m[r.name := r.value] else m
  }

  /** `raw[i]` is the last kept record named `n`. */
  predicate LastKept(raw: seq<CookieRecord>, n: string, i: int) {
    && 0 <= i < |raw|
    && Keeps(raw[i])
    && raw[i].name == n
    && forall j :: i < j < |raw| ==> !(Keeps(raw[j]) && raw[j].name == n)
  }

  /** The filter keeps exactly the names of kept records. */
  lemma {:induction false} FilterCookiesKeys(raw: seq<CookieRecord>)
    ensures forall n :: n in FilterCookies(raw) <==> exists i :: 0 <= i < |raw| && Keeps(raw[i]) && raw[i].name == n
    decreases |raw|
  {
    if |raw| > 0 {
      var init := raw[..|raw| - 1];
      var last := |raw| - 1;
      var m := FilterCookies(init);
      FilterCookiesKeys(init);
      forall n ensures n in FilterCookies(raw) <==> exists i :: 0 <= i < |raw| && Keeps(raw[i]) && raw[i].name == n {
        if n in m {
          var i :| 0 <= i < |init| && Keeps(init[i]) && init[i].name == n;
          assert raw[i] == init[i];
        }
        if exists i :: 0 <= i < |raw| && Keeps(raw[i]) && raw[i].name == n {
          var i :| 0 <= i < |raw| && Keeps(raw[i]) && raw[i].name == n;
          if i < last {
            assert init[i] == raw[i];
          }
        }
      }
    }
  }

  lemma LastKeptExtends(raw: seq<CookieRecord>, n: string, i: int)
    requires |raw| > 0 && LastKept(raw[..|raw| - 1], n, i)
    requires !(Keeps(raw[|raw| - 1]) && raw[|raw| - 1].name == n)
    ensures LastKept(raw, n, i) && raw[i] == raw[..|raw| - 1][i]
  {
    var init := raw[..|raw| - 1];
    forall j | i < j < |raw| ensures !(Keeps(raw[j]) && raw[j].name == n) {
      if j < |raw| - 1 {
        assert raw[j] == init[j];
      }
    }
  }

  /** Each kept name maps to the value of the last kept record with that name. */
  lemma {:induction false} FilterCookiesLastWins(raw: seq<CookieRecord>)
    ensures forall n :: n in FilterCookies(raw) ==> exists i :: LastKept(raw, n, i) && FilterCookies(raw)[n] == raw[i].value
    decreases |raw|
  {
    if |raw| > 0 {
      var init := raw[..|raw| - 1];
      var last := |raw| - 1;
      var m := FilterCookies(init);
      FilterCookiesLastWins(init);
      forall n | n in FilterCookies(raw) ensures exists i :: LastKept(raw, n, i) && FilterCookies(raw)[n] == raw[i].value {
        if Keeps(raw[last]) && raw[last].name == n {
          assert LastKept(raw, n, last);
        } else {
          var i :| LastKept(init, n, i) && m[n] == init[i].value;
          LastKeptExtends(raw, n, i);
        }
      }
    }
  }

  /**
   * The post-login collection step: no records at all is an error, then the filter, then the
   * required-cookie check with its sorted missing-name report.
   */
  function CollectCookies(raw: seq<CookieRecord>): (r: Result<map<string, string>, string>)
    ensures r.Success? ==> ValidateCookies(r.value) && r.value == FilterCookies(raw)
  {
    if |raw| == 0 then Failure("No cookies extracted — make sure you are fully logged in.")
    else
      var m := FilterCookies(raw);
      if !ValidateCookies(m) then Failure(MissingMessage(m)) else Success(m)
  }

  /** Collection fails exactly when there are no records or a required name is missing. */
  lemma CollectCookiesIff(raw: seq<CookieRecord>)
    ensures CollectCookies(raw).Success? <==> |raw| > 0 && MissingCookies(FilterCookies(raw)) == {}
  {
    ValidateCookiesIff(FilterCookies(raw), map[]);
  }

  /** What the login poll ends with. */
  datatype PollResult = LoggedIn(poll: nat, cookies: map<string, string>) | TimedOut

  /**
   * The polling loop: each poll either fails (`None`, swallowed) or returns records; it stops at
   * the first poll whose filtered records cover the required names. The clock is modelled by
   * the number of polls made before the timeout.
   */
  function PollForCookies(polls: seq<Option<seq<CookieRecord>>>, from: nat): (r: PollResult)
    ensures r.LoggedIn? ==>
      && from <= r.poll < |polls|
      && polls[r.poll].Some?
      && r.cookies == FilterCookies(polls[r.poll].value)
      && ValidateCookies(r.cookies)
    decreases |polls| - from
  {
    if from >= |polls| then TimedOut
    else if polls[from].Some? && ValidateCookies(FilterCookies(polls[from].value)) then
      LoggedIn(from, FilterCookies(polls[from].value))
    else PollForCookies(polls, from + 1)
  }

  /** A poll covers the required names. */
  predicate Covers(p: Option<seq<CookieRecord>>) {
    p.Some? && ValidateCookies(FilterCookies(p.value))
  }

  /** Polling stops at the first covering poll, and times out only when no poll covers. */
  lemma {:induction false} PollStopsAtFirstCover(polls: seq<Option<seq<CookieRecord>>>, from: nat)
    ensures var r := PollForCookies(polls, from);
      && (r.LoggedIn? ==> forall j :: from <= j < r.poll ==> !Covers(polls[j]))
      && (r.TimedOut? <==> forall j :: from <= j < |polls| ==> !Covers(polls[j]))
    decreases |polls| - from
  {
    if from < |polls| {
      PollStopsAtFirstCover(polls, from + 1);
    }
  }
}

=== FILE: client.dfy ===
/**
 * The client's domain calls: the per-conversation turn cache and the history it renders,
 * the streaming `query` call, and the add-source calls with their parameter shapes. Each RPC
 * goes through the retry policy of `Executor`; the query's single POST does not.
 */
module Client {
  import opened Wrappers
  import opened Text
  import opened Json
  import opened Config
  import Executor
  import Reshape
  import Protocol
  import Streaming

  // ---------------------------------------------------------------------------------------
  // Conversation cache
  // ---------------------------------------------------------------------------------------

  /** One cached exchange of a conversation. */
  datatype Turn = Turn(query: string, answer: string, turnNumber: nat)

  /** The turns of each conversation, oldest first. */
  type Cache = map<string, seq<Turn>>

  /** `cache.get(id, [])`. */
  function TurnsOf(cache: Cache, id: string): seq<Turn> {
    if id in cache then cache[id] else []
  }

  /** Every conversation's turns are numbered 1, 2, … in order. */
  predicate Numbered(cache: Cache) {
    forall id, i :: id in cache && 0 <= i < |cache[id]| ==> cache[id][i].turnNumber == i + 1
  }

  /** `_cache_turn`: append a turn numbered one past the conversation's current count. */
  function CacheTurn(cache: Cache, id: string, query: string, answer: string): (c: Cache)
    ensures id in c && |c[id]| == |TurnsOf(cache, id)| + 1
    ensures c[id][|c[id]| - 1] == Turn(query, answer, |c[id]|)
    ensures c[id][..|c[id]| - 1] == TurnsOf(cache, id)
    ensures forall other :: other != id ==> TurnsOf(c, other) == TurnsOf(cache, other)
  {
    var ts := TurnsOf(cache, id);
    assert (ts + [Turn(query, answer, |ts| + 1)])[..|ts|] == ts;
    cache[id := ts + [Turn(query, answer, |ts| + 1)]]
  }

  /** Caching a turn keeps the numbering consecutive. */
  lemma CacheTurnNumbered(cache: Cache, id: string, query: string, answer: string)
    requires Numbered(cache)
    ensures Numbered(CacheTurn(cache, id, query, answer))
  {
    var c: map<string, seq<Turn>> := CacheTurn(cache, id, query, answer);
    forall other: string, i: int | other in c && 0 <= i < |c[other]| ensures c[other][i].turnNumber == i + 1 {
      if other == id && i < |c[id]| - 1 {
        assert c[id][i] == c[id][..|c[id]| - 1][i];
      }
    }
  }

  /** The history entries of some turns: for each, the answer (role 2) and then the query (role 1). */
  function HistoryEntries(turns: seq<Turn>): seq<Json>
    decreases |turns|
  {
    if |turns| == 0 then []
    else [Arr([Str(turns[0].answer), Null, Num(2)]), Arr([Str(turns[0].query), Null, Num(1)])] + HistoryEntries(turns[1..])
  }

  /** `_build_conversation_history`: `None` without cached turns, else the entries as a list. */
  function BuildHistory(cache: Cache, id: string): Json {
    var turns := TurnsOf(cache, id);
    if |turns| == 0 then Null else Arr(HistoryEntries(turns))
  }

  /** Two entries per turn, in turn order: the answer at an even position, the query after it. */
  lemma {:induction false} HistoryEntriesSpec(turns: seq<Turn>)
    ensures |HistoryEntries(turns)| == 2 * |turns|
    ensures forall i :: 0 <= i < |turns| ==>
      && HistoryEntries(turns)[2 * i] == Arr([Str(turns[i].answer), Null, Num(2)])
      && HistoryEntries(turns)[2 * i + 1] == Arr([Str(turns[i].query), Null, Num(1)])
    decreases |turns|
  {
    if |turns| > 0 {
      HistoryEntriesSpec(turns[1..]);
      var h := HistoryEntries(turns);
      var rest := HistoryEntries(turns[1..]);
      forall i | 1 <= i < |turns|
        ensures h[2 * i] == Arr([Str(turns[i].answer), Null, Num(2)])
        ensures h[2 * i + 1] == Arr([Str(turns[i].query), Null, Num(1)])
      {
        assert turns[1..][i - 1] == turns[i];
        assert h[2 * i] == rest[2 * (i - 1)];
        assert h[2 * i + 1] == rest[2 * (i - 1) + 1];
      }
    }
  }

  /** The history is `None` exactly when nothing is cached, and otherwise twice as long as the turns. */
  lemma BuildHistorySpec(cache: Cache, id: string)
    ensures BuildHistory(cache, id) == Null <==> |TurnsOf(cache, id)| == 0
    ensures BuildHistory(cache, id) != Null ==> |BuildHistory(cache, id).items| == 2 * |TurnsOf(cache, id)|
  {
    HistoryEntriesSpec(TurnsOf(cache, id));
  }

  // ---------------------------------------------------------------------------------------
  // query
  // ---------------------------------------------------------------------------------------

  /** What the client keeps between calls. */
  datatype ClientState = ClientState(creds: Executor.Creds, cache: Cache, reqid: int)

  /** The dict `query` returns. */
  datatype QueryReply = QueryReply(answer: string, conversationId: string, turnNumber: nat, isFollowUp: bool)

  /** What `query` raises: the notebook lookup's failure, or the POST's status or transport error. */
  datatype QueryError = LookupFailed(f: Executor.Failure) | QueryStatus(status: int) | QueryNetwork(timedOut: bool)

  /** The request `query` sends. */
  datatype QueryRequest = QueryRequest(params: Json, body: string, url: string, cookies: map<string, string>)

  /** A finished `query`: the request, if it got that far, the outcome and the client's new state. */
  datatype QueryRun = QueryRun(sent: Option<QueryRequest>, result: Result<QueryReply, QueryError>, state: ClientState)

  /** `[[[sid]] for sid in source_ids]`. */
  function SourcesArray(ids: seq<string>): (j: Json)
    ensures j.Arr? && |j.items| == |ids|
    ensures forall i :: 0 <= i < |ids| ==> j.items[i] == Arr([Arr([Str(ids[i])])])
  {
    Arr(seq(|ids|, i requires 0 <= i < |ids| => Arr([Arr([Str(ids[i])])])))
  }

  /** The ids a list of sources names: the string inside each `[[id]]` entry, in order; other entries name none. */
  function NamedSources(entries: seq<Json>): seq<string>
    decreases |entries|
  {
    if |entries| == 0 then []
    else
      var e := entries[0];
      var here := if e.Arr? && |e.items| == 1 && e.items[0].Arr? && |e.items[0].items| == 1 && e.items[0].items[0].Str?
                  then [e.items[0].items[0].s] else [];
      here + NamedSources(entries[1..])
  }

  /** The wrapped array names exactly the ids, in order, and is empty exactly when there are none. */
  lemma {:induction false} SourcesArrayNamesIds(ids: seq<string>)
    ensures NamedSources(SourcesArray(ids).items) == ids
    ensures SourcesArray(ids) == Arr([]) <==> ids == []
    decreases |ids|
  {
    var j := SourcesArray(ids);
    if |ids| > 0 {
      SourcesArrayNamesIds(ids[1..]);
      assert j.items[1..] == SourcesArray(ids[1..]).items;
    }
  }

  /** The five positional parameters of a query. */
  function QueryParams(ids: seq<string>, queryText: string, history: Json, conversationId: string): Json {
    Arr([SourcesArray(ids), Str(queryText), history, Arr([Num(2), Null, Arr([Num(1)])]), Str(conversationId)])
  }

  /**
   * The outcome once the source ids are known: build, send, parse, cache. `jar` is the cookie
   * map of the HTTP client the call obtained before anything else, which the POST carries.
   */
  function Ask(
    codec: JsonCodec, buildLabel: string, jar: map<string, string>, st: ClientState, ids: seq<string>, queryText: string,
    conversationId: Option<string>, freshId: string, response: Executor.Transport): QueryRun
  {
    var cid := if conversationId.Some? then conversationId.value else freshId;
    var history := if conversationId.None? then Null else BuildHistory(st.cache, cid);
    var params := QueryParams(ids, queryText, history, cid);
    var reqid := st.reqid + 100000;
    var req := QueryRequest(params,
      Protocol.BuildQueryBody(codec, params, st.creds.csrf),
      Protocol.BuildQueryUrl(st.creds.sid, reqid, buildLabel),
      jar);
    var st1 := st.(reqid := reqid);
    match response
    case NetworkError(t) => QueryRun(Some(req), Failure(QueryNetwork(t)), st1)
    case Response(status, text) =>
      if !(200 <= status < 300) then QueryRun(Some(req), Failure(QueryStatus(status)), st1)
      else
        var answer := Streaming.ParseQueryResponse(codec.decode, text);
        var cache := if answer != "" then CacheTurn(st.cache, cid, queryText, answer) else st.cache;
        QueryRun(Some(req),
          Success(QueryReply(answer, cid, |TurnsOf(cache, cid)|, conversationId.Some?)),
          st1.(cache := cache))
  }

  /**
   * `query`: without explicit source ids, the notebook is fetched (through the retry policy)
   * and its string source ids used; a new conversation gets `freshId` and no history.
   */
  function Query(
    codec: JsonCodec, buildLabel: string, st: ClientState, lookup: Executor.Env, notebookId: string,
    queryText: string, sourceIds: Option<seq<string>>, conversationId: Option<string>, freshId: string,
    response: Executor.Transport): QueryRun
  {
    if sourceIds.Some? then Ask(codec, buildLabel, st.creds.cookies, st, sourceIds.value, queryText, conversationId, freshId, response)
    else
      var r := Executor.Execute(lookup.(rpcId := RpcGetNotebook), st.creds);
      var st1 := st.(creds := r.creds);
      match r.result
      case Failure(f) => QueryRun(None, Failure(LookupFailed(f)), st1)
      case Success(data) =>
        Ask(codec, buildLabel, st.creds.cookies, st1, Reshape.ExtractSourceIds(data), queryText, conversationId, freshId, response)
  }

  /**
   * The reply's turn number is the conversation's cached count after the call, one more than
   * before exactly when the answer is non-empty; `is_follow_up` holds exactly when an id was
   * supplied, and that id is the reply's.
   */
  lemma AskTurns(
    codec: JsonCodec, buildLabel: string, jar: map<string, string>, st: ClientState, ids: seq<string>, queryText: string,
    conversationId: Option<string>, freshId: string, response: Executor.Transport)
    ensures var q := Ask(codec, buildLabel, jar, st, ids, queryText, conversationId, freshId, response);
      q.result.Success? ==>
        var cid := q.result.value.conversationId;
        && (conversationId.Some? ==> cid == conversationId.value)
        && (conversationId.None? ==> cid == freshId)
        && (q.result.value.isFollowUp <==> conversationId.Some?)
        && q.result.value.turnNumber == |TurnsOf(q.state.cache, cid)|
        && |TurnsOf(q.state.cache, cid)| == |TurnsOf(st.cache, cid)| + (if q.result.value.answer != "" then 1 else 0)
  {
  }

  /** Only the asked conversation's turns change, by at most one appended turn; numbering stays consecutive. */
  lemma AskCache(
    codec: JsonCodec, buildLabel: string, jar: map<string, string>, st: ClientState, ids: seq<string>, queryText: string,
    conversationId: Option<string>, freshId: string, response: Executor.Transport)
    requires Numbered(st.cache)
    ensures var q := Ask(codec, buildLabel, jar, st, ids, queryText, conversationId, freshId, response);
      var cid := if conversationId.Some? then conversationId.value else freshId;
      && Numbered(q.state.cache)
      && (forall other :: other != cid ==> TurnsOf(q.state.cache, other) == TurnsOf(st.cache, other))
      && (q.result.Success? && q.result.value.answer != "" ==>
            TurnsOf(q.state.cache, cid) == TurnsOf(st.cache, cid) + [Turn(queryText, q.result.value.answer, q.result.value.turnNumber)])
      && (q.result.Failure? || q.result.value.answer == "" ==> q.state.cache == st.cache)
  {
    var cid := if conversationId.Some? then conversationId.value else freshId;
    var q := Ask(codec, buildLabel, jar, st, ids, queryText, conversationId, freshId, response);
    if q.result.Success? && q.result.value.answer != "" {
      var c := CacheTurn(st.cache, cid, queryText, q.result.value.answer);
      CacheTurnNumbered(st.cache, cid, queryText, q.result.value.answer);
      assert c[cid] == c[cid][..|c[cid]| - 1] + [c[cid][|c[cid]| - 1]];
    }
  }

  /**
   * Every POST advances the request counter by exactly 100000 and sends it in the URL; a new
   * conversation sends no history, a follow-up sends its cached turns, and the parameters carry
   * the source ids, the query and the conversation id in their slots.
   */
  lemma AskRequest(
    codec: JsonCodec, buildLabel: string, jar: map<string, string>, st: ClientState, ids: seq<string>, queryText: string,
    conversationId: Option<string>, freshId: string, response: Executor.Transport)
    ensures var q := Ask(codec, buildLabel, jar, st, ids, queryText, conversationId, freshId, response);
      var cid := if conversationId.Some? then conversationId.value else freshId;
      && q.sent.Some?
      && q.state.reqid == st.reqid + 100000
      && q.sent.value.url == Protocol.BuildQueryUrl(st.creds.sid, st.reqid + 100000, buildLabel)
      && q.sent.value.body == Protocol.BuildQueryBody(codec, q.sent.value.params, st.creds.csrf)
      && q.sent.value.cookies == jar
      && q.sent.value.params.items[0] == SourcesArray(ids)
      && q.sent.value.params.items[1] == Str(queryText)
      && q.sent.value.params.items[4] == Str(cid)
      && (conversationId.None? ==> q.sent.value.params.items[2] == Null)
      && (conversationId.Some? ==> q.sent.value.params.items[2] == BuildHistory(st.cache, cid))
  {
    var q := Ask(codec, buildLabel, jar, st, ids, queryText, conversationId, freshId, response);
    var cid := if conversationId.Some? then conversationId.value else freshId;
    var history := if conversationId.None? then Null else BuildHistory(st.cache, cid);
    var params := QueryParams(ids, queryText, history, cid);
    var reqid := st.reqid + 100000;
    assert q.sent == Some(QueryRequest(params, Protocol.BuildQueryBody(codec, params, st.creds.csrf),
                                       Protocol.BuildQueryUrl(st.creds.sid, reqid, buildLabel), jar));
    assert q.state.reqid == reqid;
    assert params.items[2] == history;
  }

  /** Two answered queries in one conversation are numbered one after the other. */
  lemma FollowUpNumbering(
    codec: JsonCodec, buildLabel: string, jar: map<string, string>, st: ClientState, ids: seq<string>, q1: string, q2: string,
    freshId: string, r1: Executor.Transport, r2: Executor.Transport, unused: string)
    requires var a := Ask(codec, buildLabel, jar, st, ids, q1, None, freshId, r1);
      a.result.Success? && a.result.value.answer != ""
    ensures var a := Ask(codec, buildLabel, jar, st, ids, q1, None, freshId, r1);
      var b := Ask(codec, buildLabel, jar, a.state, ids, q2, Some(a.result.value.conversationId), unused, r2);
      && a.result.value.turnNumber == |TurnsOf(st.cache, freshId)| + 1
      && (b.result.Success? && b.result.value.answer != "" ==> b.result.value.turnNumber == a.result.value.turnNumber + 1)
      && (b.result.Success? ==> b.result.value.isFollowUp && b.result.value.conversationId == freshId)
  {
    var a := Ask(codec, buildLabel, jar, st, ids, q1, None, freshId, r1);
    AskTurns(codec, buildLabel, jar, st, ids, q1, None, freshId, r1);
    AskTurns(codec, buildLabel, jar, a.state, ids, q2, Some(a.result.value.conversationId), unused, r2);
  }

  /** A lookup that fails ends the query before anything is sent or cached. */
  lemma QueryLookupFails(
    codec: JsonCodec, buildLabel: string, st: ClientState, lookup: Executor.Env, notebookId: string,
    queryText: string, conversationId: Option<string>, freshId: string, response: Executor.Transport)
    requires Executor.Execute(lookup.(rpcId := RpcGetNotebook), st.creds).result.Failure?
    ensures var q := Query(codec, buildLabel, st, lookup, notebookId, queryText, None, conversationId, freshId, response);
      && q.sent.None? && q.result.Failure? && q.result.error.LookupFailed?
      && q.state.cache == st.cache && q.state.reqid == st.reqid
  {
  }

  /**
   * Without explicit ids the query asks about the notebook's string source ids. The token and
   * session id the POST uses are those the lookup left behind, but its cookies are the ones the
   * client held before the lookup: the HTTP client was obtained first.
   */
  lemma QueryUsesNotebookSources(
    codec: JsonCodec, buildLabel: string, st: ClientState, lookup: Executor.Env, notebookId: string,
    queryText: string, conversationId: Option<string>, freshId: string, response: Executor.Transport)
    requires Executor.Execute(lookup.(rpcId := RpcGetNotebook), st.creds).result.Success?
    ensures var r := Executor.Execute(lookup.(rpcId := RpcGetNotebook), st.creds);
      var q := Query(codec, buildLabel, st, lookup, notebookId, queryText, None, conversationId, freshId, response);
      && q.sent.Some?
      && q.sent.value.params.items[0] == SourcesArray(Reshape.ExtractSourceIds(r.result.value))
      && q.sent.value.url == Protocol.BuildQueryUrl(r.creds.sid, st.reqid + 100000, buildLabel)
      && q.sent.value.body == Protocol.BuildQueryBody(codec, q.sent.value.params, r.creds.csrf)
      && q.sent.value.cookies == st.creds.cookies
      && q.state.creds == r.creds
  {
    var r := Executor.Execute(lookup.(rpcId := RpcGetNotebook), st.creds);
    var st1 := st.(creds := r.creds);
    var ids := Reshape.ExtractSourceIds(r.result.value);
    assert Query(codec, buildLabel, st, lookup, notebookId, queryText, None, conversationId, freshId, response)
      == Ask(codec, buildLabel, st.creds.cookies, st1, ids, queryText, conversationId, freshId, response);
    AskRequest(codec, buildLabel, st.creds.cookies, st1, ids, queryText, conversationId, freshId, response);
  }

  // ---------------------------------------------------------------------------------------
  // add_url_source, add_text_source
  // ---------------------------------------------------------------------------------------

  /** `"youtube.com" in url.lower() or "youtu.be" in url.lower()`, for ASCII case. */
  predicate IsYouTube(url: string) {
    Contains(LowerAscii(url), "youtube.com") || Contains(LowerAscii(url), "youtu.be")
  }

  /** The eleven-slot source descriptor for a URL: slot 7 for a YouTube link, slot 2 otherwise. */
  function UrlSourceData(url: string): seq<Json> {
    if IsYouTube(url) then [Null, Null, Null, Null, Null, Null, Null, Arr([Str(url)]), Null, Null, Num(1)]
    else [Null, Null, Arr([Str(url)]), Null, Null, Null, Null, Null, Null, Null, Num(1)]
  }

  /** The eleven-slot source descriptor for pasted text: `[title, text]` at slot 1 and type 2 at slot 3. */
  function TextSourceData(title: string, text: string): seq<Json> {
    [Null, Arr([Str(title), Str(text)]), Null, Num(2), Null, Null, Null, Null, Null, Null, Num(1)]
  }

  /** The four positional parameters of an add-source call. */
  function AddSourceParams(sourceData: seq<Json>, notebookId: string): Json {
    Arr([Arr([Arr(sourceData)]), Str(notebookId), Arr([Num(2)]),
      Arr([Num(1), Null, Null, Null, Null, Null, Null, Null, Null, Null, Arr([Num(1)])])])
  }

  /** Both descriptors have eleven slots ending in 1; the URL sits at exactly one of slots 2 and 7. */
  lemma SourceDataShapes(url: string, title: string, text: string)
    ensures |UrlSourceData(url)| == 11 && UrlSourceData(url)[10] == Num(1)
    ensures IsYouTube(url) ==> UrlSourceData(url)[7] == Arr([Str(url)]) && UrlSourceData(url)[2] == Null
    ensures !IsYouTube(url) ==> UrlSourceData(url)[2] == Arr([Str(url)]) && UrlSourceData(url)[7] == Null
    ensures |TextSourceData(title, text)| == 11 && TextSourceData(title, text)[10] == Num(1)
    ensures TextSourceData(title, text)[1] == Arr([Str(title), Str(text)]) && TextSourceData(title, text)[3] == Num(2)
  {
  }

  /** A lower-case marker anywhere in the URL makes it a YouTube link. */
  lemma YouTubeDetected(pre: string, marker: string, post: string)
    requires marker == "youtube.com" || marker == "youtu.be"
    ensures IsYouTube(pre + marker + post)
  {
    var u := pre + marker + post;
    var l := LowerAscii(u);
    assert l[|pre|..|pre| + |marker|] == marker by {
      forall i | 0 <= i < |marker| ensures l[|pre| + i] == marker[i] {
        assert u[|pre| + i] == marker[i];
      }
    }
    assert OccursAt(l, marker, |pre|);
  }

  /** The errors the add-source calls raise: the call's own, or one of Python's while reading the reply. */
  datatype ClientError = CallFailed(f: Executor.Failure) | Raised(e: PyError)

  /** The dict for a call that timed out, which may still have added the source. */
  const TimeoutReply: map<string, Json> := map["status" := Str("timeout"), "message" := Str("Timed out but may have succeeded.")]

  /**
   * The common tail of both add-source calls: a timeout anywhere in the call (its POSTs or the
   * refresh's page fetch) becomes the timeout dict; other failures propagate; a reply is read
   * by `_parse_source_result`.
   */
  function AddSource(env: Executor.Env, st: ClientState, sourceData: seq<Json>, notebookId: string, defaultTitle: string)
    : (Json, Result<Option<map<string, Json>>, ClientError>, ClientState)
  {
    ReadSourceReply(AddSourceParams(sourceData, notebookId), Executor.Execute(env.(rpcId := RpcAddSource), st.creds), st, defaultTitle)
  }

  /** What the add-source calls make of the executor's run `r`. */
  function ReadSourceReply(params: Json, r: Executor.Run, st: ClientState, defaultTitle: string)
    : (Json, Result<Option<map<string, Json>>, ClientError>, ClientState)
  {
    var st1 := st.(creds := r.creds);
    match r.result
    case Failure(Network(true)) => (params, Success(Some(TimeoutReply)), st1)
    case Failure(f) => (params, Failure(CallFailed(f)), st1)
    case Success(v) => (params, AddedReply(Reshape.ParseSourceResult(v, defaultTitle)), st1)
  }

  /** `_parse_source_result`'s outcome as the call returns it: the `{id, title}` dict, `None`, or the error. */
  function AddedReply(parsed: Result<Option<Reshape.Added>, PyError>): Result<Option<map<string, Json>>, ClientError> {
    match parsed
    case Failure(e) => Failure(Raised(e))
    case Success(None) => Success(None)
    case Success(Some(a)) => Success(Some(map["id" := a.id, "title" := a.title]))
  }

  function AddUrlSource(env: Executor.Env, st: ClientState, notebookId: string, url: string)
    : (Json, Result<Option<map<string, Json>>, ClientError>, ClientState)
  {
    AddSource(env, st, UrlSourceData(url), notebookId, "Untitled")
  }

  function AddTextSource(env: Executor.Env, st: ClientState, notebookId: string, text: string, title: string)
    : (Json, Result<Option<map<string, Json>>, ClientError>, ClientState)
  {
    AddSource(env, st, TextSourceData(title, text), notebookId, title)
  }

  /**
   * A timed-out call gives the timeout dict, never an error; a parsed reply gives a dict with
   * exactly `id` and `title`, the title falling back to the pasted text's title.
   */
  lemma AddSourceOutcomes(env: Executor.Env, st: ClientState, sourceData: seq<Json>, notebookId: string, defaultTitle: string)
    ensures var r := Executor.Execute(env.(rpcId := RpcAddSource), st.creds);
      var out := AddSource(env, st, sourceData, notebookId, defaultTitle);
      && out.0 == AddSourceParams(sourceData, notebookId)
      && out.2.creds == r.creds
      && (r.result == Failure(Executor.Network(true)) ==> out.1 == Success(Some(TimeoutReply)))
      && (r.result.Failure? && r.result != Failure(Executor.Network(true)) ==> out.1 == Failure(CallFailed(r.result.error)))
      && (r.result.Success? && Reshape.ParseSourceResult(r.result.value, defaultTitle).Success?
          && Reshape.ParseSourceResult(r.result.value, defaultTitle).value.Some? ==>
            && out.1.Success? && out.1.value.Some?
            && out.1.value.value.Keys == {"id", "title"}
            && out.1.value.value["id"] == Reshape.ParseSourceResult(r.result.value, defaultTitle).value.value.id
            && out.1.value.value["title"] == Reshape.ParseSourceResult(r.result.value, defaultTitle).value.value.title)
  {
    var r := Executor.Execute(env.(rpcId := RpcAddSource), st.creds);
    ReadSourceReplyOutcomes(AddSourceParams(sourceData, notebookId), r, st, defaultTitle);
  }

  /** `AddSourceOutcomes` for any run of the executor. */
  lemma ReadSourceReplyOutcomes(params: Json, r: Executor.Run, st: ClientState, defaultTitle: string)
    ensures var out := ReadSourceReply(params, r, st, defaultTitle);
      && out.0 == params
      && out.2.creds == r.creds
      && (r.result == Failure(Executor.Network(true)) ==> out.1 == Success(Some(TimeoutReply)))
      && (r.result.Failure? && r.result != Failure(Executor.Network(true)) ==> out.1 == Failure(CallFailed(r.result.error)))
      && (r.result.Success? && Reshape.ParseSourceResult(r.result.value, defaultTitle).Success?
          && Reshape.ParseSourceResult(r.result.value, defaultTitle).value.Some? ==>
            && out.1.Success? && out.1.value.Some?
            && out.1.value.value.Keys == {"id", "title"}
            && out.1.value.value["id"] == Reshape.ParseSourceResult(r.result.value, defaultTitle).value.value.id
            && out.1.value.value["title"] == Reshape.ParseSourceResult(r.result.value, defaultTitle).value.value.title)
  {
  }
}

=== FILE: config.dfy ===
/** Endpoints, RPC identifiers, cookie names and retry constants of the client. */
module Config {

  const BaseUrl: string := "https://notebooklm.google.com"
  const BatchExecuteUrl: string := BaseUrl + "/_/LabsTailwindUi/data/batchexecute"
  const QueryEndpoint: string :=
    "/_/LabsTailwindUi/data/google.internal.labs.tailwind.orchestration.v1."
    + "LabsTailwindOrchestrationService/GenerateFreeFormStreamed"

  /** Default build label; the running system lets an environment variable override it. */
  const DefaultBuildLabel: string := "boq_labs-tailwind-frontend_20260108.06_p0"

  const RpcListNotebooks: string := "wXbhsf"
  const RpcGetNotebook: string := "rLM1Ne"
  const RpcGetSource: string := "hizoJc"
  const RpcAddSource: string := "izAoDd"
  const RpcGetSourceGuide: string := "tr032e"

  /** Source type codes of the remote service and their readable names. */
  const SourceTypes: map<int, string> := map[
    1 := "google_docs",
    2 := "google_slides_sheets",
    3 := "pdf",
    4 := "pasted_text",
    5 := "web_page",
    8 := "generated_text",
    9 := "youtube",
    11 := "uploaded_file",
    13 := "image",
    14 := "word_doc"
  ]

  /** The cookies without which no call succeeds. */
  const RequiredCookies: set<string> := {"SID", "HSID", "SSID", "APISID", "SAPISID"}

  /** Every cookie kept from the browser. */
  const EssentialCookies: set<string> := {
    "SID", "HSID", "SSID", "APISID", "SAPISID",
    "__Secure-1PSID", "__Secure-3PSID",
    "__Secure-1PAPISID", "__Secure-3PAPISID",
    "OSID", "__Secure-OSID",
    "__Secure-1PSIDTS", "__Secure-3PSIDTS",
    "SIDCC", "__Secure-1PSIDCC", "__Secure-3PSIDCC"
  }

  /** The required cookie names in Python's sorted order. */
  const RequiredCookiesSorted: seq<string> := ["APISID", "HSID", "SAPISID", "SID", "SSID"]

  const MaxRetries: nat := 3
  /** Seconds; the source's float constants hold whole numbers. */
  const RetryBaseDelay: nat := 1
  const RetryMaxDelay: nat := 16
  const RetryableStatusCodes: set<int> := {429, 500, 502, 503, 504}

  /** The five required names, and every one of them is also kept. */
  lemma RequiredCookiesAreEssential()
    ensures |RequiredCookies| == 5
    ensures RequiredCookies <= EssentialCookies
    ensures forall k :: 0 <= k < |RequiredCookiesSorted| ==> RequiredCookiesSorted[k] in RequiredCookies
    ensures |RequiredCookiesSorted| == |RequiredCookies|
  {
  }

  /** Authentication statuses are never retried as server errors, and 501 is not retried. */
  lemma RetryableExcludesAuthStatuses()
    ensures 401 !in RetryableStatusCodes && 403 !in RetryableStatusCodes
    ensures 501 !in RetryableStatusCodes
    ensures forall s :: s in RetryableStatusCodes ==> s == 429 || 500 <= s <= 504
  {
  }

  /** Exactly ten codes have names; 6, 7, 10 and 12 have none. */
  lemma SourceTypesDomain()
    ensures SourceTypes.Keys == {1, 2, 3, 4, 5, 8, 9, 11, 13, 14}
    ensures 6 !in SourceTypes && 7 !in SourceTypes && 10 !in SourceTypes && 12 !in SourceTypes
  {
  }

  /** The five RPC identifiers are pairwise distinct. */
  lemma RpcIdsDistinct()
    ensures |{RpcListNotebooks, RpcGetNotebook, RpcGetSource, RpcAddSource, RpcGetSourceGuide}| == 5
  {
  }
}

=== FILE: executor.dfy ===
/**
 * The retry policy of one RPC call: bounded exponential backoff on server errors, at most one
 * credential refresh on an authentication failure, and a reload of the saved credentials when
 * the refresh itself is refused. The transport is a script of outcomes indexed by attempt
 * number, the home-page fetch of the refresh is one injected outcome, and every sleep is
 * recorded as a delay instead of being slept.
 */
module Executor {
  import opened Wrappers
  import opened Text
  import opened Json
  import opened Config
  import Framing
  import Extract
  import PageTokens

  /** The credentials the client holds and sends with each request. */
  datatype Creds = Creds(cookies: map<string, string>, csrf: string, sid: string)

  /** What the transport does with one POST. */
  datatype Transport = Response(status: int, text: string) | NetworkError(timedOut: bool)

  /** What the home-page fetch of a refresh returns: the URL after redirects, the status and the page. */
  datatype PageFetch = Page(finalUrl: string, status: int, html: string) | PageNetworkError(timedOut: bool)

  /**
   * What reloading the saved credentials after a refused refresh gives: credentials, nothing,
   * or the exception `load_tokens` raised (a credential file holding a non-object).
   */
  datatype SavedLoad = SavedCreds(creds: Creds) | NoSavedCreds | ReloadRaised(error: string)

  /** Everything outside the client that a call depends on. */
  datatype Env = Env(
    decode: string -> Option<Json>,
    rpcId: string,
    script: nat -> Transport,
    page: PageFetch,
    saved: SavedLoad)

  /** Why a refresh raised `AuthenticationError`. */
  datatype Refusal = LoginRedirect | PageStatus(status: int) | NoCsrf

  /** The errors a call raises. */
  datatype Failure =
    | ServerRetriesExhausted(status: int, attempts: nat)  // APIError "Server error … after … attempts"
    | HttpError(status: int)                             // APIError "HTTP …"
    | AuthExpiredAfterRetry                              // AuthenticationError
    | RefreshRefused(why: Refusal)                       // the refresh's AuthenticationError, re-raised
    | Network(timedOut: bool)                            // a transport error, not caught
    | ReloadFailed(error: string)                        // the reload's exception, not caught

  /** What was done along the way: the credentials each attempt sent, each sleep, each refresh. */
  datatype Trace = Trace(sent: seq<Creds>, delays: seq<nat>, refreshes: nat)

  /** A finished call: its outcome, its trace, and the credentials the client holds afterwards. */
  datatype Run = Run(result: Result<Json, Failure>, trace: Trace, creds: Creds)

  /** One attempt as the retry logic sees it. */
  datatype Reply = Got(v: Json) | Expired | Status(code: int) | NetErr(timedOut: bool)

  /**
   * `raise_for_status` raises for every status outside 200–299; otherwise the body is framed
   * and the named result extracted, which may signal that the session expired.
   */
  function Classify(decode: string -> Option<Json>, rpcId: string, t: Transport): (r: Reply)
    ensures r.Status? <==> t.Response? && !(200 <= t.status < 300)
    ensures r.Status? ==> r.code == t.status
    ensures r.NetErr? <==> t.NetworkError?
    ensures r.NetErr? ==> r.timedOut == t.timedOut
  {
    match t
    case NetworkError(timedOut) => NetErr(timedOut)
    case Response(status, text) =>
      if 200 <= status < 300 then
        match Extract.ExtractRpcResult(decode, Framing.ParseResponse(decode, text), rpcId)
        case Value(v) => Got(v)
        case AuthExpired => Expired
      else Status(status)
  }

  function ReplyAt(env: Env, k: nat): Reply {
    Classify(env.decode, env.rpcId, env.script(k))
  }

  /** `2 ** n`. */
  function Pow2(n: nat): (p: nat)
    ensures p >= 1
    ensures n > 0 ==> p == 2 * Pow2(n - 1)
  {
    if n == 0 then 1 else 2 * Pow2(n - 1)
  }

  /** `min(RETRY_BASE_DELAY * 2**n, RETRY_MAX_DELAY)`. */
  function BackoffDelay(n: nat): (d: nat)
    ensures d <= RetryMaxDelay
  {
    if RetryBaseDelay * Pow2(n) < RetryMaxDelay then RetryBaseDelay * Pow2(n) else RetryMaxDelay
  }

  /** The outcome of `_refresh_auth_tokens`. */
  datatype RefreshOutcome = Refreshed(creds: Creds) | Refused(why: Refusal) | FetchFailed(timedOut: bool)

  /**
   * A redirect to the Google login page is checked first, then the status, then the CSRF token;
   * the session id replaces the old one only when the page holds one.
   */
  function Refresh(page: PageFetch, creds: Creds): (r: RefreshOutcome)
    ensures r.Refreshed? ==> r.creds.cookies == creds.cookies && r.creds.csrf != ""
  {
    match page
    case PageNetworkError(t) => FetchFailed(t)
    case Page(url, status, html) =>
      if Contains(url, "accounts.google.com") then Refused(LoginRedirect)
      else if status != 200 then Refused(PageStatus(status))
      else
        var csrf := PageTokens.ExtractCsrf(html);
        if csrf == "" then Refused(NoCsrf)
        else
          var sid := PageTokens.ExtractSessionId(html);
          Refreshed(creds.(csrf := csrf, sid := if sid != "" then sid else creds.sid))
  }

  /** The measure of the server-retry counter: it never exceeds the retry budget. */
  function Budget(n: nat): nat {
    if n < MaxRetries then MaxRetries - n else 0
  }

  /**
   * `_call_rpc`: one attempt with the current credentials, then the branch its outcome selects.
   * Server retries keep the auth-retried flag; an authentication failure hands over to the
   * refresh once.
   */
  function CallRpc(env: Env, creds: Creds, tr: Trace, authRetried: bool, n: nat): Run
    decreases if authRetried then 0 else 1, Budget(n), 1
  {
    var tr1 := tr.(sent := tr.sent + [creds]);
    match ReplyAt(env, |tr.sent|)
    case Got(v) => Run(Success(v), tr1, creds)
    case NetErr(t) => Run(Failure(Network(t)), tr1, creds)
    case Expired =>
      if !authRetried then RetryAfterRefresh(env, creds, tr1)
      else Run(Failure(AuthExpiredAfterRetry), tr1, creds)
    case Status(s) =>
      if s in RetryableStatusCodes then
        if n < MaxRetries then CallRpc(env, creds, tr1.(delays := tr1.delays + [BackoffDelay(n)]), authRetried, n + 1)
        else Run(Failure(ServerRetriesExhausted(s, MaxRetries + 1)), tr1, creds)
      else if (s == 401 || s == 403) && !authRetried then RetryAfterRefresh(env, creds, tr1)
      else Run(Failure(HttpError(s)), tr1, creds)
  }

  /**
   * `_retry_after_auth_refresh`: refresh; when the refresh is refused, fall back to the saved
   * credentials if their cookie map is non-empty, else re-raise; then call again, auth-retried,
   * with the server counter back at 0.
   */
  function RetryAfterRefresh(env: Env, creds: Creds, tr: Trace): Run
    decreases 1, 0, 0
  {
    var tr1 := tr.(refreshes := tr.refreshes + 1);
    match Refresh(env.page, creds)
    case Refreshed(c) => CallRpc(env, c, tr1, true, 0)
    case FetchFailed(t) => Run(Failure(Network(t)), tr1, creds)
    case Refused(why) =>
      match env.saved
      case ReloadRaised(e) => Run(Failure(ReloadFailed(e)), tr1, creds)
      case SavedCreds(c) =>
        if |c.cookies| > 0 then CallRpc(env, c, tr1, true, 0)
        else Run(Failure(RefreshRefused(why)), tr1, creds)
      case NoSavedCreds => Run(Failure(RefreshRefused(why)), tr1, creds)
  }

  /** A call as the client's domain methods make it. */
  function Execute(env: Env, creds: Creds): Run {
    CallRpc(env, creds, Trace([], [], 0), false, 0)
  }

  // ---------------------------------------------------------------------------------------
  // Reference: two stretches of attempts around at most one refresh
  // ---------------------------------------------------------------------------------------

  /** What ends a stretch of attempts made with one set of credentials. */
  datatype Stop = Answered(v: Json) | Exhausted(status: int) | Rejected(status: int) | AuthStatus(status: int) | SessionExpired | Unreachable(timedOut: bool)

  /** A stretch: how it ended, how many attempts it made and the sleeps between them. */
  datatype Stretch = Stretch(stop: Stop, attempts: nat, delays: seq<nat>)

  /**
   * Attempts from attempt number `k` with the server counter at `n`, retrying exactly the
   * retryable statuses while the counter is below the budget.
   */
  function Phase(env: Env, k: nat, n: nat): (p: Stretch)
    ensures 1 <= p.attempts <= Budget(n) + 1
    ensures |p.delays| == p.attempts - 1
    ensures forall i :: 0 <= i < |p.delays| ==> p.delays[i] == BackoffDelay(n + i)
    decreases Budget(n)
  {
    match ReplyAt(env, k)
    case Got(v) => Stretch(Answered(v), 1, [])
    case NetErr(t) => Stretch(Unreachable(t), 1, [])
    case Expired => Stretch(SessionExpired, 1, [])
    case Status(s) =>
      if s in RetryableStatusCodes then
        if n < MaxRetries then
          var p := Phase(env, k + 1, n + 1);
          Stretch(p.stop, p.attempts + 1, [BackoffDelay(n)] + p.delays)
        else Stretch(Exhausted(s), 1, [])
      else if s == 401 || s == 403 then Stretch(AuthStatus(s), 1, [])
      else Stretch(Rejected(s), 1, [])
  }

  predicate NeedsRefresh(s: Stop) {
    s.AuthStatus? || s.SessionExpired?
  }

  /** How a stretch ends a call once no refresh is left. */
  function Settle(s: Stop): Result<Json, Failure> {
    match s
    case Answered(v) => Success(v)
    case Exhausted(status) => Failure(ServerRetriesExhausted(status, MaxRetries + 1))
    case Rejected(status) => Failure(HttpError(status))
    case AuthStatus(status) => Failure(HttpError(status))
    case SessionExpired => Failure(AuthExpiredAfterRetry)
    case Unreachable(t) => Failure(Network(t))
  }

  function Repeat(c: Creds, m: nat): (cs: seq<Creds>)
    ensures |cs| == m && forall i :: 0 <= i < m ==> cs[i] == c
  {
    if m == 0 then [] else [c] + Repeat(c, m - 1)
  }

  /** The credentials the second stretch uses, or the failure that ends the call at the refresh. */
  function Recover(env: Env, creds: Creds): Result<Creds, Failure> {
    match Refresh(env.page, creds)
    case Refreshed(c) => Success(c)
    case FetchFailed(t) => Failure(Network(t))
    case Refused(why) =>
      match env.saved
      case ReloadRaised(e) => Failure(ReloadFailed(e))
      case SavedCreds(c) => if |c.cookies| > 0 then Success(c) else Failure(RefreshRefused(why))
      case NoSavedCreds => Failure(RefreshRefused(why))
  }

  /**
   * The call as two stretches: the first with the client's credentials; if it ends on an
   * authentication failure, one refresh, and then a second stretch, from the next attempt
   * number with the counter at 0, in which authentication failures are final.
   */
  function Reference(env: Env, creds: Creds): Run {
    var p1 := Phase(env, 0, 0);
    var t1 := Trace(Repeat(creds, p1.attempts), p1.delays, 0);
    if !NeedsRefresh(p1.stop) then Run(Settle(p1.stop), t1, creds)
    else
      match Recover(env, creds)
      case Failure(f) => Run(Failure(f), t1.(refreshes := 1), creds)
      case Success(c) =>
        var p2 := Phase(env, p1.attempts, 0);
        Run(Settle(p2.stop), Trace(t1.sent + Repeat(c, p2.attempts), p1.delays + p2.delays, 1), c)
  }

  /** A retried server error: the call continues one attempt and one sleep later, as the stretch does. */
  lemma ServerRetryStep(env: Env, creds: Creds, tr: Trace, authRetried: bool, n: nat)
    requires ReplyAt(env, |tr.sent|).Status? && ReplyAt(env, |tr.sent|).code in RetryableStatusCodes
    requires n < MaxRetries
    ensures var tr2 := Trace(tr.sent + [creds], tr.delays + [BackoffDelay(n)], tr.refreshes);
      var p := Phase(env, |tr.sent| + 1, n + 1);
      && CallRpc(env, creds, tr, authRetried, n) == CallRpc(env, creds, tr2, authRetried, n + 1)
      && Phase(env, |tr.sent|, n) == Stretch(p.stop, p.attempts + 1, [BackoffDelay(n)] + p.delays)
      && |tr2.sent| == |tr.sent| + 1
      && Trace(tr2.sent + Repeat(creds, p.attempts), tr2.delays + p.delays, tr2.refreshes)
         == Trace(tr.sent + Repeat(creds, p.attempts + 1), tr.delays + ([BackoffDelay(n)] + p.delays), tr.refreshes)
  {
    var tr2 := Trace(tr.sent + [creds], tr.delays + [BackoffDelay(n)], tr.refreshes);
    var p := Phase(env, |tr.sent| + 1, n + 1);
    assert tr2.sent + Repeat(creds, p.attempts) == tr.sent + Repeat(creds, p.attempts + 1);
    assert tr2.delays + p.delays == tr.delays + ([BackoffDelay(n)] + p.delays);
  }

  /** After the refresh, every attempt is a stretch that settles. */
  lemma {:induction false} RetriedCallIsStretch(env: Env, creds: Creds, tr: Trace, n: nat)
    ensures var p := Phase(env, |tr.sent|, n);
      CallRpc(env, creds, tr, true, n)
      == Run(Settle(p.stop), Trace(tr.sent + Repeat(creds, p.attempts), tr.delays + p.delays, tr.refreshes), creds)
    decreases Budget(n)
  {
    var r := ReplyAt(env, |tr.sent|);
    if r.Status? && r.code in RetryableStatusCodes && n < MaxRetries {
      var tr2 := Trace(tr.sent + [creds], tr.delays + [BackoffDelay(n)], tr.refreshes);
      var p := Phase(env, |tr.sent| + 1, n + 1);
      var t := Trace(tr.sent + Repeat(creds, p.attempts + 1), tr.delays + ([BackoffDelay(n)] + p.delays), tr.refreshes);
      ServerRetryStep(env, creds, tr, true, n);
      RetriedCallIsStretch(env, creds, tr2, n + 1);
      assert CallRpc(env, creds, tr2, true, n + 1) == Run(Settle(p.stop), t, creds);
    } else {
      RetriedCallSettles(env, creds, tr, n);
    }
  }

  /** After the refresh, an attempt that is not retried settles the call. */
  lemma RetriedCallSettles(env: Env, creds: Creds, tr: Trace, n: nat)
    requires var r := ReplyAt(env, |tr.sent|); !(r.Status? && r.code in RetryableStatusCodes && n < MaxRetries)
    ensures var p := Phase(env, |tr.sent|, n);
      CallRpc(env, creds, tr, true, n)
      == Run(Settle(p.stop), Trace(tr.sent + Repeat(creds, p.attempts), tr.delays + p.delays, tr.refreshes), creds)
  {
    var p := Phase(env, |tr.sent|, n);
    assert p.attempts == 1 && p.delays == [];
    assert Repeat(creds, 1) == [creds];
    assert tr.delays + [] == tr.delays;
    assert Trace(tr.sent + Repeat(creds, p.attempts), tr.delays + p.delays, tr.refreshes) == tr.(sent := tr.sent + [creds]);
  }

  /** Before the refresh, a call is a stretch that either settles or hands over to the refresh. */
  lemma {:induction false} FirstCallIsStretch(env: Env, creds: Creds, tr: Trace, n: nat)
    ensures var p := Phase(env, |tr.sent|, n);
      var tr1 := Trace(tr.sent + Repeat(creds, p.attempts), tr.delays + p.delays, tr.refreshes);
      CallRpc(env, creds, tr, false, n)
      == if NeedsRefresh(p.stop) then RetryAfterRefresh(env, creds, tr1) else Run(Settle(p.stop), tr1, creds)
    decreases Budget(n)
  {
    var r := ReplyAt(env, |tr.sent|);
    if r.Status? && r.code in RetryableStatusCodes && n < MaxRetries {
      var tr2 := Trace(tr.sent + [creds], tr.delays + [BackoffDelay(n)], tr.refreshes);
      var p := Phase(env, |tr.sent| + 1, n + 1);
      var t := Trace(tr.sent + Repeat(creds, p.attempts + 1), tr.delays + ([BackoffDelay(n)] + p.delays), tr.refreshes);
      ServerRetryStep(env, creds, tr, false, n);
      FirstCallIsStretch(env, creds, tr2, n + 1);
      assert CallRpc(env, creds, tr2, false, n + 1)
        == if NeedsRefresh(p.stop) then RetryAfterRefresh(env, creds, t) else Run(Settle(p.stop), t, creds);
    } else {
      FirstCallSettles(env, creds, tr, n);
    }
  }

  /** An attempt that is not retried ends the first stretch after one attempt and no sleep. */
  lemma FirstCallSettles(env: Env, creds: Creds, tr: Trace, n: nat)
    requires var r := ReplyAt(env, |tr.sent|); !(r.Status? && r.code in RetryableStatusCodes && n < MaxRetries)
    ensures var p := Phase(env, |tr.sent|, n);
      var tr1 := Trace(tr.sent + Repeat(creds, p.attempts), tr.delays + p.delays, tr.refreshes);
      CallRpc(env, creds, tr, false, n)
      == if NeedsRefresh(p.stop) then RetryAfterRefresh(env, creds, tr1) else Run(Settle(p.stop), tr1, creds)
  {
    var p := Phase(env, |tr.sent|, n);
    assert p.attempts == 1 && p.delays == [];
    assert Repeat(creds, 1) == [creds];
    assert tr.delays + [] == tr.delays;
    assert Trace(tr.sent + Repeat(creds, p.attempts), tr.delays + p.delays, tr.refreshes) == tr.(sent := tr.sent + [creds]);
  }

  /** The recursive call machinery is the two-stretch reference, trace and credentials included. */
  lemma ExecuteIsReference(env: Env, creds: Creds)
    ensures Execute(env, creds) == Reference(env, creds)
  {
    var tr0 := Trace([], [], 0);
    FirstCallIsStretch(env, creds, tr0, 0);
    var p1 := Phase(env, 0, 0);
    assert [] + Repeat(creds, p1.attempts) == Repeat(creds, p1.attempts);
    assert [] + p1.delays == p1.delays;
    if NeedsRefresh(p1.stop) {
      var tr1 := Trace(Repeat(creds, p1.attempts), p1.delays, 0);
      var tr2 := tr1.(refreshes := 1);
      RefreshRecovers(env, creds, tr1);
      match Recover(env, creds)
      case Failure(f) =>
      case Success(c) =>
        RetriedCallIsStretch(env, c, tr2, 0);
    }
  }

  /** The refresh step continues with the credentials `Recover` gives, or ends with its failure. */
  lemma RefreshRecovers(env: Env, creds: Creds, tr: Trace)
    ensures var tr1 := tr.(refreshes := tr.refreshes + 1);
      RetryAfterRefresh(env, creds, tr) ==
        match Recover(env, creds)
        case Success(c) => CallRpc(env, c, tr1, true, 0)
        case Failure(f) => Run(Failure(f), tr1, creds)
  {
  }

  // ---------------------------------------------------------------------------------------
  // Properties of a call
  // ---------------------------------------------------------------------------------------

  /**
   * At most one refresh and at most `2 * (MAX_RETRIES + 1)` attempts; one sleep fewer than
   * attempts in each stretch; no sleep longer than the cap.
   */
  lemma CallBounds(env: Env, creds: Creds)
    ensures var r := Execute(env, creds);
      && r.trace.refreshes <= 1
      && 1 <= |r.trace.sent| <= 2 * (MaxRetries + 1)
      && |r.trace.delays| < |r.trace.sent|
      && forall i :: 0 <= i < |r.trace.delays| ==> r.trace.delays[i] <= RetryMaxDelay
  {
    ExecuteIsReference(env, creds);
  }

  /** With base 1, cap 16 and three retries the schedule is 1, 2, 4 and the cap is never reached. */
  lemma BackoffSchedule()
    ensures BackoffDelay(0) == 1 && BackoffDelay(1) == 2 && BackoffDelay(2) == 4
    ensures forall n :: 0 <= n < MaxRetries ==> BackoffDelay(n) < RetryMaxDelay
  {
    assert Pow2(2) == 4;
  }

  predicate NonDecreasing(ds: seq<nat>) {
    forall i, j :: 0 <= i <= j < |ds| ==> ds[i] <= ds[j]
  }

  /** The sleeps of one stretch: the schedule from counter 0, cut short. */
  predicate IsBackoffRun(ds: seq<nat>) {
    |ds| <= MaxRetries && forall i :: 0 <= i < |ds| ==> ds[i] == BackoffDelay(i)
  }

  lemma BackoffRunNonDecreasing(ds: seq<nat>)
    requires IsBackoffRun(ds)
    ensures NonDecreasing(ds)
  {
    BackoffSchedule();
  }

  /**
   * The sleeps are those of the first stretch followed by those of the second, each a prefix
   * of the schedule; the schedule restarts after a refresh.
   */
  lemma DelaysPerStretch(env: Env, creds: Creds)
    ensures exists a, b :: Execute(env, creds).trace.delays == a + b && IsBackoffRun(a) && IsBackoffRun(b)
  {
    ExecuteIsReference(env, creds);
    var p1 := Phase(env, 0, 0);
    var r := Reference(env, creds);
    if NeedsRefresh(p1.stop) && Recover(env, creds).Success? {
      var p2 := Phase(env, p1.attempts, 0);
      assert r.trace.delays == p1.delays + p2.delays;
      assert IsBackoffRun(p1.delays) && IsBackoffRun(p2.delays);
    } else {
      assert r.trace.delays == p1.delays + [];
      assert IsBackoffRun(p1.delays) && IsBackoffRun([]);
    }
  }

  /** Every attempt after the refresh sends the recovered credentials, which the client then keeps. */
  lemma RetriedWithRecoveredCreds(env: Env, creds: Creds)
    requires NeedsRefresh(Phase(env, 0, 0).stop) && Recover(env, creds).Success?
    ensures var r := Execute(env, creds);
      var m := Phase(env, 0, 0).attempts;
      && r.trace.refreshes == 1
      && m < |r.trace.sent|
      && (forall i :: 0 <= i < m ==> r.trace.sent[i] == creds)
      && (forall i :: m <= i < |r.trace.sent| ==> r.trace.sent[i] == Recover(env, creds).value)
      && r.creds == Recover(env, creds).value
  {
    ExecuteIsReference(env, creds);
  }

  /** Without an authentication failure in the first stretch there is no refresh and the credentials never change. */
  lemma NoRefreshWithoutAuthFailure(env: Env, creds: Creds)
    requires !NeedsRefresh(Phase(env, 0, 0).stop)
    ensures var r := Execute(env, creds);
      && r.trace.refreshes == 0
      && r.creds == creds
      && (forall i :: 0 <= i < |r.trace.sent| ==> r.trace.sent[i] == creds)
      && r.result == Settle(Phase(env, 0, 0).stop)
  {
    ExecuteIsReference(env, creds);
  }

  /** Four retryable statuses in a row: three sleeps of 1, 2 and 4, then the server error names four attempts. */
  lemma ServerRetriesRunOut(env: Env, creds: Creds)
    requires forall k :: 0 <= k <= MaxRetries ==> ReplyAt(env, k).Status? && ReplyAt(env, k).code in RetryableStatusCodes
    ensures var r := Execute(env, creds);
      && r.result == Failure(ServerRetriesExhausted(ReplyAt(env, MaxRetries).code, MaxRetries + 1))
      && r.trace.delays == [1, 2, 4]
      && |r.trace.sent| == MaxRetries + 1
      && r.trace.refreshes == 0
  {
    ExecuteIsReference(env, creds);
    BackoffSchedule();
    assert ReplyAt(env, 0).Status? && ReplyAt(env, 1).Status? && ReplyAt(env, 2).Status? && ReplyAt(env, 3).Status?;
    var p3 := Phase(env, 3, 3);
    assert p3 == Stretch(Exhausted(ReplyAt(env, 3).code), 1, []);
    var p2 := Phase(env, 2, 2);
    assert p2 == Stretch(p3.stop, 2, [4]);
    var p1 := Phase(env, 1, 1);
    assert p1 == Stretch(p3.stop, 3, [2, 4]);
  }

  /** A status that is neither retryable nor an authentication status fails at once. */
  lemma OtherStatusFailsAtOnce(env: Env, creds: Creds)
    requires ReplyAt(env, 0).Status?
    requires ReplyAt(env, 0).code !in RetryableStatusCodes && ReplyAt(env, 0).code != 401 && ReplyAt(env, 0).code != 403
    ensures var r := Execute(env, creds);
      r.result == Failure(HttpError(ReplyAt(env, 0).code)) && |r.trace.sent| == 1 && r.trace.refreshes == 0
  {
  }

  /**
   * The session expires, the refresh succeeds and the session is found expired again: the
   * second expiry is final, after exactly one refresh and two attempts.
   */
  lemma ExpiredTwice(env: Env, creds: Creds)
    requires ReplyAt(env, 0) == Expired && ReplyAt(env, 1) == Expired
    requires Refresh(env.page, creds).Refreshed?
    ensures var r := Execute(env, creds);
      r.result == Failure(AuthExpiredAfterRetry) && |r.trace.sent| == 2 && r.trace.refreshes == 1
  {
    ExecuteIsReference(env, creds);
    assert Phase(env, 0, 0) == Stretch(SessionExpired, 1, []);
    assert Phase(env, 1, 0) == Stretch(SessionExpired, 1, []);
  }

  /** A second 401 or 403 after the refresh is an HTTP error, not another refresh. */
  lemma AuthStatusTwice(env: Env, creds: Creds)
    requires ReplyAt(env, 0).Status? && ReplyAt(env, 0).code in {401, 403}
    requires ReplyAt(env, 1).Status? && ReplyAt(env, 1).code in {401, 403}
    requires Refresh(env.page, creds).Refreshed?
    ensures var r := Execute(env, creds);
      r.result == Failure(HttpError(ReplyAt(env, 1).code)) && |r.trace.sent| == 2 && r.trace.refreshes == 1
  {
    RetryableExcludesAuthStatuses();
    ExecuteIsReference(env, creds);
    assert Phase(env, 0, 0) == Stretch(AuthStatus(ReplyAt(env, 0).code), 1, []);
    assert Phase(env, 1, 0) == Stretch(AuthStatus(ReplyAt(env, 1).code), 1, []);
  }

  /**
   * A refused refresh falls back to the saved credentials exactly when they load with a
   * non-empty cookie map; a reload that raises ends the call with its exception, and otherwise
   * the refusal ends the call after the one attempt.
   */
  lemma RefusedRefreshFallback(env: Env, creds: Creds)
    requires NeedsRefresh(Phase(env, 0, 0).stop) && Refresh(env.page, creds).Refused?
    ensures Recover(env, creds).Success? <==> env.saved.SavedCreds? && |env.saved.creds.cookies| > 0
    ensures Recover(env, creds).Success? ==> Execute(env, creds).creds == env.saved.creds
    ensures env.saved.ReloadRaised? ==> Execute(env, creds).result == Failure(ReloadFailed(env.saved.error))
    ensures Recover(env, creds).Failure? && !env.saved.ReloadRaised? ==>
      Execute(env, creds).result == Failure(RefreshRefused(Refresh(env.page, creds).why))
  {
    ExecuteIsReference(env, creds);
  }

  /** A refresh that reaches the page keeps the cookies, installs the page's token, and keeps the old session id when the page has none. */
  lemma RefreshInstallsPageTokens(url: string, html: string, creds: Creds)
    requires !Contains(url, "accounts.google.com") && PageTokens.ExtractCsrf(html) != ""
    ensures var r := Refresh(Page(url, 200, html), creds);
      && r.Refreshed?
      && r.creds.csrf == PageTokens.ExtractCsrf(html)
      && (PageTokens.ExtractSessionId(html) != "" ==> r.creds.sid == PageTokens.ExtractSessionId(html))
      && (PageTokens.ExtractSessionId(html) == "" ==> r.creds.sid == creds.sid)
  {
  }

  /**
   * A redirect to the login page is refused whatever the status, any other non-200 status is
   * refused, and so is a page without a token.
   */
  lemma RefreshRefusals(url: string, status: int, html: string, creds: Creds)
    ensures Contains(url, "accounts.google.com") ==> Refresh(Page(url, status, html), creds) == Refused(LoginRedirect)
    ensures !Contains(url, "accounts.google.com") && status != 200 ==>
      Refresh(Page(url, status, html), creds) == Refused(PageStatus(status))
    ensures !Contains(url, "accounts.google.com") && status == 200 && PageTokens.ExtractCsrf(html) == "" ==>
      Refresh(Page(url, status, html), creds) == Refused(NoCsrf)
  {
  }

  /**
   * A reached login-free page that embeds `"SNlM0e":"<token>"`, with no quote before it, is a
   * successful refresh that installs exactly that token and keeps the cookies.
   */
  lemma RefreshFromTokenPage(url: string, pre: string, token: string, post: string, creds: Creds)
    requires !Contains(url, "accounts.google.com")
    requires '"' !in pre && |token| > 0 && '"' !in token
    ensures var r := Refresh(Page(url, 200, pre + PageTokens.CsrfKey + token + "\"" + post), creds);
      && r.Refreshed?
      && r.creds.csrf == token
      && r.creds.cookies == creds.cookies
  {
    PageTokens.CsrfRoundTrip(pre, token, post);
  }
}

=== FILE: extract.dfy ===
/** Picking one RPC's result out of the decoded frames of a batch response. */
module Extract {
  import opened Wrappers
  import opened Json

  /** What `extract_rpc_result` yields: a value (`Null` for Python's `None`), or the auth-expired signal. */
  datatype Extraction = Value(v: Json) | AuthExpired

  /** An entry `["wrb.fr", rpc_id, …]` with at least three slots. */
  predicate IsRpcEntry(item: Json, rpcId: string) {
    item.Arr? && |item.items| >= 3 && item.items[0] == Str("wrb.fr") && item.items[1] == Str(rpcId)
  }

  /** The "RPC error 16" shape: slot 6 is `"generic"` and slot 5 is a list holding 16. */
  predicate IsAuthExpiredSignature(item: Json) {
    && item.Arr?
    && |item.items| > 6
    && item.items[6] == Str("generic")
    && item.items[5].Arr?
    && exists k :: 0 <= k < |item.items[5].items| && PyEqualsInt(item.items[5].items[k], 16)
  }

  /** The outcome for a matched entry: the auth check first, then slot 2, JSON-decoded when it is a string. */
  function EntryResult(decode: string -> Option<Json>, item: Json): Extraction
    requires item.Arr? && |item.items| >= 3
  {
    if IsAuthExpiredSignature(item) then AuthExpired
    else
      match item.items[2]
      case Str(s) => (match decode(s) case Some(j) => Value(j) case None => Value(Str(s)))
      case other => Value(other)
  }

  /** The inner loop over one frame's entries; `None` when no entry matches. */
  function ScanItems(decode: string -> Option<Json>, items: seq<Json>, rpcId: string): Option<Extraction>
    decreases |items|
  {
    if |items| == 0 then None
    else if IsRpcEntry(items[0], rpcId) then Some(EntryResult(decode, items[0]))
    else ScanItems(decode, items[1..], rpcId)
  }

  /** `extract_rpc_result`: frames in order, entries in order, non-list frames skipped. */
  function ExtractRpcResult(decode: string -> Option<Json>, frames: seq<Json>, rpcId: string): Extraction
    decreases |frames|
  {
    if |frames| == 0 then Value(Null)
    else if frames[0].Arr? then
      match ScanItems(decode, frames[0].items, rpcId)
      case Some(x) => x
      case None => ExtractRpcResult(decode, frames[1..], rpcId)
    else ExtractRpcResult(decode, frames[1..], rpcId)
  }

  /** Every entry of every list frame, frame by frame. */
  function Candidates(frames: seq<Json>): seq<Json>
    decreases |frames|
  {
    if |frames| == 0 then []
    else (if frames[0].Arr? then frames[0].items else []) + Candidates(frames[1..])
  }

  /** The index of the first matching entry, if any. */
  function FirstMatch(es: seq<Json>, rpcId: string): (k: Option<nat>)
    ensures k.Some? ==> k.value < |es| && IsRpcEntry(es[k.value], rpcId)
    ensures k.Some? ==> forall j :: 0 <= j < k.value ==> !IsRpcEntry(es[j], rpcId)
    ensures k.None? ==> forall j :: 0 <= j < |es| ==> !IsRpcEntry(es[j], rpcId)
    decreases |es|
  {
    if |es| == 0 then None
    else if IsRpcEntry(es[0], rpcId) then Some(0)
    else
      match FirstMatch(es[1..], rpcId)
      case None => None
      case Some(k) => Some(k + 1)
  }

  /** The reference outcome: the first matching entry decides; no match gives `None`. */
  function Reference(decode: string -> Option<Json>, es: seq<Json>, rpcId: string): Extraction {
    match FirstMatch(es, rpcId)
    case None => Value(Null)
    case Some(k) => EntryResult(decode, es[k])
  }

  lemma {:induction false} ScanItemsFirst(decode: string -> Option<Json>, items: seq<Json>, rpcId: string)
    ensures ScanItems(decode, items, rpcId)
      == (match FirstMatch(items, rpcId) case None => None case Some(k) => Some(EntryResult(decode, items[k])))
    decreases |items|
  {
    if |items| > 0 && !IsRpcEntry(items[0], rpcId) {
      ScanItemsFirst(decode, items[1..], rpcId);
    }
  }

  /** A first match in the first part wins; otherwise the second part's first match, shifted. */
  lemma {:induction false} FirstMatchAppend(a: seq<Json>, b: seq<Json>, rpcId: string)
    ensures FirstMatch(a + b, rpcId)
      == (match FirstMatch(a, rpcId)
          case Some(k) => Some(k)
          case None => (match FirstMatch(b, rpcId) case None => None case Some(k) => Some(|a| + k)))
    decreases |a|
  {
    if |a| == 0 {
      assert a + b == b;
    } else {
      assert (a + b)[0] == a[0];
      assert (a + b)[1..] == a[1..] + b;
      FirstMatchAppend(a[1..], b, rpcId);
    }
  }

  /**
   * The nested scan is the reference: the result is decided by the first matching entry over
   * all list frames in order, and is `None` when there is none.
   */
  lemma {:induction false} ExtractIsFirstMatch(decode: string -> Option<Json>, frames: seq<Json>, rpcId: string)
    ensures ExtractRpcResult(decode, frames, rpcId) == Reference(decode, Candidates(frames), rpcId)
    decreases |frames|
  {
    if |frames| > 0 {
      var head := if frames[0].Arr? then frames[0].items else [];
      var rest := Candidates(frames[1..]);
      ExtractIsFirstMatch(decode, frames[1..], rpcId);
      FirstMatchAppend(head, rest, rpcId);
      if frames[0].Arr? {
        ScanItemsFirst(decode, head, rpcId);
        match FirstMatch(head, rpcId)
        case Some(k) =>
          assert (head + rest)[k] == head[k];
        case None =>
          match FirstMatch(rest, rpcId)
          case None =>
          case Some(k) =>
            assert (head + rest)[|head| + k] == rest[k];
      } else {
        assert head + rest == rest;
      }
    }
  }

  /** No matching entry anywhere: the result is `None`, not an error. */
  lemma NoMatchIsNone(decode: string -> Option<Json>, frames: seq<Json>, rpcId: string)
    requires forall j :: 0 <= j < |Candidates(frames)| ==> !IsRpcEntry(Candidates(frames)[j], rpcId)
    ensures ExtractRpcResult(decode, frames, rpcId) == Value(Null)
  {
    ExtractIsFirstMatch(decode, frames, rpcId);
  }

  /** Frames that only answer `a` give `None` when asked for a different id, even with an error-16 entry. */
  lemma OtherRpcIdIsNone(decode: string -> Option<Json>, frames: seq<Json>, a: string, b: string)
    requires a != b
    requires forall j :: 0 <= j < |Candidates(frames)| ==> Slot(Candidates(frames)[j], 1) == Str(a)
    ensures ExtractRpcResult(decode, frames, b) == Value(Null)
  {
    var es := Candidates(frames);
    forall j | 0 <= j < |es| ensures !IsRpcEntry(es[j], b) {
      assert Slot(es[j], 1) == Str(a);
    }
    NoMatchIsNone(decode, frames, b);
  }

  /**
   * When the first matching entry carries the error-16 signature the result is the auth-expired
   * signal whatever slot 2 holds and whatever the decoder does: slot 2 is never read.
   */
  lemma AuthExpiredBeforeSlot2(d1: string -> Option<Json>, d2: string -> Option<Json>, frames: seq<Json>, rpcId: string)
    requires FirstMatch(Candidates(frames), rpcId).Some?
    requires IsAuthExpiredSignature(Candidates(frames)[FirstMatch(Candidates(frames), rpcId).value])
    ensures ExtractRpcResult(d1, frames, rpcId) == AuthExpired
    ensures ExtractRpcResult(d2, frames, rpcId) == AuthExpired
  {
    ExtractIsFirstMatch(d1, frames, rpcId);
    ExtractIsFirstMatch(d2, frames, rpcId);
  }

  /**
   * Without the signature, a string slot 2 is JSON-decoded, falling back to the raw string,
   * and any other slot 2 is returned as it is.
   */
  lemma Slot2Result(decode: string -> Option<Json>, frames: seq<Json>, rpcId: string)
    requires FirstMatch(Candidates(frames), rpcId).Some?
    requires !IsAuthExpiredSignature(Candidates(frames)[FirstMatch(Candidates(frames), rpcId).value])
    ensures var e := Candidates(frames)[FirstMatch(Candidates(frames), rpcId).value];
      var r := ExtractRpcResult(decode, frames, rpcId);
      && r.Value?
      && (e.items[2].Str? && decode(e.items[2].s).Some? ==> r.v == decode(e.items[2].s).value)
      && (e.items[2].Str? && decode(e.items[2].s).None? ==> r.v == e.items[2])
      && (!e.items[2].Str? ==> r.v == e.items[2])
  {
    ExtractIsFirstMatch(decode, frames, rpcId);
  }

  /** The error-16 entry of the source's own test, and a slot 5 of `[True]`, which is not 16. */
  lemma SignatureExamples(rpcId: string)
    ensures IsAuthExpiredSignature(Arr([Str("wrb.fr"), Str(rpcId), Null, Null, Null, Arr([Num(16)]), Str("generic")]))
    ensures !IsAuthExpiredSignature(Arr([Str("wrb.fr"), Str(rpcId), Null, Null, Null, Arr([Bool(true)]), Str("generic")]))
  {
    var e := Arr([Str("wrb.fr"), Str(rpcId), Null, Null, Null, Arr([Num(16)]), Str("generic")]);
    assert PyEqualsInt(e.items[5].items[0], 16);
  }
}

=== FILE: framing.dfy ===
/**
 * Line framing of batch and streaming responses: the anti-XSSI prefix, byte-count
 * marker lines, and the payload lines they announce.
 */
module Framing {
  import opened Wrappers
  import opened Text
  import opened Json

  /** The anti-XSSI prefix the server puts before every response body. */
  const XssiPrefix: string := ")]}'"

  /** Digits with single underscores between them, as Python's `int()` accepts in base 10. */
  predicate IsDigitGroups(b: string) {
    && |b| >= 1
    && IsAsciiDigit(b[0])
    && IsAsciiDigit(b[|b| - 1])
    && (forall i :: 0 <= i < |b| ==> IsAsciiDigit(b[i]) || b[i] == '_')
    && !Contains(b, "__")
  }

  /** CPython's default limit on the digits `int()` converts from a string (`sys.int_info.default_max_str_digits`). */
  const MaxStrDigits: nat := 4300

  /** The number of ASCII digits in `b`; underscores do not count towards the limit. */
  function DigitCount(b: string): (n: nat)
    ensures n <= |b|
    decreases |b|
  {
    if |b| == 0 then 0 else (if IsAsciiDigit(b[0]) then 1 else 0) + DigitCount(b[1..])
  }

  /**
   * A stripped line `int()` accepts: an optional sign, then digit groups of at most
   * `MaxStrDigits` digits. A longer run raises `ValueError`, as a non-number does.
   */
  predicate IsIntLiteral(s: string) {
    if |s| > 0 && (s[0] == '+' || s[0] == '-') then IsIntBody(s[1..]) else IsIntBody(s)
  }

  /** Digit groups `int()` converts: within the digit limit. */
  predicate IsIntBody(b: string) {
    IsDigitGroups(b) && DigitCount(b) <= MaxStrDigits
  }

  /** The lines of a body: the prefix is dropped only when the body starts with it, then strip, then split. */
  function Lines(text: string): (ls: seq<string>)
    ensures |ls| >= 1
    ensures forall k :: 0 <= k < |ls| ==> '\n' !in ls[k]
  {
    var body := if StartsWith(text, XssiPrefix) then text[|XssiPrefix|..] else text;
    Split(Strip(body), '\n')
  }

  /** A payload line and the index of the line it came from. */
  datatype Payload = Payload(line: nat, text: string)

  /** Number of lines that are not blank after stripping. */
  function CountNonBlank(ls: seq<string>): (n: nat)
    ensures n <= |ls|
  {
    if |ls| == 0 then 0 else (if Strip(ls[0]) == "" then 0 else 1) + CountNonBlank(ls[1..])
  }

  /**
   * Where the payloads of `lines[i..]` sit.
   *
   * A blank line is skipped. A marker line (one `int()` accepts) consumes the next line, if any,
   * unstripped, as its payload, so that line is never examined as a marker. Any other line is
   * its own payload, stripped.
   */
  function Scan(lines: seq<string>, i: nat): seq<Payload>
    decreases |lines| - i
  {
    if i >= |lines| then []
    else
      var line := Strip(lines[i]);
      if line == "" then Scan(lines, i + 1)
      else if IsIntLiteral(line) then
        (if i + 1 < |lines| then [Payload(i + 1, lines[i + 1])] else []) + Scan(lines, i + 2)
      else [Payload(i, line)] + Scan(lines, i + 1)
  }

  /** The payloads line `i` contributes: none when blank, the next line after a marker, else itself. */
  function StepHead(lines: seq<string>, i: nat): seq<Payload>
    requires i < |lines|
  {
    var line := Strip(lines[i]);
    if line == "" then []
    else if IsIntLiteral(line) then (if i + 1 < |lines| then [Payload(i + 1, lines[i + 1])] else [])
    else [Payload(i, line)]
  }

  /** Where the scan resumes after line `i`: past the announced payload line after a marker. */
  function StepNext(lines: seq<string>, i: nat): (next: nat)
    requires i < |lines|
    ensures i < next
  {
    var line := Strip(lines[i]);
    if line != "" && IsIntLiteral(line) then i + 2 else i + 1
  }

  lemma ScanStep(lines: seq<string>, i: nat)
    requires i < |lines|
    ensures Scan(lines, i) == StepHead(lines, i) + Scan(lines, StepNext(lines, i))
  {
  }

  /** `ScanStep` spelled out by the kind of line `i` is. */
  lemma ScanCases(lines: seq<string>, i: nat)
    requires i < |lines|
    ensures var line := Strip(lines[i]);
      && (line == "" ==> Scan(lines, i) == Scan(lines, i + 1))
      && (line != "" && IsIntLiteral(line) ==>
            Scan(lines, i) == (if i + 1 < |lines| then [Payload(i + 1, lines[i + 1])] else []) + Scan(lines, i + 2))
      && (line != "" && !IsIntLiteral(line) ==> Scan(lines, i) == [Payload(i, line)] + Scan(lines, i + 1))
  {
  }

  lemma StepHeadPayloads(lines: seq<string>, i: nat)
    requires i < |lines|
    ensures forall p | p in StepHead(lines, i) :: IsPayloadOf(lines, i, p)
  {
  }

  /** A payload of the lines from `later` on is a payload of the lines from any earlier index. */
  lemma PayloadOfEarlier(lines: seq<string>, from: nat, later: nat, p: Payload)
    requires from <= later && IsPayloadOf(lines, later, p)
    ensures IsPayloadOf(lines, from, p)
  {
  }

  /** Every payload of `lines[i..]` is a payload of one of those lines. */
  lemma {:induction false} ScanPayloads(lines: seq<string>, i: nat)
    ensures forall p | p in Scan(lines, i) :: IsPayloadOf(lines, i, p)
    decreases |lines| - i
  {
    if i < |lines| {
      var next := StepNext(lines, i);
      ScanStep(lines, i);
      StepHeadPayloads(lines, i);
      ScanPayloads(lines, next);
      forall p | p in Scan(lines, next) ensures IsPayloadOf(lines, i, p) {
        PayloadOfEarlier(lines, i, next, p);
      }
    }
  }

  /** Payloads come out in strictly increasing line order, from lines at or after `i`. */
  lemma {:induction false} ScanOrdered(lines: seq<string>, i: nat)
    ensures forall k :: 0 <= k < |Scan(lines, i)| ==> i <= Scan(lines, i)[k].line
    ensures forall k :: 0 <= k < |Scan(lines, i)| - 1 ==> Scan(lines, i)[k].line < Scan(lines, i)[k + 1].line
    decreases |lines| - i
  {
    if i < |lines| {
      var line := Strip(lines[i]);
      if line == "" || !IsIntLiteral(line) {
        ScanOrdered(lines, i + 1);
      } else {
        ScanOrdered(lines, i + 2);
      }
    }
  }

  /** There are never more payloads than non-blank lines. */
  lemma {:induction false} ScanBound(lines: seq<string>, i: nat)
    requires i <= |lines|
    ensures |Scan(lines, i)| <= CountNonBlank(lines[i..])
    decreases |lines| - i
  {
    if i < |lines| {
      var line := Strip(lines[i]);
      assert lines[i..][1..] == lines[i + 1..];
      if line == "" || !IsIntLiteral(line) {
        ScanBound(lines, i + 1);
      } else if i + 1 < |lines| {
        ScanBound(lines, i + 2);
        assert lines[i + 1..][1..] == lines[i + 2..];
      }
    }
  }

  /** A payload is either a non-blank non-marker line, stripped, or the raw line after a marker. */
  predicate IsPayloadOf(lines: seq<string>, from: nat, p: Payload) {
    && from <= p.line < |lines|
    && (|| (p.text == Strip(lines[p.line]) && p.text != "" && !IsIntLiteral(p.text))
        || (p.line > from && IsIntLiteral(Strip(lines[p.line - 1])) && p.text == lines[p.line]))
  }

  /** The payloads of a whole response body, in line order. */
  function Payloads(text: string): seq<Payload> {
    Scan(Lines(text), 0)
  }

  /** The same scan as the source's `while` loop over an index that may step past the end. */
  method ScanLoop(lines: seq<string>) returns (ps: seq<Payload>)
    ensures ps == Scan(lines, 0)
  {
    ps := [];
    var i := 0;
    while i < |lines|
      invariant 0 <= i <= |lines| + 1
      invariant ps + Scan(lines, i) == Scan(lines, 0)
      decreases |lines| + 1 - i
    {
      var line := Strip(lines[i]);
      ScanCases(lines, i);
      if line == "" {
        i := i + 1;
        continue;
      }
      if IsIntLiteral(line) {
        var head := if i + 1 < |lines| then [Payload(i + 1, lines[i + 1])] else [];
        assert (ps + head) + Scan(lines, i + 2) == ps + (head + Scan(lines, i + 2));
        i := i + 1;
        if i < |lines| {
          ps := ps + [Payload(i, lines[i])];
        }
        i := i + 1;
      } else {
        var tail := Scan(lines, i + 1);
        assert (ps + [Payload(i, line)]) + tail == ps + ([Payload(i, line)] + tail);
        ps := ps + [Payload(i, line)];
        i := i + 1;
      }
    }
  }

  /** Decodes every payload, dropping those the decoder rejects, in order. */
  function DecodeAll(decode: string -> Option<Json>, ps: seq<Payload>): (js: seq<Json>)
    ensures |js| <= |ps|
  {
    if |ps| == 0 then []
    else
      var rest := DecodeAll(decode, ps[1..]);
      match decode(ps[0].text)
      case Some(j) => [j] + rest
      case None => rest
  }

  /** `parse_response`: every decodable payload, in order. */
  function ParseResponse(decode: string -> Option<Json>, text: string): seq<Json> {
    DecodeAll(decode, Payloads(text))
  }

  /** Decoding distributes over concatenation, so the output keeps the payloads' order. */
  lemma {:induction false} DecodeAllAppend(decode: string -> Option<Json>, a: seq<Payload>, b: seq<Payload>)
    ensures DecodeAll(decode, a + b) == DecodeAll(decode, a) + DecodeAll(decode, b)
    decreases |a|
  {
    if |a| > 0 {
      assert (a + b)[1..] == a[1..] + b;
      DecodeAllAppend(decode, a[1..], b);
    } else {
      assert a + b == b;
    }
  }

  lemma ScanBlankLine(decode: string -> Option<Json>)
    ensures Scan([""], 0) == []
  {
    assert Strip("") == "";
    assert Scan([""], 1) == [];
  }

  /** An empty body parses to nothing. */
  lemma EmptyBodyParsesToNothing(decode: string -> Option<Json>)
    ensures ParseResponse(decode, "") == []
  {
    assert Lines("") == [""];
    ScanBlankLine(decode);
  }

  /** A body that is only the prefix parses to nothing. */
  lemma PrefixOnlyParsesToNothing(decode: string -> Option<Json>)
    ensures ParseResponse(decode, XssiPrefix) == []
  {
    assert Lines(XssiPrefix) == [""] by {
      assert StartsWith(XssiPrefix, XssiPrefix);
      assert XssiPrefix[4..] == "";
    }
    ScanBlankLine(decode);
  }

  /** The output never has more elements than the body has non-blank lines. */
  lemma ParseResponseBound(decode: string -> Option<Json>, text: string)
    ensures |ParseResponse(decode, text)| <= CountNonBlank(Lines(text))
  {
    ScanBound(Lines(text), 0);
    assert Lines(text)[0..] == Lines(text);
  }

  /** A marker consumes the following line whatever it holds, even another marker. */
  lemma MarkerConsumesNext(lines: seq<string>, i: nat)
    requires i + 1 < |lines| && IsIntLiteral(Strip(lines[i]))
    ensures Scan(lines, i) == [Payload(i + 1, lines[i + 1])] + Scan(lines, i + 2)
  {
  }

  /** The line after a final marker is missing, so nothing is produced for it. */
  lemma TrailingMarkerYieldsNothing(lines: seq<string>)
    requires |lines| >= 1 && IsIntLiteral(Strip(lines[|lines| - 1]))
    ensures Scan(lines, |lines| - 1) == []
  {
  }

  /** A line that opens a JSON array is never taken for a marker. */
  lemma ArrayLineIsNotMarker(s: string)
    requires |s| > 0 && s[0] == '['
    ensures !IsIntLiteral(s)
  {
    assert !IsAsciiDigit(s[0]);
  }

  /**
   * The decimal rendering of a byte count is a marker exactly when it has no more digits
   * than `int()` converts; a longer one is read as a payload line instead.
   */
  lemma ByteCountIsMarker(n: nat)
    ensures IsIntLiteral(NatToString(n)) <==> |NatToString(n)| <= MaxStrDigits
  {
    var s := NatToString(n);
    assert |s| >= 1 by {
      NatToStringNonEmpty(n);
    }
    DigitsCount(s);
  }

  /** A run of digits counts every character. */
  lemma {:induction false} DigitsCount(s: string)
    requires forall i :: 0 <= i < |s| ==> IsAsciiDigit(s[i])
    ensures DigitCount(s) == |s|
    decreases |s|
  {
    if |s| > 0 {
      DigitsCount(s[1..]);
    }
  }

  /** 4300 ones make a marker; 4301 ones do not, and neither do 4301 ones with an underscore. */
  lemma DigitLimitExamples()
    ensures IsIntLiteral(seq(4300, _ => '1'))
    ensures !IsIntLiteral(seq(4301, _ => '1'))
    ensures !IsIntLiteral("-" + seq(4301, _ => '1'))
  {
    var a := seq(4300, _ => '1');
    var b := seq(4301, _ => '1');
    DigitsCount(a);
    DigitsCount(b);
    forall i | 0 <= i ensures !OccursAt(a, "__", i) {
      if i + 2 <= |a| {
        assert a[i..i + 2][0] == '1';
      }
    }
    assert ("-" + b)[1..] == b;
  }

  lemma NatToStringNonEmpty(n: nat)
    ensures |NatToString(n)| >= 1
  {
  }

  /** A non-blank line that is not a marker is its own payload, stripped. */
  lemma PlainLineIsPayload(lines: seq<string>, i: nat)
    requires i < |lines| && Strip(lines[i]) != "" && !IsIntLiteral(Strip(lines[i]))
    ensures Scan(lines, i) == [Payload(i, Strip(lines[i]))] + Scan(lines, i + 1)
  {
  }

  /**
   * A marker line followed by any line yields that line, unstripped, as the single payload;
   * a marker with nothing after it yields nothing.
   */
  lemma MarkerThenPayload(m: string, p: string)
    requires IsIntLiteral(Strip(m))
    ensures Scan([m, p], 0) == [Payload(1, p)]
    ensures Scan([m], 0) == []
  {
    MarkerConsumesNext([m, p], 0);
    assert Scan([m, p], 2) == [];
    TrailingMarkerYieldsNothing([m]);
  }

  /**
   * Two markers and an array line: the second marker is the first one's payload and is
   * never examined as a marker, so the array line is read on its own.
   */
  lemma MarkerAfterMarker(m1: string, m2: string, a: string)
    requires IsIntLiteral(Strip(m1)) && IsIntLiteral(Strip(m2))
    requires |a| > 0 && a[0] == '[' && !IsSpace(a[|a| - 1])
    ensures Scan([m1, m2, a], 0) == [Payload(1, m2), Payload(2, a)]
  {
    var ls := [m1, m2, a];
    MarkerConsumesNext(ls, 0);
    StripUnpadded(a);
    ArrayLineIsNotMarker(a);
    PlainLineIsPayload(ls, 2);
    assert Scan(ls, 3) == [];
  }

  /** The server's usual frame: `)]}'`, a byte count, an array line. */
  lemma FramedExample()
    ensures Scan(["5", "[1,2]"], 0) == [Payload(1, "[1,2]")]
  {
    StripUnpadded("5");
    assert IsIntLiteral("5");
    MarkerThenPayload("5", "[1,2]");
  }
}

=== FILE: json.dfy ===
/** Decoded JSON values and the Python comparisons the source performs on them. */
module Json {
  import opened Wrappers
  import opened Text

  /** A decoded JSON value. Numbers are integers; Python floats are not modelled. */
  datatype Json =
    | Null
    | Bool(b: bool)
    | Num(n: int)
    | Str(s: string)
    | Arr(items: seq<Json>)
    | Obj(fields: map<string, Json>)

  /** Python truthiness: `None`, `False`, `0`, `""`, `[]` and `{}` are falsy. */
  predicate Truthy(j: Json) {
    match j
    case Null => false
    case Bool(b) => b
    case Num(n) => n != 0
    case Str(s) => |s| > 0
    case Arr(xs) => |xs| > 0
    case Obj(m) => |m| > 0
  }

  /** Python `isinstance(j, int)`: `bool` is a subclass of `int`. */
  predicate IsPyInt(j: Json) {
    j.Num? || j.Bool?
  }

  /** The integer a Python `int` (or `bool`) stands for. */
  function PyIntValue(j: Json): int
    requires IsPyInt(j)
  {
    match j
    case Num(n) => n
    case Bool(b) => if b then 1 else 0
  }

  /** Python `j == n` for an integer literal `n`; `True == 1` and `False == 0` hold. */
  predicate PyEqualsInt(j: Json, n: int) {
    IsPyInt(j) && PyIntValue(j) == n
  }

  /** A list of at least `n` elements. */
  predicate ArrayAtLeast(j: Json, n: nat) {
    j.Arr? && |j.items| >= n
  }

  /** Element `i` of a list, or `Null` when there is none. */
  function Slot(j: Json, i: nat): Json {
    if j.Arr? && i < |j.items| then j.items[i] else Null
  }

  /**
   * The Python exceptions raised while reading decoded values: by indexing and `len`, and by
   * `datetime.fromtimestamp` on an out-of-range second.
   */
  datatype PyError = TypeError | IndexError | KeyError | ValueError | OverflowError

  /**
   * Python `j[i]` for a non-negative integer index: lists and strings are indexed, a dict's
   * keys are strings so an integer key is missing, and other values are not subscriptable.
   */
  function PyIndex(j: Json, i: nat): (r: Result<Json, PyError>)
    ensures r.Success? <==> (j.Arr? && i < |j.items|) || (j.Str? && i < |j.s|)
    ensures r.Success? && j.Arr? ==> r.value == j.items[i]
    ensures r.Success? && j.Str? ==> r.value == Str([j.s[i]])
  {
    match j
    case Arr(xs) => if i < |xs| then Success(xs[i]) else Failure(IndexError)
    case Str(s) => if i < |s| then Success(Str([s[i]])) else Failure(IndexError)
    case Obj(_) => Failure(KeyError)
    case _ => Failure(TypeError)
  }

  /** Python `len(j)`: defined for lists, strings and dicts. */
  function PyLen(j: Json): (r: Result<nat, PyError>)
    ensures r.Success? <==> j.Arr? || j.Str? || j.Obj?
    ensures r.Success? ==> (r.value == 0 <==> !Truthy(j))
  {
    match j
    case Arr(xs) => Success(|xs|)
    case Str(s) => Success(|s|)
    case Obj(m) => Success(|m|)
    case _ => Failure(TypeError)
  }

  /**
   * The JSON text codec (`json.loads` and the two `json.dumps` styles the source uses),
   * left uninterpreted: the model only relies on the laws in `Lawful`.
   */
  datatype JsonCodec = JsonCodec(
    decode: string -> Option<Json>,
    encode: Json -> string,
    pretty: Json -> string)

  /**
   * `json.loads` inverts both serialisations, also when trailing whitespace follows the
   * indented one, and rejects a text of whitespace only; compact `json.dumps` escapes
   * non-ASCII (its default `ensure_ascii=True`); `json.dumps` never ends its text with a newline.
   */
  ghost predicate Lawful(c: JsonCodec) {
    && (forall j :: c.decode(c.encode(j)) == Some(j))
    && (forall j :: IsAscii(c.encode(j)))
    && (forall j :: c.decode(c.pretty(j)) == Some(j))
    && (forall j :: c.decode(c.pretty(j) + "\n") == Some(j))
    && (forall j :: !EndsWith(c.pretty(j), "\n"))
    && (forall s :: IsBlank(s) ==> c.decode(s) == None)
  }
}

=== FILE: lists.dfy ===
/**
 * The loop shape every reshaper of the client shares: walk a list in order and append one
 * value for each element that qualifies.
 */
module Lists {
  import opened Wrappers

  /** `[f(x).value for x in xs if f(x) is not None]`. */
  function FilterMap<A, B>(f: A -> Option<B>, xs: seq<A>): (ys: seq<B>)
    ensures |ys| <= |xs|
    decreases |xs|
  {
    if |xs| == 0 then [] else (if f(xs[0]).Some? then [f(xs[0]).value] else []) + FilterMap(f, xs[1..])
  }

  /** One element yields its value when it qualifies and nothing otherwise. */
  lemma FilterMapSingle<A, B>(f: A -> Option<B>, x: A)
    ensures FilterMap(f, [x]) == if f(x).Some? then [f(x).value] else []
  {
    assert [x][1..] == [];
  }

  /**
   * Filtering a concatenation filters each part; with `FilterMapSingle` this determines the
   * output completely, order included.
   */
  lemma {:induction false} FilterMapAppend<A, B>(f: A -> Option<B>, a: seq<A>, b: seq<A>)
    ensures FilterMap(f, a + b) == FilterMap(f, a) + FilterMap(f, b)
    decreases |a|
  {
    if |a| == 0 {
      assert a + b == b;
    } else {
      var head := if f(a[0]).Some? then [f(a[0]).value] else [];
      assert (a + b)[0] == a[0];
      assert (a + b)[1..] == a[1..] + b;
      assert FilterMap(f, a + b) == head + FilterMap(f, a[1..] + b);
      FilterMapAppend(f, a[1..], b);
      assert FilterMap(f, a) == head + FilterMap(f, a[1..]);
    }
  }

  /** A value is in the output exactly when some element yields it. */
  lemma {:induction false} FilterMapMember<A, B>(f: A -> Option<B>, xs: seq<A>, y: B)
    ensures y in FilterMap(f, xs) <==> exists i :: 0 <= i < |xs| && f(xs[i]) == Some(y)
    decreases |xs|
  {
    if |xs| > 0 {
      FilterMapMember(f, xs[1..], y);
      if exists i :: 1 <= i < |xs| && f(xs[i]) == Some(y) {
        var i :| 1 <= i < |xs| && f(xs[i]) == Some(y);
        assert xs[1..][i - 1] == xs[i];
      }
      if exists i :: 0 <= i < |xs[1..]| && f(xs[1..][i]) == Some(y) {
        var i :| 0 <= i < |xs[1..]| && f(xs[1..][i]) == Some(y);
        assert xs[i + 1] == xs[1..][i];
      }
    }
  }
}

=== FILE: mcpconfig.dfy ===
/**
 * `merge_mcp_config` of the command-line installer: read an MCP client's JSON configuration,
 * put this server's entry under `config[serverKey][serverName]`, and write the file back.
 * The file system is a parameter: what reading the file found, and whether writing failed.
 */
module McpConfig {
  import opened Wrappers
  import opened Text
  import opened Json

  /** What reading the configuration file found. */
  datatype FileState =
    | Missing                     // the path does not exist
    | Present(text: string)       // the file's text
    | ReadFailed(detail: string)  // reading raised `OSError`

  /** The `(success, message)` pair, and the text written to the file when there was one. */
  datatype Merged = Merged(ok: bool, message: string, written: Option<string>)

  /** `Path.suffix`: from the last dot on, unless that dot starts or ends the name. */
  function Suffix(name: string): (s: string)
    ensures s == "" || (|s| >= 2 && s[0] == '.' && EndsWith(name, s) && |s| < |name|)
    ensures s != "" ==> '.' !in s[1..]
    ensures s != "" <==> |name| >= 2 && name[|name| - 1] != '.' && exists j :: 0 < j < |name| - 1 && name[j] == '.'
  {
    var i := LastDot(name, |name|);
    if 0 < i < |name| - 1 then name[i..]
    else ""
  }

  /** The index of the last `.` before position `k`, or -1 when there is none. */
  function LastDot(name: string, k: nat): (i: int)
    requires k <= |name|
    ensures -1 <= i < k
    ensures i >= 0 ==> name[i] == '.'
    ensures forall j :: i < j < k ==> name[j] != '.'
    decreases k
  {
    if k == 0 then -1 else if name[k - 1] == '.' then k - 1 else LastDot(name, k - 1)
  }

  /** `config_path.with_suffix(".json.backup").name`. */
  function BackupName(name: string): (b: string)
    ensures EndsWith(b, ".json.backup")
  {
    var current := Suffix(name);
    name[..|name| - |current|] + ".json.backup"
  }

  /** A file named `<stem>.json` is backed up beside itself as `<stem>.json.backup`. */
  lemma BackupOfJsonFile(stem: string)
    requires |stem| > 0 && '.' !in stem
    ensures BackupName(stem + ".json") == stem + ".json.backup"
  {
    var name := stem + ".json";
    assert name[|stem|] == '.';
    forall j | |stem| < j < |name| ensures name[j] != '.' {
      assert name[j] == ".json"[j - |stem|];
    }
    assert LastDot(name, |name|) == |stem|;
    assert name[..|stem|] == stem;
  }

  /** A name without a dot gets the backup suffix appended. */
  lemma BackupOfPlainName(name: string)
    requires '.' !in name
    ensures BackupName(name) == name + ".json.backup"
  {
    assert LastDot(name, |name|) == -1;
    assert name[..|name|] == name;
  }

  /** Reading the file either yields the document to merge into or stops with a message. */
  datatype Read = Document(doc: Json) | Stop(message: string)

  /**
   * A missing file and a blank one both start from `{}`; text that does not parse stops
   * with the corrupt-file message naming the backup; a read error stops with its detail.
   */
  function ReadConfig(decode: string -> Option<Json>, file: FileState, fileName: string): Read {
    match file
    case Missing => Document(Obj(map[]))
    case ReadFailed(detail) => Stop("Cannot read: " + detail)
    case Present(raw) =>
      if Strip(raw) == "" then Document(Obj(map[]))
      else
        match decode(raw)
        case None => Stop("Corrupt JSON — backed up to " + BackupName(fileName))
        case Some(j) => Document(j)
  }

  /** The merged document, and whether the server was configured before. */
  datatype Placed = Placed(config: map<string, Json>, already: bool)

  /**
   * Creates the section when it is missing and sets the entry. Python raises `TypeError` when
   * the document or the section is not a dict (`in` on a number, or item assignment on a
   * list or string), and nothing catches it.
   */
  function PlaceEntry(doc: Json, serverKey: string, serverName: string, entry: Json)
    : (r: Result<Placed, PyError>)
    ensures r.Success? <==> doc.Obj? && (serverKey !in doc.fields || doc.fields[serverKey].Obj?)
    ensures r.Failure? ==> r.error == TypeError
    ensures r.Success? ==> && serverKey in r.value.config && r.value.config[serverKey].Obj?
                           && serverName in r.value.config[serverKey].fields
                           && r.value.config[serverKey].fields[serverName] == entry
  {
    match doc
    case Obj(config) =>
      var section := if serverKey in config then config[serverKey] else Obj(map[]);
      if section.Obj? then
        Success(Placed(config[serverKey := Obj(section.fields[serverName := entry])],
                       serverName in section.fields))
      else Failure(TypeError)
    case _ => Failure(TypeError)
  }

  /** The text written back: the indented dump and one newline. */
  function Render(codec: JsonCodec, config: map<string, Json>): string {
    codec.pretty(Obj(config)) + "\n"
  }

  const Added: string := "Added successfully"
  const Updated: string := "Updated (was already configured)"

  /** `merge_mcp_config`; `writeError` is the detail of the `OSError` writing raised, if any. */
  function MergeMcpConfig(codec: JsonCodec, file: FileState, fileName: string, serverKey: string,
                          serverName: string, entry: Json, writeError: Option<string>)
    : (r: Result<Merged, PyError>)
    ensures r.Success? && r.value.ok ==> r.value.written.Some? && writeError.None?
    ensures r.Success? && !r.value.ok ==> r.value.written.None?
  {
    match ReadConfig(codec.decode, file, fileName)
    case Stop(message) => Success(Merged(false, message, None))
    case Document(doc) =>
      var placed :- PlaceEntry(doc, serverKey, serverName, entry);
      match writeError
      case Some(detail) => Success(Merged(false, "Cannot write: " + detail, None))
      case None =>
        Success(Merged(true, if placed.already then Updated else Added,
                       Some(Render(codec, placed.config))))
  }

  /** The written file holds the old document with only the server's entry set. */
  lemma MergeSetsOnlyTheEntry(codec: JsonCodec, file: FileState, fileName: string,
                              serverKey: string, serverName: string, entry: Json)
    requires ReadConfig(codec.decode, file, fileName).Document?
    requires PlaceEntry(ReadConfig(codec.decode, file, fileName).doc, serverKey, serverName, entry).Success?
    ensures var doc := ReadConfig(codec.decode, file, fileName).doc;
            var config := PlaceEntry(doc, serverKey, serverName, entry).value.config;
            && MergeMcpConfig(codec, file, fileName, serverKey, serverName, entry, None)
               == Success(Merged(true, if serverKey in doc.fields && serverName in doc.fields[serverKey].fields
                                       then Updated else Added,
                                 Some(Render(codec, config))))
            && (forall k :: k in config && k != serverKey ==> k in doc.fields && config[k] == doc.fields[k])
            && (forall k :: k in doc.fields ==> k in config)
            && (forall n :: n in config[serverKey].fields && n != serverName ==>
                  n in doc.fields[serverKey].fields
                  && config[serverKey].fields[n] == doc.fields[serverKey].fields[n])
            && config[serverKey].fields[serverName] == entry
  {
  }

  /** Starting without a file, or from a blank one, writes a file holding only the entry. */
  lemma FreshConfig(codec: JsonCodec, file: FileState, fileName: string, serverKey: string,
                    serverName: string, entry: Json)
    requires file.Missing? || (file.Present? && IsBlank(file.text))
    ensures MergeMcpConfig(codec, file, fileName, serverKey, serverName, entry, None)
            == Success(Merged(true, Added,
                              Some(Render(codec, map[serverKey := Obj(map[serverName := entry])]))))
  {
    if file.Present? {
      StripEmptyIffBlank(file.text);
    }
  }

  /** A file that does not parse is left alone and reported as corrupt. */
  lemma CorruptFileStops(codec: JsonCodec, raw: string, fileName: string, serverKey: string,
                         serverName: string, entry: Json, writeError: Option<string>)
    requires !IsBlank(raw) && codec.decode(raw) == None
    ensures MergeMcpConfig(codec, Present(raw), fileName, serverKey, serverName, entry, writeError)
            == Success(Merged(false, "Corrupt JSON — backed up to " + BackupName(fileName), None))
  {
    StripEmptyIffBlank(raw);
  }

  /** A document or section that is not a dict crashes the command with `TypeError`. */
  lemma NonDictCrashes(codec: JsonCodec, raw: string, fileName: string, serverKey: string,
                       serverName: string, entry: Json, writeError: Option<string>)
    requires !IsBlank(raw) && codec.decode(raw).Some?
    requires var j := codec.decode(raw).value;
             !j.Obj? || (serverKey in j.fields && !j.fields[serverKey].Obj?)
    ensures MergeMcpConfig(codec, Present(raw), fileName, serverKey, serverName, entry, writeError)
            == Failure(TypeError)
  {
    StripEmptyIffBlank(raw);
  }

  /** The message says "Updated" exactly when the server was already under the section. */
  lemma UpdatedIffAlreadyConfigured(codec: JsonCodec, raw: string, fileName: string,
                                    serverKey: string, serverName: string, entry: Json)
    requires !IsBlank(raw) && codec.decode(raw).Some? && codec.decode(raw).value.Obj?
    requires var m := codec.decode(raw).value.fields; serverKey !in m || m[serverKey].Obj?
    ensures var r := MergeMcpConfig(codec, Present(raw), fileName, serverKey, serverName, entry, None);
            var m := codec.decode(raw).value.fields;
            r.Success? && r.value.ok
            && (r.value.message == Updated <==> serverKey in m && serverName in m[serverKey].fields)
  {
    StripEmptyIffBlank(raw);
  }

  /** A write error reports its detail; nothing counts as written. */
  lemma WriteErrorReported(codec: JsonCodec, file: FileState, fileName: string, serverKey: string,
                           serverName: string, entry: Json, detail: string)
    requires ReadConfig(codec.decode, file, fileName).Document?
    requires PlaceEntry(ReadConfig(codec.decode, file, fileName).doc, serverKey, serverName, entry).Success?
    ensures MergeMcpConfig(codec, file, fileName, serverKey, serverName, entry, Some(detail))
            == Success(Merged(false, "Cannot write: " + detail, None))
  {
  }

  /** The written text ends with exactly one newline. */
  lemma RenderEndsWithOneNewline(codec: JsonCodec, config: map<string, Json>)
    requires Lawful(codec)
    ensures EndsWith(Render(codec, config), "\n")
    ensures !EndsWith(Render(codec, config), "\n\n")
  {
    var p := codec.pretty(Obj(config));
    var t := Render(codec, config);
    assert !EndsWith(p, "\n");
    assert t[|t| - 1..] == "\n";
  }

  /**
   * Running the installer twice with the same entry writes the same file again; the second
   * run reports the server as already configured.
   */
  lemma {:induction false} MergeIdempotent(codec: JsonCodec, file: FileState, fileName: string,
                                           serverKey: string, serverName: string, entry: Json)
    requires Lawful(codec)
    requires MergeMcpConfig(codec, file, fileName, serverKey, serverName, entry, None).Success?
    requires MergeMcpConfig(codec, file, fileName, serverKey, serverName, entry, None).value.ok
    ensures var first := MergeMcpConfig(codec, file, fileName, serverKey, serverName, entry, None).value;
            MergeMcpConfig(codec, Present(first.written.value), fileName, serverKey, serverName, entry, None)
            == Success(Merged(true, Updated, first.written))
  {
    var doc := ReadConfig(codec.decode, file, fileName).doc;
    var placed := PlaceEntry(doc, serverKey, serverName, entry).value;
    RenderedReadsBack(codec, placed.config, fileName);
    PlaceAgain(placed.config, serverKey, serverName, entry);
  }

  /** The written text reads back as the document that was written. */
  lemma RenderedReadsBack(codec: JsonCodec, config: map<string, Json>, fileName: string)
    requires Lawful(codec)
    ensures ReadConfig(codec.decode, Present(Render(codec, config)), fileName) == Document(Obj(config))
  {
    var text := Render(codec, config);
    var p := codec.pretty(Obj(config));
    assert codec.decode(text) == Some(Obj(config));
    assert !IsBlank(p);
    assert !IsBlank(text) by {
      var i :| 0 <= i < |p| && !IsSpace(p[i]);
      assert text[i] == p[i];
    }
    StripEmptyIffBlank(text);
  }

  /** Setting an entry that is already in place changes nothing and reports it as present. */
  lemma PlaceAgain(config: map<string, Json>, serverKey: string, serverName: string, entry: Json)
    requires serverKey in config && config[serverKey].Obj?
    requires serverName in config[serverKey].fields && config[serverKey].fields[serverName] == entry
    ensures PlaceEntry(Obj(config), serverKey, serverName, entry) == Success(Placed(config, true))
  {
    var section := config[serverKey].fields;
    assert section[serverName := entry] == section;
    assert config[serverKey := Obj(section)] == config;
  }
}

=== FILE: pagetokens.dfy ===
/**
 * The CSRF token and session id scraped from the NotebookLM home page by fixed regular
 * expressions, with `re.search` semantics: the leftmost position where the pattern matches.
 */
module PageTokens {
  import opened Wrappers
  import opened Text

  /** The literal text before the CSRF token: `"SNlM0e":"`. */
  const CsrfKey: string := "\"SNlM0e\":\""
  /** The literal text before the preferred session id: `"FdrFJe":"`. */
  const FdrKey: string := "\"FdrFJe\":\""
  /** The literal text that opens the fallback session-id pattern. */
  const SidKey: string := "f.sid"

  /** The character classes the patterns repeat: `[^"]`, `\d`, and `["\s:=]`. */
  datatype CharClass = NonQuote | Digit | SidSeparator

  predicate InClass(c: char, k: CharClass) {
    match k
    case NonQuote => c != '"'
    case Digit => IsAsciiDigit(c)
    case SidSeparator => c == '"' || IsSpace(c) || c == ':' || c == '='
  }

  /** The end of the longest run of class `k` starting at `i`. */
  function RunEnd(s: string, i: nat, k: CharClass): (e: nat)
    requires i <= |s|
    ensures i <= e <= |s|
    ensures forall j :: i <= j < e ==> InClass(s[j], k)
    ensures e < |s| ==> !InClass(s[e], k)
    decreases |s| - i
  {
    if i < |s| && InClass(s[i], k) then RunEnd(s, i + 1, k) else i
  }

  /** The three patterns. */
  datatype Pattern =
    | Csrf   // "SNlM0e":"([^"]+)"
    | Fdr    // "FdrFJe":"(\d+)"
    | FSid   // f\.sid["\s:=]+["']?(\d+)

  /**
   * `key`, then a non-empty run of class `k` captured, then `"`. A shorter run would end
   * before another character of the class, not before `"`, so the longest run decides.
   */
  function QuotedCapture(s: string, p: nat, key: string, k: CharClass): Option<string>
    requires p <= |s|
  {
    if !OccursAt(s, key, p) then None
    else
      var b := p + |key|;
      var e := RunEnd(s, b, k);
      if e > b && e < |s| && s[e] == '"' then Some(s[b..e]) else None
  }

  /**
   * `f.sid`, a non-empty separator run, an optional `'`, then the captured digits. Backtracking
   * into the separator run never helps: every shorter run leaves a separator or the first
   * character after the run where a digit is needed.
   */
  function SidCapture(s: string, p: nat): Option<string>
    requires p <= |s|
  {
    if !OccursAt(s, SidKey, p) then None
    else
      var b := p + |SidKey|;
      var e1 := RunEnd(s, b, SidSeparator);
      if e1 == b then None
      else
        var d := if e1 < |s| && s[e1] == '\'' then e1 + 1 else e1;
        var e2 := RunEnd(s, d, Digit);
        if e2 > d then Some(s[d..e2]) else None
  }

  /** The capture of a match starting at `p`, if the pattern matches there. */
  function MatchAt(pat: Pattern, s: string, p: nat): (c: Option<string>)
    requires p <= |s|
    ensures c.Some? && pat != Csrf ==> IsDigits(c.value)
    ensures c.Some? && pat == Csrf ==> |c.value| > 0 && '"' !in c.value
  {
    match pat
    case Csrf => QuotedCapture(s, p, CsrfKey, NonQuote)
    case Fdr => QuotedCapture(s, p, FdrKey, Digit)
    case FSid => SidCapture(s, p)
  }

  /** `re.search` from position `p` on: the capture at the leftmost matching position. */
  function Search(pat: Pattern, s: string, p: nat): (c: Option<string>)
    requires p <= |s| + 1
    ensures c.Some? ==> exists q :: p <= q <= |s| && MatchAt(pat, s, q) == c && NoMatchBetween(pat, s, p, q)
    ensures c.None? ==> NoMatchBetween(pat, s, p, |s| + 1)
    decreases |s| + 1 - p
  {
    if p > |s| then None
    else if MatchAt(pat, s, p).Some? then
      assert NoMatchBetween(pat, s, p, p);
      MatchAt(pat, s, p)
    else
      var c := Search(pat, s, p + 1);
      if c.Some? then
        var q :| p + 1 <= q <= |s| && MatchAt(pat, s, q) == c && NoMatchBetween(pat, s, p + 1, q);
        assert NoMatchBetween(pat, s, p, q);
        c
      else c
  }

  /** One step of the search: the match at `p` if there is one, the search from `p + 1` otherwise. */
  lemma SearchStep(pat: Pattern, s: string, p: nat)
    requires p <= |s|
    ensures Search(pat, s, p) == if MatchAt(pat, s, p).Some? then MatchAt(pat, s, p) else Search(pat, s, p + 1)
  {
  }

  /** The pattern matches at no position in `[from, to)`. */
  predicate NoMatchBetween(pat: Pattern, s: string, from: nat, to: nat) {
    forall q :: from <= q < to && q <= |s| ==> MatchAt(pat, s, q).None?
  }

  /** The leftmost search as the source runs it: a loop over start positions. */
  method FindLeftmost(pat: Pattern, s: string) returns (c: Option<string>)
    ensures c == Search(pat, s, 0)
  {
    var p := 0;
    while p <= |s|
      invariant 0 <= p <= |s| + 1
      invariant Search(pat, s, 0) == Search(pat, s, p)
      decreases |s| + 1 - p
    {
      var m := MatchAt(pat, s, p);
      SearchStep(pat, s, p);
      if m.Some? {
        return m;
      }
      p := p + 1;
    }
    return None;
  }

  /** `extract_csrf_from_html`. */
  function ExtractCsrf(html: string): string {
    Search(Csrf, html, 0).GetOr("")
  }

  /** `extract_session_id_from_html`: the `FdrFJe` pattern first, then the `f.sid` one. */
  function ExtractSessionId(html: string): string {
    match Search(Fdr, html, 0)
    case Some(c) => c
    case None => Search(FSid, html, 0).GetOr("")
  }

  /** The token is empty or a non-empty run without quotes. */
  lemma CsrfShape(html: string)
    ensures ExtractCsrf(html) == "" || '"' !in ExtractCsrf(html)
  {
  }

  /** The session id is empty or a non-empty run of digits. */
  lemma SessionIdShape(html: string)
    ensures ExtractSessionId(html) == "" || IsDigits(ExtractSessionId(html))
  {
  }

  /** Wherever the two patterns occur, an `FdrFJe` match decides the session id. */
  lemma FdrTakesPriority(html: string, p: nat)
    requires p <= |html| && MatchAt(Fdr, html, p).Some?
    ensures ExtractSessionId(html) == Search(Fdr, html, 0).value
    ensures Search(Fdr, html, 0).Some?
  {
  }

  /** Without any `FdrFJe` match, the `f.sid` pattern's leftmost capture is used. */
  lemma FSidFallback(html: string)
    requires NoMatchBetween(Fdr, html, 0, |html| + 1)
    ensures ExtractSessionId(html) == Search(FSid, html, 0).GetOr("")
  {
  }

  /** No match starts inside a prefix holding no character the pattern starts with. */
  lemma NoMatchInPrefix(pat: Pattern, pre: string, rest: string)
    requires pat != FSid ==> '"' !in pre
    requires pat == FSid ==> 'f' !in pre
    ensures NoMatchBetween(pat, pre + rest, 0, |pre|)
  {
    var s := pre + rest;
    forall q | 0 <= q < |pre| ensures MatchAt(pat, s, q).None? {
      assert s[q] == pre[q];
      var key := if pat == Csrf then CsrfKey else if pat == Fdr then FdrKey else SidKey;
      assert s[q] != key[0];
      if q + |key| <= |s| {
        assert s[q..q + |key|][0] == s[q];
      }
    }
  }

  lemma RunEndOfRun(s: string, b: nat, e: nat, k: CharClass)
    requires b <= e <= |s|
    requires forall j :: b <= j < e ==> InClass(s[j], k)
    requires e < |s| ==> !InClass(s[e], k)
    ensures RunEnd(s, b, k) == e
    decreases e - b
  {
    if b < e {
      RunEndOfRun(s, b + 1, e, k);
    }
  }

  /**
   * The page embeds `"SNlM0e":"<token>"`; with no quote before it, extraction returns
   * exactly the token.
   */
  lemma CsrfRoundTrip(pre: string, token: string, post: string)
    requires '"' !in pre && |token| > 0 && '"' !in token
    ensures ExtractCsrf(pre + CsrfKey + token + "\"" + post) == token
  {
    var s := pre + CsrfKey + token + "\"" + post;
    var p := |pre|;
    var b := p + |CsrfKey|;
    var e := b + |token|;
    assert s == pre + (CsrfKey + token + "\"" + post);
    NoMatchInPrefix(Csrf, pre, CsrfKey + token + "\"" + post);
    assert s[p..b] == CsrfKey;
    assert s[b..e] == token;
    assert s[e] == '"';
    forall j | b <= j < e ensures InClass(s[j], NonQuote) {
      assert s[j] == token[j - b];
    }
    RunEndOfRun(s, b, e, NonQuote);
    assert MatchAt(Csrf, s, p) == Some(token);
    SearchFirst(Csrf, s, 0, p);
  }

  /** The same for the session id under `"FdrFJe":"<digits>"`. */
  lemma SessionIdRoundTrip(pre: string, digits: string, post: string)
    requires '"' !in pre && IsDigits(digits)
    ensures ExtractSessionId(pre + FdrKey + digits + "\"" + post) == digits
  {
    var s := pre + FdrKey + digits + "\"" + post;
    var p := |pre|;
    var b := p + |FdrKey|;
    var e := b + |digits|;
    assert s == pre + (FdrKey + digits + "\"" + post);
    NoMatchInPrefix(Fdr, pre, FdrKey + digits + "\"" + post);
    assert s[p..b] == FdrKey;
    assert s[b..e] == digits;
    assert s[e] == '"';
    forall j | b <= j < e ensures InClass(s[j], Digit) {
      assert s[j] == digits[j - b];
    }
    RunEndOfRun(s, b, e, Digit);
    assert MatchAt(Fdr, s, p) == Some(digits);
    SearchFirst(Fdr, s, 0, p);
  }

  /** The search returns the match at `p` when nothing matches before it. */
  lemma {:induction false} SearchFirst(pat: Pattern, s: string, from: nat, p: nat)
    requires from <= p <= |s| && NoMatchBetween(pat, s, from, p) && MatchAt(pat, s, p).Some?
    ensures Search(pat, s, from) == MatchAt(pat, s, p)
    decreases p - from
  {
    SearchStep(pat, s, from);
    if from < p {
      assert MatchAt(pat, s, from).None?;
      SearchFirst(pat, s, from + 1, p);
    }
  }
}

=== FILE: percent.dfy ===
/**
 * Percent-encoding as `urllib.parse` performs it: `quote(s, safe='')` keeps only the
 * unreserved characters of section 2.3 of RFC 3986 and escapes every UTF-8 byte of every
 * other character as `%XX` (section 2.1, upper-case hex); `quote_plus` additionally writes
 * a space as `+`; `urlencode` joins `key=value` pairs with `&`.
 */
module Percent {
  import opened Text

  type byte = x: int | 0 <= x < 256

  /** The UTF-8 encoding of one Unicode scalar value. */
  function Utf8Char(c: char): (bs: seq<byte>)
    ensures 1 <= |bs| <= 4
    ensures |bs| == 1 <==> c as int < 128
    ensures c as int < 128 ==> bs == [c as int]
  {
    var n := c as int;
    if n < 0x80 then [n]
    else if n < 0x800 then [0xC0 + n / 64, 0x80 + n % 64]
    else if n < 0x10000 then [0xE0 + n / 4096, 0x80 + (n / 64) % 64, 0x80 + n % 64]
    else [0xF0 + n / 262144, 0x80 + (n / 4096) % 64, 0x80 + (n / 64) % 64, 0x80 + n % 64]
  }

  /** `s.encode('utf-8')`. */
  function Utf8(s: string): seq<byte>
    decreases |s|
  {
    if |s| == 0 then [] else Utf8Char(s[0]) + Utf8(s[1..])
  }

  /** Reads bytes below 128 back as characters. */
  function AsciiText(bs: seq<byte>): string
    decreases |bs|
  {
    if |bs| == 0 then "" else [(if bs[0] < 128 then bs[0] else 0) as char] + AsciiText(bs[1..])
  }

  /** On ASCII text, UTF-8 is the identity on code points, so decoding it back is exact. */
  lemma {:induction false} AsciiTextUtf8(s: string)
    requires IsAscii(s)
    ensures AsciiText(Utf8(s)) == s
    decreases |s|
  {
    if |s| > 0 {
      AsciiTextUtf8(s[1..]);
      assert Utf8(s) == [s[0] as int] + Utf8(s[1..]);
      assert Utf8(s)[1..] == Utf8(s[1..]);
      assert [s[0]] + s[1..] == s;
    }
  }

  /** The unreserved characters of section 2.3 of RFC 3986, which `quote` never escapes. */
  predicate IsUnreserved(c: char) {
    ('A' <= c <= 'Z') || ('a' <= c <= 'z') || ('0' <= c <= '9') || c == '-' || c == '.' || c == '_' || c == '~'
  }

  predicate IsHex(c: char) {
    ('0' <= c <= '9') || ('A' <= c <= 'F') || ('a' <= c <= 'f')
  }

  function HexValue(c: char): (v: nat)
    requires IsHex(c)
    ensures v < 16
  {
    if '0' <= c <= '9' then c as int - '0' as int
    else if 'A' <= c <= 'F' then c as int - 'A' as int + 10
    else c as int - 'a' as int + 10
  }

  /** Upper-case hexadecimal digit, as `quote` writes it. */
  function HexDigit(d: nat): (c: char)
    requires d < 16
    ensures IsHex(c) && HexValue(c) == d
  {
    if d < 10 then ('0' as int + d) as char else ('A' as int + d - 10) as char
  }

  function EscapeByte(b: byte): string {
    ['%', HexDigit(b / 16), HexDigit(b % 16)]
  }

  function EscapeBytes(bs: seq<byte>): string
    decreases |bs|
  {
    if |bs| == 0 then "" else EscapeByte(bs[0]) + EscapeBytes(bs[1..])
  }

  function QuoteChar(c: char): string {
    if IsUnreserved(c) then [c] else EscapeBytes(Utf8Char(c))
  }

  /** `urllib.parse.quote(s, safe='')`. */
  function Quote(s: string): string
    decreases |s|
  {
    if |s| == 0 then "" else QuoteChar(s[0]) + Quote(s[1..])
  }

  /** `urllib.parse.quote_plus(s, safe='')`, the quoting `urlencode` applies to keys and values. */
  function QuotePlus(s: string): string
    decreases |s|
  {
    if |s| == 0 then "" else (if s[0] == ' ' then "+" else QuoteChar(s[0])) + QuotePlus(s[1..])
  }

  /** Characters that may appear in quoted text. */
  predicate IsQuotedChar(c: char) {
    IsUnreserved(c) || c == '%' || c == '+'
  }

  predicate IsQuotedText(s: string) {
    forall i :: 0 <= i < |s| ==> IsQuotedChar(s[i])
  }

  lemma EscapeBytesQuoted(bs: seq<byte>)
    ensures IsQuotedText(EscapeBytes(bs))
    ensures '+' !in EscapeBytes(bs)
  {
  }

  /** Quoted text is ASCII and holds no `&`, `=`, space or `+`: it cannot break the form syntax. */
  lemma {:induction false} QuoteIsQuotedText(s: string)
    ensures IsQuotedText(Quote(s)) && '+' !in Quote(s)
    ensures IsQuotedText(QuotePlus(s))
    decreases |s|
  {
    if |s| > 0 {
      QuoteIsQuotedText(s[1..]);
      EscapeBytesQuoted(Utf8Char(s[0]));
    }
  }

  lemma QuotedTextHasNoSeparators(s: string)
    requires IsQuotedText(s)
    ensures '&' !in s && '=' !in s
  {
    forall i | 0 <= i < |s| ensures s[i] != '&' && s[i] != '=' {
      assert IsQuotedChar(s[i]);
    }
  }

  /**
   * The bytes a form or query value stands for: `%XX` is one byte, `+` is a space, and any
   * other character is its UTF-8 encoding (Python's `unquote_to_bytes` after `+` becomes a space).
   */
  function FormDecode(s: string): seq<byte>
    decreases |s|
  {
    if |s| == 0 then []
    else if s[0] == '%' && |s| >= 3 && IsHex(s[1]) && IsHex(s[2]) then
      [HexValue(s[1]) * 16 + HexValue(s[2])] + FormDecode(s[3..])
    else if s[0] == '+' then [32] + FormDecode(s[1..])
    else Utf8Char(s[0]) + FormDecode(s[1..])
  }

  lemma FormDecodeEscapeByte(b: byte, rest: string)
    ensures FormDecode(EscapeByte(b) + rest) == [b] + FormDecode(rest)
  {
    var t := EscapeByte(b) + rest;
    assert t[0] == '%' && t[1] == HexDigit(b / 16) && t[2] == HexDigit(b % 16);
    assert t[3..] == rest;
  }

  lemma {:induction false} FormDecodeEscapeBytes(bs: seq<byte>, rest: string)
    ensures FormDecode(EscapeBytes(bs) + rest) == bs + FormDecode(rest)
    decreases |bs|
  {
    if |bs| > 0 {
      var tail := EscapeBytes(bs[1..]) + rest;
      assert EscapeBytes(bs) + rest == EscapeByte(bs[0]) + tail;
      FormDecodeEscapeByte(bs[0], tail);
      FormDecodeEscapeBytes(bs[1..], rest);
      calc {
        FormDecode(EscapeBytes(bs) + rest);
        [bs[0]] + FormDecode(tail);
        [bs[0]] + (bs[1..] + FormDecode(rest));
        { assert [bs[0]] + bs[1..] == bs; }
        bs + FormDecode(rest);
      }
    } else {
      assert EscapeBytes(bs) + rest == rest;
    }
  }

  lemma FormDecodeQuoteChar(c: char, rest: string)
    ensures FormDecode(QuoteChar(c) + rest) == Utf8Char(c) + FormDecode(rest)
  {
    if IsUnreserved(c) {
      assert ([c] + rest)[1..] == rest;
    } else {
      FormDecodeEscapeBytes(Utf8Char(c), rest);
    }
  }

  /** Decoding what `quote` produced gives back exactly the UTF-8 bytes of the input. */
  lemma {:induction false} QuoteRoundTrip(s: string)
    ensures FormDecode(Quote(s)) == Utf8(s)
    decreases |s|
  {
    if |s| > 0 {
      FormDecodeQuoteChar(s[0], Quote(s[1..]));
      QuoteRoundTrip(s[1..]);
    }
  }

  /** Decoding what `quote_plus` produced gives back exactly the UTF-8 bytes of the input. */
  lemma {:induction false} QuotePlusRoundTrip(s: string)
    ensures FormDecode(QuotePlus(s)) == Utf8(s)
    decreases |s|
  {
    if |s| > 0 {
      if s[0] == ' ' {
        assert ("+" + QuotePlus(s[1..]))[1..] == QuotePlus(s[1..]);
      } else {
        FormDecodeQuoteChar(s[0], QuotePlus(s[1..]));
      }
      QuotePlusRoundTrip(s[1..]);
    }
  }

  /** A `key=value` pair of a form body or a query string. */
  datatype Field = Field(key: string, value: string)

  /** A decoded pair, as the bytes its key and value stand for. */
  datatype DecodedField = DecodedField(key: seq<byte>, value: seq<byte>)

  function EncodeField(f: Field): string {
    QuotePlus(f.key) + "=" + QuotePlus(f.value)
  }

  function EncodeFields(fs: seq<Field>): seq<string>
    decreases |fs|
  {
    if |fs| == 0 then [] else [EncodeField(fs[0])] + EncodeFields(fs[1..])
  }

  /** `urllib.parse.urlencode` of an insertion-ordered dictionary. */
  function UrlEncode(fs: seq<Field>): string {
    Join(EncodeFields(fs), '&')
  }

  /** Index of the first `=` in `s`, or `|s|`. */
  function FirstEquals(s: string): (k: nat)
    ensures k <= |s|
    ensures forall i :: 0 <= i < k ==> s[i] != '='
    ensures k < |s| ==> s[k] == '='
    decreases |s|
  {
    if |s| == 0 then 0 else if s[0] == '=' then 0 else 1 + FirstEquals(s[1..])
  }

  /** Splits one piece at its first `=` and decodes both halves. */
  function DecodePiece(p: string): DecodedField {
    var k := FirstEquals(p);
    DecodedField(FormDecode(p[..k]), if k < |p| then FormDecode(p[k + 1..]) else [])
  }

  /** The fields of a form body or query string: `&`-separated, empty pieces skipped. */
  function DecodePieces(ps: seq<string>): seq<DecodedField>
    decreases |ps|
  {
    if |ps| == 0 then []
    else if ps[0] == "" then DecodePieces(ps[1..])
    else [DecodePiece(ps[0])] + DecodePieces(ps[1..])
  }

  function DecodeForm(text: string): seq<DecodedField> {
    DecodePieces(Split(text, '&'))
  }

  function Utf8Field(f: Field): DecodedField {
    DecodedField(Utf8(f.key), Utf8(f.value))
  }

  function Utf8Fields(fs: seq<Field>): seq<DecodedField>
    decreases |fs|
  {
    if |fs| == 0 then [] else [Utf8Field(fs[0])] + Utf8Fields(fs[1..])
  }

  /** The first `=` of `k=v` is the one after `k` when `k` holds none. */
  lemma SplitAtFirstEquals(k: string, v: string)
    requires '=' !in k
    ensures var p := k + "=" + v; FirstEquals(p) == |k| && p[..|k|] == k && p[|k| + 1..] == v
  {
    var p := k + "=" + v;
    forall i | 0 <= i < |k| ensures p[i] != '=' {
      assert p[i] == k[i];
    }
    assert p[|k|] == '=';
  }

  lemma EncodeFieldDecodes(f: Field)
    ensures EncodeField(f) != ""
    ensures '&' !in EncodeField(f)
    ensures DecodePiece(EncodeField(f)) == Utf8Field(f)
  {
    var k := QuotePlus(f.key);
    var v := QuotePlus(f.value);
    QuoteIsQuotedText(f.key);
    QuoteIsQuotedText(f.value);
    QuotedTextHasNoSeparators(k);
    QuotedTextHasNoSeparators(v);
    SplitAtFirstEquals(k, v);
    QuotePlusRoundTrip(f.key);
    QuotePlusRoundTrip(f.value);
    assert '&' !in k + "=" + v;
  }

  lemma {:induction false} EncodeFieldsShape(fs: seq<Field>)
    ensures |EncodeFields(fs)| == |fs|
    ensures forall i :: 0 <= i < |fs| ==> EncodeFields(fs)[i] == EncodeField(fs[i])
    decreases |fs|
  {
    if |fs| > 0 {
      EncodeFieldsShape(fs[1..]);
    }
  }

  lemma {:induction false} DecodeEncodedPieces(fs: seq<Field>, tail: seq<string>)
    requires forall i :: 0 <= i < |tail| ==> tail[i] == ""
    ensures DecodePieces(EncodeFields(fs) + tail) == Utf8Fields(fs)
    decreases |fs|
  {
    if |fs| == 0 {
      assert EncodeFields(fs) + tail == tail;
      EmptyPiecesDecodeToNothing(tail);
    } else {
      EncodeFieldDecodes(fs[0]);
      assert EncodeFields(fs) + tail == [EncodeField(fs[0])] + (EncodeFields(fs[1..]) + tail);
      DecodeEncodedPieces(fs[1..], tail);
    }
  }

  lemma {:induction false} EmptyPiecesDecodeToNothing(tail: seq<string>)
    requires forall i :: 0 <= i < |tail| ==> tail[i] == ""
    ensures DecodePieces(tail) == []
    decreases |tail|
  {
    if |tail| > 0 {
      EmptyPiecesDecodeToNothing(tail[1..]);
    }
  }

  /**
   * Decoding an encoded field list, optionally followed by `&`s, yields every key and value
   * in order, as its UTF-8 bytes.
   */
  lemma {:induction false} UrlEncodeRoundTrip(fs: seq<Field>, trailing: nat)
    requires |fs| >= 1
    ensures DecodeForm(UrlEncode(fs) + seq(trailing, _ => '&')) == Utf8Fields(fs)
  {
    var ps := EncodeFields(fs);
    var tail: seq<string> := seq(trailing, _ => "");
    EncodeFieldsShape(fs);
    forall i | 0 <= i < |ps| ensures '&' !in ps[i] {
      EncodeFieldDecodes(fs[i]);
    }
    JoinTrailing(ps, trailing);
    SplitJoin(ps + tail, '&');
    DecodeEncodedPieces(fs, tail);
  }

  lemma {:induction false} JoinTrailing(ps: seq<string>, trailing: nat)
    requires |ps| >= 1
    ensures Join(ps, '&') + seq(trailing, _ => '&') == Join(ps + seq(trailing, _ => ""), '&')
    decreases |ps|
  {
    var tail: seq<string> := seq(trailing, _ => "");
    if |ps| == 1 {
      JoinEmpties(ps[0], trailing);
    } else {
      JoinTrailing(ps[1..], trailing);
      assert (ps + tail)[1..] == ps[1..] + tail;
    }
  }

  lemma {:induction false} JoinEmpties(head: string, trailing: nat)
    ensures head + seq(trailing, _ => '&') == Join([head] + seq(trailing, _ => ""), '&')
    decreases trailing
  {
    if trailing > 0 {
      var tail: seq<string> := seq(trailing, _ => "");
      var tail': seq<string> := seq(trailing - 1, _ => "");
      JoinEmpties("", trailing - 1);
      assert ([head] + tail)[1..] == [""] + tail';
      assert seq(trailing, _ => '&') == ['&'] + seq(trailing - 1, _ => '&');
    }
  }
}

=== FILE: protocol.dfy ===
/** Request encoding for the batch-RPC endpoint and the streaming query endpoint. */
module Protocol {
  import opened Wrappers
  import opened Text
  import opened Json
  import opened Percent
  import Config

  /** The batch envelope `[[[rpc_id, json(params), null, "generic"]]]`. */
  function BatchEnvelope(codec: JsonCodec, rpcId: string, params: Json): Json {
    Arr([Arr([Arr([Str(rpcId), Str(codec.encode(params)), Null, Str("generic")])])])
  }

  /** The streaming-query envelope `[null, json(params)]`. */
  function QueryEnvelope(codec: JsonCodec, params: Json): Json {
    Arr([Null, Str(codec.encode(params))])
  }

  /** The `&`-separated pieces of a body with keys `k0` and `k1`, before its final `&`. */
  function KeyedParts(k0: string, k1: string, freq: string, csrf: string): seq<string> {
    [k0 + "=" + Quote(freq)] + (if csrf != "" then [k1 + "=" + Quote(csrf)] else [])
  }

  /** `f.req=<quoted>`, then `&at=<quoted token>` when the token is non-empty, then a final `&`. */
  function FormBody(freq: string, csrf: string): (body: string)
    ensures EndsWith(body, "&")
    ensures StartsWith(body, "f.req=")
  {
    var body := Join(KeyedParts("f.req", "at", freq, csrf), '&') + "&";
    assert body[..6] == "f.req=";
    body
  }

  /** `build_request_body`. */
  function BuildRequestBody(codec: JsonCodec, rpcId: string, params: Json, csrf: string): string {
    FormBody(codec.encode(BatchEnvelope(codec, rpcId, params)), csrf)
  }

  /** `build_query_body`. */
  function BuildQueryBody(codec: JsonCodec, params: Json, csrf: string): string {
    FormBody(codec.encode(QueryEnvelope(codec, params)), csrf)
  }

  /** The fields a body carries: `f.req`, then `at` only for a non-empty token. */
  function BodyFields(freq: string, csrf: string): seq<DecodedField> {
    [DecodedField(Utf8("f.req"), Utf8(freq))]
      + (if csrf != "" then [DecodedField(Utf8("at"), Utf8(csrf))] else [])
  }

  predicate AllUnreserved(s: string) {
    forall i :: 0 <= i < |s| ==> IsUnreserved(s[i])
  }

  lemma {:induction false} UnreservedQuoteIdentity(s: string)
    requires AllUnreserved(s)
    ensures Quote(s) == s
    decreases |s|
  {
    if |s| > 0 {
      UnreservedQuoteIdentity(s[1..]);
      assert [s[0]] + s[1..] == s;
    }
  }

  /** A piece `k=<quoted v>` with a plain key decodes to the key's and value's bytes. */
  lemma DecodeQuotedPiece(k: string, v: string)
    requires AllUnreserved(k)
    ensures '&' !in k + "=" + Quote(v) && k + "=" + Quote(v) != ""
    ensures DecodePiece(k + "=" + Quote(v)) == DecodedField(Utf8(k), Utf8(v))
  {
    var q := Quote(v);
    QuoteIsQuotedText(v);
    QuotedTextHasNoSeparators(q);
    forall i | 0 <= i < |k| ensures k[i] != '=' && k[i] != '&' {
      assert IsUnreserved(k[i]);
    }
    SplitAtFirstEquals(k, q);
    QuoteRoundTrip(v);
    UnreservedQuoteIdentity(k);
    QuoteRoundTrip(k);
    assert '&' !in k + "=" + q;
  }

  function DecodeEach(parts: seq<string>): seq<DecodedField>
    decreases |parts|
  {
    if |parts| == 0 then [] else [DecodePiece(parts[0])] + DecodeEach(parts[1..])
  }

  lemma {:induction false} DecodePiecesNonEmpty(parts: seq<string>)
    requires forall i :: 0 <= i < |parts| ==> parts[i] != ""
    ensures DecodePieces(parts + [""]) == DecodeEach(parts)
    decreases |parts|
  {
    if |parts| == 0 {
      assert parts + [""] == [""];
    } else {
      assert (parts + [""])[1..] == parts[1..] + [""];
      DecodePiecesNonEmpty(parts[1..]);
    }
  }

  /** Joining pieces that hold no `&`, with a final `&`, decodes piece by piece. */
  lemma DecodeFormJoin(parts: seq<string>)
    requires |parts| >= 1
    requires forall i :: 0 <= i < |parts| ==> parts[i] != "" && '&' !in parts[i]
    ensures DecodeForm(Join(parts, '&') + "&") == DecodeEach(parts)
  {
    JoinTrailing(parts, 1);
    assert seq(1, _ => '&') == "&";
    assert seq(1, _ => "") == [""];
    SplitJoin(parts + [""], '&');
    DecodePiecesNonEmpty(parts);
  }

  lemma KeyedBodyFields(k0: string, k1: string, freq: string, csrf: string)
    requires AllUnreserved(k0) && AllUnreserved(k1)
    ensures DecodeForm(Join(KeyedParts(k0, k1, freq, csrf), '&') + "&")
      == [DecodedField(Utf8(k0), Utf8(freq))] + (if csrf != "" then [DecodedField(Utf8(k1), Utf8(csrf))] else [])
  {
    var parts := KeyedParts(k0, k1, freq, csrf);
    var head := DecodedField(Utf8(k0), Utf8(freq));
    DecodeQuotedPiece(k0, freq);
    if csrf != "" {
      var p1 := k1 + "=" + Quote(csrf);
      DecodeQuotedPiece(k1, csrf);
      assert parts[1..] == [p1];
      assert DecodeEach([p1]) == [DecodePiece(p1)] + DecodeEach([]);
      assert DecodeEach(parts) == [head] + [DecodedField(Utf8(k1), Utf8(csrf))];
    } else {
      assert DecodeEach(parts) == [head] + DecodeEach([]);
    }
    DecodeFormJoin(parts);
  }

  /** Form-decoding a body yields exactly its `f.req` field and, for a non-empty token, one `at` field. */
  lemma FormBodyFields(freq: string, csrf: string)
    ensures DecodeForm(FormBody(freq, csrf)) == BodyFields(freq, csrf)
  {
    assert AllUnreserved("f.req") && AllUnreserved("at");
    KeyedBodyFields("f.req", "at", freq, csrf);
  }

  /**
   * Percent-decoding the `f.req` value of a batch body and JSON-decoding it gives the
   * envelope; JSON-decoding its slot 1 again gives the parameters back.
   */
  lemma RequestEnvelopeRoundTrip(codec: JsonCodec, rpcId: string, params: Json, csrf: string)
    requires Lawful(codec)
    ensures var fields := DecodeForm(BuildRequestBody(codec, rpcId, params, csrf));
      && |fields| >= 1
      && fields[0].key == Utf8("f.req")
      && codec.decode(AsciiText(fields[0].value)) == Some(BatchEnvelope(codec, rpcId, params))
      && Slot(Slot(Slot(BatchEnvelope(codec, rpcId, params), 0), 0), 0) == Str(rpcId)
      && codec.decode(Slot(Slot(Slot(BatchEnvelope(codec, rpcId, params), 0), 0), 1).s) == Some(params)
  {
    var env := BatchEnvelope(codec, rpcId, params);
    FormBodyFields(codec.encode(env), csrf);
    AsciiTextUtf8(codec.encode(env));
  }

  /** The same round trip for the streaming query body, whose envelope is `[null, json(params)]`. */
  lemma QueryEnvelopeRoundTrip(codec: JsonCodec, params: Json, csrf: string)
    requires Lawful(codec)
    ensures var fields := DecodeForm(BuildQueryBody(codec, params, csrf));
      && |fields| >= 1
      && fields[0].key == Utf8("f.req")
      && codec.decode(AsciiText(fields[0].value)) == Some(QueryEnvelope(codec, params))
      && codec.decode(Slot(QueryEnvelope(codec, params), 1).s) == Some(params)
  {
    var env := QueryEnvelope(codec, params);
    FormBodyFields(codec.encode(env), csrf);
    AsciiTextUtf8(codec.encode(env));
  }

  /** In both bodies the token field `at` occurs exactly once when the token is non-empty and never otherwise. */
  lemma TokenFieldPresence(freq: string, csrf: string)
    ensures var fields := DecodeForm(FormBody(freq, csrf));
      && (csrf != "" ==> |fields| == 2 && fields[1] == DecodedField(Utf8("at"), Utf8(csrf)))
      && (csrf == "" ==> |fields| == 1)
      && fields[0].key != Utf8("at")
  {
    var fields := DecodeForm(FormBody(freq, csrf));
    FormBodyFields(freq, csrf);
    assert fields[0].key == Utf8("f.req");
    BodyKeysDiffer();
  }

  lemma BodyKeysDiffer()
    ensures Utf8("f.req") != Utf8("at")
  {
    AsciiUtf8Length("f.req");
    AsciiUtf8Length("at");
  }

  lemma {:induction false} AsciiUtf8Length(s: string)
    requires IsAscii(s)
    ensures |Utf8(s)| == |s|
    decreases |s|
  {
    if |s| > 0 {
      AsciiUtf8Length(s[1..]);
    }
  }

  /** The query parameters of a batch URL, in `urlencode` order. */
  function BatchUrlFields(rpcId: string, sessionId: string, sourcePath: string, buildLabel: string): seq<Field> {
    BatchBaseFields(rpcId, sourcePath, buildLabel)
      + (if sessionId != "" then [Field("f.sid", sessionId)] else [])
  }

  function BatchBaseFields(rpcId: string, sourcePath: string, buildLabel: string): seq<Field> {
    [Field("rpcids", rpcId), Field("source-path", sourcePath), Field("bl", buildLabel),
     Field("hl", "en"), Field("rt", "c")]
  }

  lemma BatchBaseKeys(rpcId: string, sourcePath: string, buildLabel: string)
    ensures var base := BatchBaseFields(rpcId, sourcePath, buildLabel);
      && |base| == 5 && AsciiKeys(base)
      && (forall i :: 0 <= i < |base| ==> base[i].key != "f.sid")
  {
    var base := BatchBaseFields(rpcId, sourcePath, buildLabel);
    forall i | 0 <= i < |base| ensures base[i].key != "f.sid" && IsAscii(base[i].key) {
      assert |base[i].key| != 5;
    }
  }

  /** `build_url`: the batch endpoint with its encoded query string. */
  function BuildUrl(rpcId: string, sessionId: string, sourcePath: string, buildLabel: string): string {
    Config.BatchExecuteUrl + "?" + UrlEncode(BatchUrlFields(rpcId, sessionId, sourcePath, buildLabel))
  }

  /** The query parameters of a streaming-query URL, in `urlencode` order. */
  function QueryUrlFields(sessionId: string, reqid: int, buildLabel: string): seq<Field> {
    QueryBaseFields(reqid, buildLabel) + (if sessionId != "" then [Field("f.sid", sessionId)] else [])
  }

  function QueryBaseFields(reqid: int, buildLabel: string): seq<Field> {
    [Field("bl", buildLabel), Field("hl", "en"), Field("_reqid", IntToString(reqid)), Field("rt", "c")]
  }

  lemma QueryBaseKeys(reqid: int, buildLabel: string)
    ensures var base := QueryBaseFields(reqid, buildLabel);
      && |base| == 4 && AsciiKeys(base)
      && (forall i :: 0 <= i < |base| ==> base[i].key != "f.sid")
  {
    var base := QueryBaseFields(reqid, buildLabel);
    forall i | 0 <= i < |base| ensures base[i].key != "f.sid" && IsAscii(base[i].key) {
      assert |base[i].key| != 5;
    }
  }

  /** `build_query_url`. */
  function BuildQueryUrl(sessionId: string, reqid: int, buildLabel: string): string {
    Config.BaseUrl + Config.QueryEndpoint + "?" + UrlEncode(QueryUrlFields(sessionId, reqid, buildLabel))
  }

  /** True when some decoded field has the given key. */
  predicate HasKey(fields: seq<DecodedField>, key: string) {
    exists i :: 0 <= i < |fields| && fields[i].key == Utf8(key)
  }

  lemma AsciiUtf8Injective(a: string, b: string)
    requires IsAscii(a) && IsAscii(b) && Utf8(a) == Utf8(b)
    ensures a == b
  {
    AsciiTextUtf8(a);
    AsciiTextUtf8(b);
  }

  predicate AsciiKeys(fs: seq<Field>) {
    forall i :: 0 <= i < |fs| ==> IsAscii(fs[i].key)
  }

  /** An encoded query decodes field by field, and an ASCII key is present iff some field had it. */
  lemma EncodedQueryFields(fs: seq<Field>, key: string)
    requires |fs| >= 1 && AsciiKeys(fs) && IsAscii(key)
    ensures var d := DecodeForm(UrlEncode(fs));
      && |d| == |fs|
      && (forall i :: 0 <= i < |fs| ==> d[i] == Utf8Field(fs[i]))
      && (HasKey(d, key) <==> exists i :: 0 <= i < |fs| && fs[i].key == key)
  {
    UrlEncodeRoundTrip(fs, 0);
    assert UrlEncode(fs) + seq(0, _ => '&') == UrlEncode(fs);
    Utf8FieldsShape(fs);
    var d := DecodeForm(UrlEncode(fs));
    forall i | 0 <= i < |fs| && d[i].key == Utf8(key) ensures fs[i].key == key {
      AsciiUtf8Injective(fs[i].key, key);
    }
  }

  /** Fixed fields followed by one optional field: the optional key is present iff the field was added. */
  lemma OptionalFieldQuery(base: seq<Field>, key: string, value: string, present: bool)
    requires |base| >= 1 && AsciiKeys(base) && IsAscii(key)
    requires forall i :: 0 <= i < |base| ==> base[i].key != key
    ensures var d := DecodeForm(UrlEncode(base + (if present then [Field(key, value)] else [])));
      && |d| == |base| + (if present then 1 else 0)
      && (forall i :: 0 <= i < |base| ==> d[i] == Utf8Field(base[i]))
      && (HasKey(d, key) <==> present)
      && (present ==> d[|base|] == DecodedField(Utf8(key), Utf8(value)))
  {
    var fs := base + (if present then [Field(key, value)] else []);
    assert AsciiKeys(fs);
    EncodedQueryFields(fs, key);
    if present {
      assert fs[|base|].key == key;
    }
  }

  /**
   * The batch URL's query decodes to `rpcids`, `source-path`, `bl`, `hl`, `rt` carrying the
   * inputs, plus `f.sid` exactly when a session id is given.
   */
  lemma BuildUrlQuery(rpcId: string, sessionId: string, sourcePath: string, buildLabel: string)
    ensures var q := UrlEncode(BatchUrlFields(rpcId, sessionId, sourcePath, buildLabel));
      && BuildUrl(rpcId, sessionId, sourcePath, buildLabel) == Config.BatchExecuteUrl + "?" + q
      && var d := DecodeForm(q);
      && |d| >= 5
      && d[0] == DecodedField(Utf8("rpcids"), Utf8(rpcId))
      && d[1] == DecodedField(Utf8("source-path"), Utf8(sourcePath))
      && d[2] == DecodedField(Utf8("bl"), Utf8(buildLabel))
      && d[3] == DecodedField(Utf8("hl"), Utf8("en"))
      && d[4] == DecodedField(Utf8("rt"), Utf8("c"))
      && (HasKey(d, "f.sid") <==> sessionId != "")
      && (sessionId == "" ==> |d| == 5)
      && (sessionId != "" ==> |d| == 6 && d[5] == DecodedField(Utf8("f.sid"), Utf8(sessionId)))
  {
    BatchUrlLeadingFields(rpcId, sessionId, sourcePath, buildLabel);
    BatchUrlFixedFields(rpcId, sessionId, sourcePath, buildLabel);
    BatchUrlSessionField(rpcId, sessionId, sourcePath, buildLabel);
  }

  lemma BatchUrlFixedFields(rpcId: string, sessionId: string, sourcePath: string, buildLabel: string)
    ensures var d := DecodeForm(UrlEncode(BatchUrlFields(rpcId, sessionId, sourcePath, buildLabel)));
      && |d| == 5 + (if sessionId != "" then 1 else 0)
      && d[3] == DecodedField(Utf8("hl"), Utf8("en"))
      && d[4] == DecodedField(Utf8("rt"), Utf8("c"))
  {
    var fs := BatchUrlFields(rpcId, sessionId, sourcePath, buildLabel);
    BatchUrlAsciiKeys(rpcId, sessionId, sourcePath, buildLabel);
    assert fs[3] == Field("hl", "en");
    assert fs[4] == Field("rt", "c");
    FieldDecoded(fs, 3, "hl", "en");
    FieldDecoded(fs, 4, "rt", "c");
  }

  lemma BatchUrlLeadingFields(rpcId: string, sessionId: string, sourcePath: string, buildLabel: string)
    ensures var d := DecodeForm(UrlEncode(BatchUrlFields(rpcId, sessionId, sourcePath, buildLabel)));
      && |d| >= 5
      && d[0] == DecodedField(Utf8("rpcids"), Utf8(rpcId))
      && d[1] == DecodedField(Utf8("source-path"), Utf8(sourcePath))
      && d[2] == DecodedField(Utf8("bl"), Utf8(buildLabel))
  {
    var fs := BatchUrlFields(rpcId, sessionId, sourcePath, buildLabel);
    BatchUrlAsciiKeys(rpcId, sessionId, sourcePath, buildLabel);
    assert fs[0] == Field("rpcids", rpcId);
    assert fs[1] == Field("source-path", sourcePath);
    assert fs[2] == Field("bl", buildLabel);
    FieldDecoded(fs, 0, "rpcids", rpcId);
    FieldDecoded(fs, 1, "source-path", sourcePath);
    FieldDecoded(fs, 2, "bl", buildLabel);
  }

  /** The field at `i` of an encoded query decodes to its key and value. */
  lemma FieldDecoded(fs: seq<Field>, i: nat, k: string, v: string)
    requires i < |fs| && AsciiKeys(fs) && fs[i] == Field(k, v)
    ensures |DecodeForm(UrlEncode(fs))| == |fs|
    ensures DecodeForm(UrlEncode(fs))[i] == DecodedField(Utf8(k), Utf8(v))
  {
    EncodedFields(fs);
  }

  lemma BatchUrlAsciiKeys(rpcId: string, sessionId: string, sourcePath: string, buildLabel: string)
    ensures AsciiKeys(BatchUrlFields(rpcId, sessionId, sourcePath, buildLabel))
  {
    var base := BatchBaseFields(rpcId, sourcePath, buildLabel);
    BatchBaseKeys(rpcId, sourcePath, buildLabel);
    var fs := BatchUrlFields(rpcId, sessionId, sourcePath, buildLabel);
    assert fs == base + (if sessionId != "" then [Field("f.sid", sessionId)] else []);
  }

  /** Each field of an encoded query decodes to its key and value as UTF-8. */
  lemma EncodedFields(fs: seq<Field>)
    requires |fs| >= 1 && AsciiKeys(fs)
    ensures var d := DecodeForm(UrlEncode(fs));
      && |d| == |fs|
      && (forall i :: 0 <= i < |fs| ==> d[i] == Utf8Field(fs[i]))
  {
    UrlEncodeRoundTrip(fs, 0);
    assert UrlEncode(fs) + seq(0, _ => '&') == UrlEncode(fs);
    Utf8FieldsShape(fs);
  }

  lemma BatchUrlSessionField(rpcId: string, sessionId: string, sourcePath: string, buildLabel: string)
    ensures var d := DecodeForm(UrlEncode(BatchUrlFields(rpcId, sessionId, sourcePath, buildLabel)));
      && (HasKey(d, "f.sid") <==> sessionId != "")
      && (sessionId != "" ==> |d| == 6 && d[5] == DecodedField(Utf8("f.sid"), Utf8(sessionId)))
  {
    var base := BatchBaseFields(rpcId, sourcePath, buildLabel);
    BatchBaseKeys(rpcId, sourcePath, buildLabel);
    OptionalFieldQuery(base, "f.sid", sessionId, sessionId != "");
    var fs := BatchUrlFields(rpcId, sessionId, sourcePath, buildLabel);
    assert fs == base + (if sessionId != "" then [Field("f.sid", sessionId)] else []);
  }

  /**
   * The query URL's query decodes to `bl`, `hl`, `_reqid` (the counter in decimal), `rt`,
   * plus `f.sid` exactly when a session id is given.
   */
  lemma BuildQueryUrlQuery(sessionId: string, reqid: int, buildLabel: string)
    ensures var q := UrlEncode(QueryUrlFields(sessionId, reqid, buildLabel));
      && BuildQueryUrl(sessionId, reqid, buildLabel) == Config.BaseUrl + Config.QueryEndpoint + "?" + q
      && var d := DecodeForm(q);
      && |d| >= 4
      && d[0] == DecodedField(Utf8("bl"), Utf8(buildLabel))
      && d[1] == DecodedField(Utf8("hl"), Utf8("en"))
      && d[2] == DecodedField(Utf8("_reqid"), Utf8(IntToString(reqid)))
      && d[3] == DecodedField(Utf8("rt"), Utf8("c"))
      && (HasKey(d, "f.sid") <==> sessionId != "")
      && (sessionId == "" ==> |d| == 4)
      && (sessionId != "" ==> |d| == 5 && d[4] == DecodedField(Utf8("f.sid"), Utf8(sessionId)))
  {
    QueryUrlFixedFields(sessionId, reqid, buildLabel);
    QueryUrlInputFields(sessionId, reqid, buildLabel);
    QueryUrlSessionField(sessionId, reqid, buildLabel);
  }

  lemma QueryUrlInputFields(sessionId: string, reqid: int, buildLabel: string)
    ensures var d := DecodeForm(UrlEncode(QueryUrlFields(sessionId, reqid, buildLabel)));
      && |d| >= 4
      && d[0] == DecodedField(Utf8("bl"), Utf8(buildLabel))
      && d[2] == DecodedField(Utf8("_reqid"), Utf8(IntToString(reqid)))
  {
    var fs := QueryUrlFields(sessionId, reqid, buildLabel);
    QueryUrlAsciiKeys(sessionId, reqid, buildLabel);
    assert fs[0] == Field("bl", buildLabel);
    assert fs[2] == Field("_reqid", IntToString(reqid));
    FieldDecoded(fs, 0, "bl", buildLabel);
    FieldDecoded(fs, 2, "_reqid", IntToString(reqid));
  }

  lemma QueryUrlFixedFields(sessionId: string, reqid: int, buildLabel: string)
    ensures var d := DecodeForm(UrlEncode(QueryUrlFields(sessionId, reqid, buildLabel)));
      && |d| == 4 + (if sessionId != "" then 1 else 0)
      && d[1] == DecodedField(Utf8("hl"), Utf8("en"))
      && d[3] == DecodedField(Utf8("rt"), Utf8("c"))
  {
    var fs := QueryUrlFields(sessionId, reqid, buildLabel);
    QueryUrlAsciiKeys(sessionId, reqid, buildLabel);
    assert fs[1] == Field("hl", "en");
    assert fs[3] == Field("rt", "c");
    FieldDecoded(fs, 1, "hl", "en");
    FieldDecoded(fs, 3, "rt", "c");
  }

  lemma QueryUrlSessionField(sessionId: string, reqid: int, buildLabel: string)
    ensures var d := DecodeForm(UrlEncode(QueryUrlFields(sessionId, reqid, buildLabel)));
      && (HasKey(d, "f.sid") <==> sessionId != "")
      && (sessionId != "" ==> |d| == 5 && d[4] == DecodedField(Utf8("f.sid"), Utf8(sessionId)))
  {
    var base := QueryBaseFields(reqid, buildLabel);
    QueryBaseKeys(reqid, buildLabel);
    OptionalFieldQuery(base, "f.sid", sessionId, sessionId != "");
  }

  lemma QueryUrlAsciiKeys(sessionId: string, reqid: int, buildLabel: string)
    ensures AsciiKeys(QueryUrlFields(sessionId, reqid, buildLabel))
  {
    var base := QueryBaseFields(reqid, buildLabel);
    QueryBaseKeys(reqid, buildLabel);
    var fs := QueryUrlFields(sessionId, reqid, buildLabel);
    assert fs == base + (if sessionId != "" then [Field("f.sid", sessionId)] else []);
  }

  lemma {:induction false} Utf8FieldsShape(fs: seq<Field>)
    ensures |Utf8Fields(fs)| == |fs|
    ensures forall i :: 0 <= i < |fs| ==> Utf8Fields(fs)[i] == Utf8Field(fs[i])
    decreases |fs|
  {
    if |fs| > 0 {
      Utf8FieldsShape(fs[1..]);
    }
  }

}

=== FILE: reshape.dfy ===
/**
 * The client's positional reshapers: they read the service's nested lists by position and
 * turn them into records, skipping entries of the wrong shape and raising only where the
 * Python code would (an unhashable type code, indexing a value of the wrong type, or a
 * timestamp `datetime` cannot represent).
 */
module Reshape {
  import opened Wrappers
  import opened Text
  import opened Json
  import opened Lists
  import Config

  // ---------------------------------------------------------------------------------------
  // Small lookups
  // ---------------------------------------------------------------------------------------

  /** The first and last second `datetime` can represent: 0001-01-01T00:00:00 and 9999-12-31T23:59:59 UTC. */
  const MinTimestamp: int := -62135596800
  const MaxTimestamp: int := 253402300799

  /** A 64-bit `time_t`, the first range `datetime.fromtimestamp` checks. */
  predicate FitsTimeT(t: int) {
    -0x8000_0000_0000_0000 <= t < 0x8000_0000_0000_0000
  }

  /**
   * `datetime.fromtimestamp(t, tz=timezone.utc)`: a second within the years 1 to 9999 converts;
   * one outside a 64-bit `time_t` raises `OverflowError`, any other out-of-range one `ValueError`.
   */
  function FromTimestamp(t: int): (r: Result<int, PyError>)
    ensures r.Success? <==> MinTimestamp <= t <= MaxTimestamp
    ensures r.Success? ==> r.value == t
    ensures r.Failure? ==> (r.error == OverflowError <==> !FitsTimeT(t))
    ensures r.Failure? ==> r.error in {OverflowError, ValueError}
  {
    if MinTimestamp <= t <= MaxTimestamp then Success(t)
    else if !FitsTimeT(t) then Failure(OverflowError)
    else Failure(ValueError)
  }

  /**
   * `_parse_timestamp`: a non-empty list whose first element is an `int` (a `bool` included)
   * converts that many seconds, raising when they are out of range; anything else gives `None`.
   */
  function ParseTimestamp(ts: Json): (r: Result<Option<int>, PyError>)
    ensures r == Success(None) <==> !(ts.Arr? && |ts.items| > 0 && IsPyInt(ts.items[0]))
    ensures r.Success? && r.value.Some? ==>
      ts.Arr? && |ts.items| > 0 && IsPyInt(ts.items[0]) && r.value.value == PyIntValue(ts.items[0])
    ensures r.Failure? <==>
      ts.Arr? && |ts.items| > 0 && IsPyInt(ts.items[0]) && !(MinTimestamp <= PyIntValue(ts.items[0]) <= MaxTimestamp)
  {
    if ts.Arr? && |ts.items| > 0 && IsPyInt(ts.items[0]) then
      var t :- FromTimestamp(PyIntValue(ts.items[0]));
      Success(Some(t))
    else Success(None)
  }

  /**
   * The cases of the source's own tests: a `[seconds, nanos]` pair, `None`, `[]`, and a string;
   * and the ends of the range, with the first second past each.
   */
  lemma ParseTimestampExamples()
    ensures ParseTimestamp(Arr([Num(1700000000), Num(0)])) == Success(Some(1700000000))
    ensures ParseTimestamp(Null) == Success(None)
    ensures ParseTimestamp(Arr([])) == Success(None)
    ensures ParseTimestamp(Arr([Str("not a number")])) == Success(None)
    ensures ParseTimestamp(Arr([Num(253402300799)])) == Success(Some(253402300799))
    ensures ParseTimestamp(Arr([Num(253402300800)])) == Failure(ValueError)
    ensures ParseTimestamp(Arr([Num(-62135596801)])) == Failure(ValueError)
    ensures ParseTimestamp(Arr([Num(100000000000000000000), Num(0)])) == Failure(OverflowError)
  {
  }

  /**
   * `SOURCE_TYPES.get(code, "unknown")`: lists and dicts are unhashable and raise; an `int`
   * or `bool` is looked up by value (`True` hashes as `1`); anything else is unknown.
   */
  function SourceTypeName(code: Json): (r: Result<string, PyError>)
    ensures r.Failure? <==> code.Arr? || code.Obj?
  {
    match code
    case Arr(_) => Failure(TypeError)
    case Obj(_) => Failure(TypeError)
    case Num(n) => Success(NameOf(n))
    case Bool(b) => Success(NameOf(if b then 1 else 0))
    case Null => Success("unknown")
    case Str(_) => Success("unknown")
  }

  function NameOf(n: int): string {
    if n in Config.SourceTypes then Config.SourceTypes[n] else "unknown"
  }

  /** Known codes get their names; the unnamed codes, strings and `None` all read as `"unknown"`. */
  lemma SourceTypeNameLookup(code: int, s: string)
    ensures code in Config.SourceTypes ==> SourceTypeName(Num(code)) == Success(Config.SourceTypes[code])
    ensures code !in Config.SourceTypes ==> SourceTypeName(Num(code)) == Success("unknown")
    ensures SourceTypeName(Num(6)) == Success("unknown") && SourceTypeName(Num(7)) == Success("unknown")
    ensures SourceTypeName(Num(10)) == Success("unknown")
    ensures SourceTypeName(Str(s)) == Success("unknown") && SourceTypeName(Null) == Success("unknown")
    ensures SourceTypeName(Bool(true)) == Success("google_docs")
  {
    Config.SourceTypesDomain();
  }

  // ---------------------------------------------------------------------------------------
  // list_notebooks
  // ---------------------------------------------------------------------------------------

  /** One source summary of a notebook: the id (unwrapped from a one-element list) and the title. */
  datatype SourceRef = SourceRef(id: Json, title: Json)

  /** A notebook as `list_notebooks` reports it; timestamps are seconds. */
  datatype Notebook = Notebook(
    id: Json,
    title: string,
    sourceCount: nat,
    sources: seq<SourceRef>,
    isOwned: bool,
    isShared: bool,
    createdAt: Option<int>,
    modifiedAt: Option<int>)

  /** A source entry is a list of at least two slots; a non-empty list id is unwrapped to its first element. */
  function SourceRefOf(src: Json): Option<SourceRef> {
    if src.Arr? && |src.items| >= 2 then
      var sid := src.items[0];
      Some(SourceRef(if sid.Arr? && |sid.items| > 0 then sid.items[0] else sid, src.items[1]))
    else None
  }

  /** Metadata at slot 5 counts only when it is a non-empty list. */
  predicate HasMeta(nb: Json)
    requires nb.Arr?
  {
    |nb.items| > 5 && nb.items[5].Arr? && |nb.items[5].items| > 0
  }

  /** The metadata timestamp at `slot`, when the metadata is long enough to have it. */
  function MetaTimestamp(meta: seq<Json>, slot: nat): Result<Option<int>, PyError> {
    if |meta| > slot then ParseTimestamp(meta[slot]) else Success(None)
  }

  /**
   * One notebook entry: skipped unless a list of at least three slots with a truthy id at
   * slot 2. The modification time (metadata slot 5) is converted before the creation time
   * (slot 8), so when both are out of range the first raises.
   */
  function NotebookOf(nb: Json): Result<Option<Notebook>, PyError> {
    if !nb.Arr? || |nb.items| < 3 || !Truthy(nb.items[2]) then Success(None)
    else
      var meta := if HasMeta(nb) then nb.items[5].items else [];
      var modifiedAt :- MetaTimestamp(meta, 5);
      var createdAt :- MetaTimestamp(meta, 8);
      var sources := FilterMap(SourceRefOf, if nb.items[1].Arr? then nb.items[1].items else []);
      Success(Some(Notebook(
        nb.items[2],
        if nb.items[0].Str? then nb.items[0].s else "Untitled",
        |sources|,
        sources,
        if HasMeta(nb) then PyEqualsInt(meta[0], 1) else true,
        HasMeta(nb) && |meta| > 1 && Truthy(meta[1]),
        createdAt,
        modifiedAt)))
  }

  /** The entries examined: those of the first element when it is a list, else the result's own. */
  function NotebookEntries(result: Json): seq<Json> {
    if !result.Arr? || |result.items| == 0 then []
    else if result.items[0].Arr? then result.items[0].items
    else result.items
  }

  /** The notebooks of the entries in order; the first entry that raises ends the listing. */
  function CollectNotebooks(entries: seq<Json>): Result<seq<Notebook>, PyError>
    decreases |entries|
  {
    if |entries| == 0 then Success([])
    else
      var n :- NotebookOf(entries[0]);
      var rest :- CollectNotebooks(entries[1..]);
      Success((if n.Some? then [n.value] else []) + rest)
  }

  /** `list_notebooks`, applied to the decoded RPC result. */
  function ListNotebooks(result: Json): Result<seq<Notebook>, PyError> {
    CollectNotebooks(NotebookEntries(result))
  }

  /**
   * An entry yields a notebook exactly when it is a list of at least three slots with a truthy
   * id and its timestamps convert; its title is slot 0 when that is a string, else "Untitled";
   * the count is the number of summaries kept; without metadata the notebook is owned, not
   * shared and undated, and the timestamps are metadata slots 5 and 8 read as seconds.
   */
  lemma NotebookOfSpec(nb: Json)
    ensures NotebookOf(nb).Success? && NotebookOf(nb).value.Some? <==>
      nb.Arr? && |nb.items| >= 3 && Truthy(nb.items[2]) &&
      (HasMeta(nb) ==> MetaTimestamp(nb.items[5].items, 5).Success? && MetaTimestamp(nb.items[5].items, 8).Success?)
    ensures NotebookOf(nb).Success? && NotebookOf(nb).value.Some? ==>
      var n := NotebookOf(nb).value.value;
      && n.id == nb.items[2]
      && n.title == (if nb.items[0].Str? then nb.items[0].s else "Untitled")
      && n.sourceCount == |n.sources|
      && (!HasMeta(nb) ==> n.isOwned && !n.isShared && n.createdAt.None? && n.modifiedAt.None?)
      && (HasMeta(nb) ==> (n.isOwned <==> PyEqualsInt(nb.items[5].items[0], 1)))
      && (HasMeta(nb) ==> MetaTimestamp(nb.items[5].items, 5) == Success(n.modifiedAt))
      && (HasMeta(nb) ==> MetaTimestamp(nb.items[5].items, 8) == Success(n.createdAt))
  {
  }

  /**
   * An entry raises only when it qualifies and carries metadata with an out-of-range timestamp;
   * the modification time's error wins over the creation time's.
   */
  lemma NotebookOfRaises(nb: Json)
    ensures NotebookOf(nb).Failure? <==>
      nb.Arr? && |nb.items| >= 3 && Truthy(nb.items[2]) && HasMeta(nb) &&
      (MetaTimestamp(nb.items[5].items, 5).Failure? || MetaTimestamp(nb.items[5].items, 8).Failure?)
    ensures NotebookOf(nb).Failure? && MetaTimestamp(nb.items[5].items, 5).Failure? ==>
      NotebookOf(nb).error == MetaTimestamp(nb.items[5].items, 5).error
  {
  }

  /**
   * The listing succeeds exactly when no entry raises; then every reported notebook comes from
   * an entry that qualifies, every qualifying entry is reported, and there are never more
   * notebooks than entries. When it raises, the error is that of an entry all of whose
   * predecessors converted.
   */
  lemma {:induction false} CollectNotebooksMembers(entries: seq<Json>, n: Notebook)
    ensures CollectNotebooks(entries).Success? <==> forall i :: 0 <= i < |entries| ==> NotebookOf(entries[i]).Success?
    ensures CollectNotebooks(entries).Success? ==>
      && |CollectNotebooks(entries).value| <= |entries|
      && (n in CollectNotebooks(entries).value <==> exists i :: 0 <= i < |entries| && NotebookOf(entries[i]) == Success(Some(n)))
    ensures CollectNotebooks(entries).Failure? ==>
      exists i :: 0 <= i < |entries| && NotebookOf(entries[i]) == Failure(CollectNotebooks(entries).error) &&
        forall j :: 0 <= j < i ==> NotebookOf(entries[j]).Success?
    decreases |entries|
  {
    if |entries| > 0 {
      var tail := entries[1..];
      CollectNotebooksMembers(tail, n);
      assert forall i :: 0 < i < |entries| ==> entries[i] == tail[i - 1];
      if NotebookOf(entries[0]).Success? && CollectNotebooks(tail).Failure? {
        var i :| 0 <= i < |tail| && NotebookOf(tail[i]) == Failure(CollectNotebooks(tail).error) &&
          forall j :: 0 <= j < i ==> NotebookOf(tail[j]).Success?;
        assert NotebookOf(entries[i + 1]) == Failure(CollectNotebooks(entries).error);
      }
      if CollectNotebooks(entries).Success? {
        var m := NotebookOf(entries[0]).value;
        assert CollectNotebooks(entries).value == (if m.Some? then [m.value] else []) + CollectNotebooks(tail).value;
        if n in CollectNotebooks(tail).value {
          var i :| 0 <= i < |tail| && NotebookOf(tail[i]) == Success(Some(n));
          assert NotebookOf(entries[i + 1]) == Success(Some(n));
        }
      }
    }
  }

  /** `list_notebooks` lists exactly the qualifying entries, or raises at the first that cannot convert. */
  lemma ListNotebooksMembers(result: Json, n: Notebook)
    ensures ListNotebooks(result).Success? <==>
      forall i :: 0 <= i < |NotebookEntries(result)| ==> NotebookOf(NotebookEntries(result)[i]).Success?
    ensures ListNotebooks(result).Success? ==>
      && |ListNotebooks(result).value| <= |NotebookEntries(result)|
      && (n in ListNotebooks(result).value <==>
            exists i :: 0 <= i < |NotebookEntries(result)| && NotebookOf(NotebookEntries(result)[i]) == Success(Some(n)))
  {
    CollectNotebooksMembers(NotebookEntries(result), n);
  }

  /** Every reported notebook has a truthy id and a count equal to its summaries. */
  lemma ListNotebooksShape(result: Json)
    requires ListNotebooks(result).Success?
    ensures forall k :: 0 <= k < |ListNotebooks(result).value| ==>
      Truthy(ListNotebooks(result).value[k].id) &&
      ListNotebooks(result).value[k].sourceCount == |ListNotebooks(result).value[k].sources|
  {
    var es := NotebookEntries(result);
    var ns := ListNotebooks(result).value;
    forall k | 0 <= k < |ns|
      ensures Truthy(ns[k].id) && ns[k].sourceCount == |ns[k].sources|
    {
      var n := ns[k];
      CollectNotebooksMembers(es, n);
      var i :| 0 <= i < |es| && NotebookOf(es[i]) == Success(Some(n));
      NotebookOfSpec(es[i]);
    }
  }

  /** A result that is not a non-empty list, such as `None` or `[]`, lists nothing. */
  lemma ListNotebooksEmpty(result: Json)
    requires !result.Arr? || |result.items| == 0
    ensures ListNotebooks(result) == Success([])
  {
  }

  /** When the first element is a list, it alone is read: later top-level elements are ignored. */
  lemma ListNotebooksReadsFirst(first: Json, rest: seq<Json>)
    requires first.Arr?
    ensures ListNotebooks(Arr([first] + rest)) == ListNotebooks(Arr([first]))
  {
  }

  /** A notebook whose modification time lies past the year 9999 makes the whole listing raise. */
  lemma ListNotebooksOutOfRange()
    ensures ListNotebooks(Arr([Arr([Arr([Str("t"), Arr([]), Str("nb1"), Null, Null,
      Arr([Num(1), Bool(false), Null, Null, Null, Arr([Num(100000000000000000000), Num(0)])])])])]))
      == Failure(OverflowError)
  {
    var meta := [Num(1), Bool(false), Null, Null, Null, Arr([Num(100000000000000000000), Num(0)])];
    assert MetaTimestamp(meta, 5) == Failure(OverflowError);
  }

  // ---------------------------------------------------------------------------------------
  // list_sources
  // ---------------------------------------------------------------------------------------

  /** A source entry's slots before the type code is named; absent slots read as `None`. */
  datatype SourceRow = SourceRow(id: Json, title: Json, typeCode: Json, url: Json)

  /** A source as `list_sources` reports it. */
  datatype SourceInfo = SourceInfo(id: Json, title: Json, sourceType: Json, sourceTypeName: string, url: Json)

  /**
   * A source entry is a list of at least three slots; the id is the first element of a
   * non-empty list at slot 0; the type code is metadata slot 4 and the URL the first element
   * of a non-empty list at metadata slot 7.
   */
  function SourceRowOf(src: Json): Option<SourceRow> {
    if !src.Arr? || |src.items| < 3 then None
    else
      var s0 := src.items[0];
      var meta := if src.items[2].Arr? then src.items[2].items else [];
      Some(SourceRow(
        if s0.Arr? && |s0.items| > 0 then s0.items[0] else Null,
        src.items[1],
        if |meta| > 4 then meta[4] else Null,
        if |meta| > 7 && meta[7].Arr? && |meta[7].items| > 0 then meta[7].items[0] else Null))
  }

  /** Naming each row's type code in order; the first unhashable code raises. */
  function NameRows(rows: seq<SourceRow>): Result<seq<SourceInfo>, PyError>
    decreases |rows|
  {
    if |rows| == 0 then Success([])
    else
      var name :- SourceTypeName(rows[0].typeCode);
      var rest :- NameRows(rows[1..]);
      Success([SourceInfo(rows[0].id, rows[0].title, rows[0].typeCode, name, rows[0].url)] + rest)
  }

  /** The source entries: slot 1 of the notebook data, which is the first element when that is a list. */
  function SourceEntries(result: Json): Option<seq<Json>> {
    if !result.Arr? || |result.items| == 0 then None
    else
      var nd := if result.items[0].Arr? then result.items[0] else result;
      if |nd.items| > 1 && nd.items[1].Arr? then Some(nd.items[1].items)
      else if |nd.items| > 1 then None
      else Some([])
  }

  /** `list_sources`, applied to the decoded `get_notebook` result. */
  function ListSources(result: Json): Result<seq<SourceInfo>, PyError> {
    match SourceEntries(result)
    case None => Success([])
    case Some(es) => NameRows(FilterMap(SourceRowOf, es))
  }

  /**
   * Naming fails exactly when some row's type code is a list or a dict; otherwise each row
   * keeps its slots and gets its code's name, `"unknown"` for codes without one.
   */
  lemma {:induction false} NameRowsSpec(rows: seq<SourceRow>)
    ensures NameRows(rows).Failure? <==> exists i :: 0 <= i < |rows| && (rows[i].typeCode.Arr? || rows[i].typeCode.Obj?)
    ensures NameRows(rows).Success? ==>
      var out := NameRows(rows).value;
      && |out| == |rows|
      && forall i :: 0 <= i < |rows| ==>
        && out[i].id == rows[i].id && out[i].title == rows[i].title && out[i].url == rows[i].url
        && out[i].sourceType == rows[i].typeCode
        && Success(out[i].sourceTypeName) == SourceTypeName(rows[i].typeCode)
    decreases |rows|
  {
    if |rows| > 0 {
      NameRowsSpec(rows[1..]);
      if NameRows(rows).Success? {
        var out := NameRows(rows).value;
        var rest := NameRows(rows[1..]).value;
        assert out == [out[0]] + rest;
        forall i | 1 <= i < |rows|
          ensures out[i].id == rows[i].id && out[i].title == rows[i].title && out[i].url == rows[i].url
          ensures out[i].sourceType == rows[i].typeCode
          ensures Success(out[i].sourceTypeName) == SourceTypeName(rows[i].typeCode)
        {
          assert rows[1..][i - 1] == rows[i];
          assert out[i] == rest[i - 1];
        }
      }
      if exists i :: 1 <= i < |rows| && (rows[i].typeCode.Arr? || rows[i].typeCode.Obj?) {
        var i :| 1 <= i < |rows| && (rows[i].typeCode.Arr? || rows[i].typeCode.Obj?);
        assert rows[1..][i - 1] == rows[i];
      }
    }
  }

  /** Without an unhashable type code, every source gets a name; a code without one reads `"unknown"`. */
  lemma ListSourcesNames(result: Json)
    requires ListSources(result).Success?
    ensures forall k :: 0 <= k < |ListSources(result).value| ==>
      var s := ListSources(result).value[k];
      (IsPyInt(s.sourceType) && PyIntValue(s.sourceType) in Config.SourceTypes ==> s.sourceTypeName == Config.SourceTypes[PyIntValue(s.sourceType)])
      && (!(IsPyInt(s.sourceType) && PyIntValue(s.sourceType) in Config.SourceTypes) ==> s.sourceTypeName == "unknown")
  {
    match SourceEntries(result)
    case None =>
    case Some(es) =>
      var rows := FilterMap(SourceRowOf, es);
      NameRowsSpec(rows);
      var out := ListSources(result).value;
      forall k | 0 <= k < |out|
        ensures (IsPyInt(out[k].sourceType) && PyIntValue(out[k].sourceType) in Config.SourceTypes ==> out[k].sourceTypeName == Config.SourceTypes[PyIntValue(out[k].sourceType)])
        ensures (!(IsPyInt(out[k].sourceType) && PyIntValue(out[k].sourceType) in Config.SourceTypes) ==> out[k].sourceTypeName == "unknown")
      {
        assert Success(out[k].sourceTypeName) == SourceTypeName(rows[k].typeCode);
      }
  }

  /** A type code that is a list raises `TypeError` instead of reading as unknown. */
  lemma ListSourcesUnhashable(result: Json, i: nat)
    requires SourceEntries(result).Some?
    requires i < |FilterMap(SourceRowOf, SourceEntries(result).value)|
    requires FilterMap(SourceRowOf, SourceEntries(result).value)[i].typeCode.Arr?
    ensures ListSources(result) == Failure(TypeError)
  {
    var rows := FilterMap(SourceRowOf, SourceEntries(result).value);
    NameRowsSpec(rows);
    NameRowsError(rows);
  }

  /** The only error naming raises is `TypeError`. */
  lemma {:induction false} NameRowsError(rows: seq<SourceRow>)
    ensures NameRows(rows).Failure? ==> NameRows(rows).error == TypeError
    decreases |rows|
  {
    if |rows| > 0 {
      NameRowsError(rows[1..]);
    }
  }

  // ---------------------------------------------------------------------------------------
  // Text flattening, get_source_content
  // ---------------------------------------------------------------------------------------

  /** `_extract_all_text`: the non-empty strings of a nested list, depth first, left to right. */
  function AllText(items: seq<Json>): (ts: seq<string>)
    ensures forall k :: 0 <= k < |ts| ==> ts[k] != ""
    decreases items
  {
    if |items| == 0 then []
    else
      var head := match items[0]
        case Str(s) => (if s != "" then [s] else [])
        case Arr(xs) => AllText(xs)
        case _ => [];
      head + AllText(items[1..])
  }

  /** `s` is a string leaf somewhere inside the nested list. */
  predicate HasLeaf(items: seq<Json>, s: string)
    decreases items
  {
    exists i :: 0 <= i < |items| && (items[i] == Str(s) || (items[i].Arr? && HasLeaf(items[i].items, s)))
  }

  /** Flattening a concatenation flattens each part. */
  lemma {:induction false} AllTextAppend(a: seq<Json>, b: seq<Json>)
    ensures AllText(a + b) == AllText(a) + AllText(b)
    decreases |a|
  {
    if |a| == 0 {
      assert a + b == b;
    } else {
      assert (a + b)[0] == a[0];
      assert (a + b)[1..] == a[1..] + b;
      AllTextAppend(a[1..], b);
    }
  }

  /** The flattening holds exactly the non-empty string leaves. */
  lemma {:induction false} AllTextLeaves(items: seq<Json>, s: string)
    ensures s in AllText(items) <==> s != "" && HasLeaf(items, s)
    decreases items
  {
    if |items| > 0 {
      var x := items[0];
      AllTextLeaves(items[1..], s);
      if x.Arr? {
        AllTextLeaves(x.items, s);
      }
      if HasLeaf(items[1..], s) {
        var i :| 0 <= i < |items[1..]| && (items[1..][i] == Str(s) || (items[1..][i].Arr? && HasLeaf(items[1..][i].items, s)));
        assert items[i + 1] == items[1..][i];
      }
      if HasLeaf(items, s) {
        var i :| 0 <= i < |items| && (items[i] == Str(s) || (items[i].Arr? && HasLeaf(items[i].items, s)));
        if i > 0 {
          assert items[1..][i - 1] == items[i];
        }
      }
    }
  }

  /** The source's own examples: nesting is flattened in order and empty strings are dropped. */
  lemma AllTextExamples()
    ensures AllText([Arr([Str("a"), Arr([Str("b")])]), Str("c")]) == ["a", "b", "c"]
    ensures AllText([Num(1), Str("text"), Null, Arr([Num(2), Str("more")])]) == ["text", "more"]
    ensures AllText([Str(""), Str("x"), Str("")]) == ["x"]
  {
    AllTextNested();
    AllTextSkipsOthers();
    AllTextDropsEmpty();
  }

  lemma AllTextNested()
    ensures AllText([Arr([Str("a"), Arr([Str("b")])]), Str("c")]) == ["a", "b", "c"]
  {
    assert AllText([Str("b")]) == ["b"];
    assert AllText([Str("a"), Arr([Str("b")])]) == ["a", "b"];
    assert AllText([Str("c")]) == ["c"];
  }

  lemma AllTextSkipsOthers()
    ensures AllText([Num(1), Str("text"), Null, Arr([Num(2), Str("more")])]) == ["text", "more"]
  {
    assert AllText([Str("more")]) == ["more"];
    assert AllText([Num(2), Str("more")]) == ["more"];
    assert AllText([Null, Arr([Num(2), Str("more")])]) == ["more"];
    assert AllText([Str("text"), Null, Arr([Num(2), Str("more")])]) == ["text", "more"];
  }

  lemma AllTextDropsEmpty()
    ensures AllText([Str(""), Str("x"), Str("")]) == ["x"]
  {
    assert AllText([Str("")]) == [];
    assert AllText([Str("x"), Str("")]) == ["x"];
  }

  /** The text of the content blocks: only blocks that are lists are flattened. */
  function BlocksText(blocks: seq<Json>): seq<string>
    decreases |blocks|
  {
    if |blocks| == 0 then []
    else (if blocks[0].Arr? then AllText(blocks[0].items) else []) + BlocksText(blocks[1..])
  }

  /** Blocks without bare strings at the top give the same text as flattening them whole. */
  lemma {:induction false} BlocksTextIsAllText(blocks: seq<Json>)
    requires forall i :: 0 <= i < |blocks| ==> !blocks[i].Str?
    ensures BlocksText(blocks) == AllText(blocks)
    decreases |blocks|
  {
    if |blocks| > 0 {
      BlocksTextIsAllText(blocks[1..]);
    }
  }

  lemma {:induction false} BlocksTextNonEmpty(blocks: seq<Json>)
    ensures forall k :: 0 <= k < |BlocksText(blocks)| ==> BlocksText(blocks)[k] != ""
    decreases |blocks|
  {
    if |blocks| > 0 {
      BlocksTextNonEmpty(blocks[1..]);
    }
  }

  /** A source's content as `get_source_content` reports it. */
  datatype SourceContent = SourceContent(content: string, title: string, sourceType: string, url: Option<string>, charCount: nat)

  /** The content blocks: the first element of slot 3, when both are lists. */
  function ContentBlocks(result: Json): seq<Json>
    requires result.Arr?
  {
    var r := result.items;
    if |r| > 3 && r[3].Arr? && |r[3].items| > 0 && r[3].items[0].Arr? then r[3].items[0].items else []
  }

  /**
   * `get_source_content`: the title, type name and URL from the metadata block at slot 0, the
   * content from the blocks at slot 3 joined by blank lines, and the count of its characters.
   */
  function GetSourceContent(result: Json): Result<SourceContent, PyError> {
    if !result.Arr? || |result.items| == 0 then Success(SourceContent("", "", "", None, 0))
    else
      var mb := result.items[0];
      var title := if mb.Arr? && |mb.items| > 1 && mb.items[1].Str? then mb.items[1].s else "";
      var meta := if mb.Arr? && |mb.items| > 2 && mb.items[2].Arr? then mb.items[2].items else [];
      var sourceType :- if |meta| > 4 then SourceTypeName(meta[4]) else Success("");
      var url := if |meta| > 7 && meta[7].Arr? && |meta[7].items| > 0 && meta[7].items[0].Str? then Some(meta[7].items[0].s) else None;
      var content := JoinWith(BlocksText(ContentBlocks(result)), "\n\n");
      Success(SourceContent(content, title, sourceType, url, |content|))
  }

  lemma JoinWithEmpty(parts: seq<string>, sep: string)
    requires forall k :: 0 <= k < |parts| ==> parts[k] != ""
    ensures JoinWith(parts, sep) == "" <==> |parts| == 0
  {
    if |parts| > 1 {
      assert |JoinWith(parts, sep)| >= |parts[0]|;
    }
  }

  /**
   * The count is the content's length; the content is the blocks' texts joined by blank lines,
   * and it is empty exactly when the blocks hold no non-empty string.
   */
  lemma SourceContentSpec(result: Json)
    requires GetSourceContent(result).Success?
    ensures var c := GetSourceContent(result).value;
      && c.charCount == |c.content|
      && (result.Arr? && |result.items| > 0 ==> c.content == JoinWith(BlocksText(ContentBlocks(result)), "\n\n"))
      && (result.Arr? && |result.items| > 0 ==> (c.content == "" <==> BlocksText(ContentBlocks(result)) == []))
  {
    if result.Arr? && |result.items| > 0 {
      BlocksTextNonEmpty(ContentBlocks(result));
      JoinWithEmpty(BlocksText(ContentBlocks(result)), "\n\n");
    }
  }

  // ---------------------------------------------------------------------------------------
  // _extract_source_ids, _parse_source_result
  // ---------------------------------------------------------------------------------------

  /** A source's id when it is a string inside a non-empty list at slot 0. */
  function SourceIdOf(src: Json): Option<string> {
    if src.Arr? && |src.items| > 0 && src.items[0].Arr? && |src.items[0].items| > 0 && src.items[0].items[0].Str?
    then Some(src.items[0].items[0].s)
    else None
  }

  /** The sources of raw notebook data: slot 1 of the first element when that is a list, else of the data itself. */
  function IdSources(data: Json): seq<Json> {
    if !data.Arr? || |data.items| == 0 then []
    else
      var nb := if data.items[0].Arr? then data.items[0] else data;
      if |nb.items| > 1 && nb.items[1].Arr? then nb.items[1].items else []
  }

  /** `_extract_source_ids`. Every index it performs is guarded, so its `except` clause never fires. */
  function ExtractSourceIds(data: Json): seq<string> {
    FilterMap(SourceIdOf, IdSources(data))
  }

  /** An id is listed exactly when some source carries it as a string; non-string ids are dropped. */
  lemma SourceIdsMembers(data: Json, id: string)
    ensures id in ExtractSourceIds(data) <==> exists i :: 0 <= i < |IdSources(data)| && SourceIdOf(IdSources(data)[i]) == Some(id)
  {
    FilterMapMember(SourceIdOf, IdSources(data), id);
  }

  /** The source's own example: `[["Title", [[["src-1"], "S1"], [["src-2"], "S2"]], "nb-id"]]`. */
  lemma SourceIdsExample()
    ensures ExtractSourceIds(Arr([Arr([Str("Title"), Arr([Arr([Arr([Str("src-1")]), Str("S1")]), Arr([Arr([Str("src-2")]), Str("S2")])]), Str("nb-id")])]))
      == ["src-1", "src-2"]
    ensures ExtractSourceIds(Null) == [] && ExtractSourceIds(Arr([])) == []
  {
    var s1 := Arr([Arr([Str("src-1")]), Str("S1")]);
    var s2 := Arr([Arr([Str("src-2")]), Str("S2")]);
    assert SourceIdOf(s1) == Some("src-1");
    assert SourceIdOf(s2) == Some("src-2");
    FilterMapAppend(SourceIdOf, [s1], [s2]);
    FilterMapSingle(SourceIdOf, s1);
    FilterMapSingle(SourceIdOf, s2);
    assert [s1] + [s2] == [s1, s2];
  }

  /** The id and title of a newly added source. */
  datatype Added = Added(id: Json, title: Json)

  /**
   * `_parse_source_result`, with Python's indexing: a truthy first element whose `len` or
   * indexing is undefined raises, as the source would. A truthy value of a type with a
   * length has a non-zero length, so its `len(source_list) > 0` test always passes.
   */
  function ParseSourceResult(result: Json, defaultTitle: string): Result<Option<Added>, PyError> {
    if !result.Arr? || |result.items| == 0 || !Truthy(result.items[0]) then Success(None)
    else
      var sourceList := result.items[0];
      var _ :- PyLen(sourceList);
      var src :- PyIndex(sourceList, 0);
      var s0 :- PyIndex(src, 0);
      var id :- if Truthy(s0) then PyIndex(s0, 0) else Success(Null);
      var n :- PyLen(src);
      var title :- if n > 1 then PyIndex(src, 1) else Success(Str(defaultTitle));
      Success(Some(Added(id, title)))
  }

  /** The response shape the service sends: `[[[[id, …], title, …], …], …]` yields that id and title. */
  lemma ParseSourceResultWellFormed(id: Json, idRest: seq<Json>, title: Json, srcRest: seq<Json>, listRest: seq<Json>, rest: seq<Json>, d: string)
    ensures ParseSourceResult(Arr([Arr([Arr([Arr([id] + idRest), title] + srcRest)] + listRest)] + rest), d)
      == Success(Some(Added(id, title)))
  {
  }

  /** `None`, a non-list and an empty list give `None`; a one-slot source falls back to the default title. */
  lemma ParseSourceResultFallbacks(result: Json, id: Json, d: string)
    ensures !result.Arr? ==> ParseSourceResult(result, d) == Success(None)
    ensures ParseSourceResult(Arr([]), d) == Success(None)
    ensures ParseSourceResult(Arr([Arr([Arr([Arr([id])])])]), d) == Success(Some(Added(id, Str(d))))
  {
  }

  /** A truthy number where the source list belongs raises `TypeError`; a dict raises `KeyError`. */
  lemma ParseSourceResultRaises(n: int, m: map<string, Json>, d: string)
    requires n != 0 && |m| > 0
    ensures ParseSourceResult(Arr([Num(n)]), d) == Failure(TypeError)
    ensures ParseSourceResult(Arr([Obj(m)]), d) == Failure(KeyError)
  {
  }
}

=== FILE: streaming.dfy ===
/** Answer selection for the streaming query endpoint. */
module Streaming {
  import opened Wrappers
  import opened Text
  import opened Json
  import opened Framing

  /** What one frame contributes: nothing, or a text with its kind (answer, or thinking step). */
  datatype Chunk = NoText | Text(t: string, isAnswer: bool)

  /** The shortest text the server's answers and thinking steps are accepted at is 21 characters. */
  const MinTextLength: nat := 21

  /** Type 1: `first_elem[4]` is a non-empty list whose last element is an `int` equal to 1 (`True` included). */
  predicate IsAnswerType(fe: seq<Json>) {
    && |fe| > 4
    && fe[4].Arr?
    && |fe[4].items| > 0
    && PyEqualsInt(fe[4].items[|fe[4].items| - 1], 1)
  }

  /** One entry of a frame: `None` means "keep looking", as the source's `continue`. */
  function ItemAnswer(decode: string -> Option<Json>, item: Json): (c: Option<Chunk>)
    ensures c.Some? ==> c.value.Text? && |c.value.t| >= MinTextLength
  {
    if !item.Arr? || |item.items| < 3 || item.items[0] != Str("wrb.fr") || !item.items[2].Str? then None
    else
      match decode(item.items[2].s)
      case None => None
      case Some(inner) =>
        if !inner.Arr? || |inner.items| == 0 then None
        else
          var fe := inner.items[0];
          if fe.Arr? && |fe.items| > 0 then
            if fe.items[0].Str? && |fe.items[0].s| > 20 then Some(Text(fe.items[0].s, IsAnswerType(fe.items)))
            else None
          else if fe.Str? && |fe.s| > 20 then Some(Text(fe.s, false))
          else None
  }

  /** The first entry of a frame that yields a text decides the frame. */
  function ItemsAnswer(decode: string -> Option<Json>, items: seq<Json>): Chunk
    decreases |items|
  {
    if |items| == 0 then NoText
    else
      match ItemAnswer(decode, items[0])
      case Some(c) => c
      case None => ItemsAnswer(decode, items[1..])
  }

  /** `_extract_answer_from_chunk`: a frame that does not decode to a non-empty list yields nothing. */
  function ChunkAnswer(decode: string -> Option<Json>, line: string): Chunk {
    match decode(line)
    case None => NoText
    case Some(data) => if !data.Arr? || |data.items| == 0 then NoText else ItemsAnswer(decode, data.items)
  }

  /** The index of the first entry that yields a text. */
  function FirstQualifying(decode: string -> Option<Json>, items: seq<Json>): (k: Option<nat>)
    ensures k.Some? ==> k.value < |items| && ItemAnswer(decode, items[k.value]).Some?
    ensures k.Some? ==> forall j :: 0 <= j < k.value ==> ItemAnswer(decode, items[j]).None?
    ensures k.None? ==> forall j :: 0 <= j < |items| ==> ItemAnswer(decode, items[j]).None?
    decreases |items|
  {
    if |items| == 0 then None
    else if ItemAnswer(decode, items[0]).Some? then Some(0)
    else
      match FirstQualifying(decode, items[1..])
      case None => None
      case Some(k) => Some(k + 1)
  }

  /** Only the first qualifying entry of a frame is used; later ones are ignored. */
  lemma {:induction false} OnlyFirstQualifying(decode: string -> Option<Json>, items: seq<Json>)
    ensures ItemsAnswer(decode, items)
      == (match FirstQualifying(decode, items)
          case None => NoText
          case Some(k) => ItemAnswer(decode, items[k]).value)
    decreases |items|
  {
    if |items| > 0 && ItemAnswer(decode, items[0]).None? {
      OnlyFirstQualifying(decode, items[1..]);
    }
  }

  /** The running longest answer and longest thinking step. */
  datatype Best = Best(answer: string, thinking: string)

  /** One frame's update: a text replaces the running one of its kind only when strictly longer. */
  function Step(b: Best, c: Chunk): Best {
    match c
    case NoText => b
    case Text(t, isAnswer) =>
      if t == "" then b
      else if isAnswer && |t| > |b.answer| then b.(answer := t)
      else if !isAnswer && |t| > |b.thinking| then b.(thinking := t)
      else b
  }

  function Run(b: Best, cs: seq<Chunk>): Best
    decreases |cs|
  {
    if |cs| == 0 then b else Run(Step(b, cs[0]), cs[1..])
  }

  /** The chunks of a response body, one per payload line. */
  function Chunks(decode: string -> Option<Json>, ps: seq<Payload>): (cs: seq<Chunk>)
    ensures |cs| == |ps|
    ensures forall k :: 0 <= k < |ps| ==> cs[k] == ChunkAnswer(decode, ps[k].text)
  {
    seq(|ps|, k requires 0 <= k < |ps| => ChunkAnswer(decode, ps[k].text))
  }

  /** `parse_query_response`: the longest answer if there is one, else the longest thinking step. */
  function ParseQueryResponse(decode: string -> Option<Json>, text: string): string {
    var b := Run(Best("", ""), Chunks(decode, Payloads(text)));
    if b.answer != "" then b.answer else b.thinking
  }

  /** The texts of one kind, in order. */
  function TextsOf(cs: seq<Chunk>, isAnswer: bool): (ts: seq<string>)
    ensures |ts| <= |cs|
    decreases |cs|
  {
    if |cs| == 0 then []
    else
      (if cs[0].Text? && cs[0].isAnswer == isAnswer && cs[0].t != "" then [cs[0].t] else [])
        + TextsOf(cs[1..], isAnswer)
  }

  /**
   * `r` is the first of the longest texts of `ts`, or `""` when `ts` has none:
   * no text is longer, and every earlier text is strictly shorter.
   */
  predicate IsFirstLongest(ts: seq<string>, r: string) {
    if |ts| == 0 then r == ""
    else exists i :: (0 <= i < |ts| && ts[i] == r
      && (forall j :: 0 <= j < |ts| ==> |ts[j]| <= |r|)
      && (forall j :: 0 <= j < i ==> |ts[j]| < |r|))
  }

  /** The strict-`>` scan of one kind, from a running value `acc`. */
  function LongestFrom(acc: string, ts: seq<string>): string
    decreases |ts|
  {
    if |ts| == 0 then acc else LongestFrom(if |ts[0]| > |acc| then ts[0] else acc, ts[1..])
  }

  lemma {:induction false} RunSplits(b: Best, cs: seq<Chunk>)
    ensures Run(b, cs).answer == LongestFrom(b.answer, TextsOf(cs, true))
    ensures Run(b, cs).thinking == LongestFrom(b.thinking, TextsOf(cs, false))
    decreases |cs|
  {
    if |cs| > 0 {
      var b' := Step(b, cs[0]);
      RunSplits(b', cs[1..]);
      forall isAnswer: bool ensures
        LongestFrom(if isAnswer then b.answer else b.thinking, TextsOf(cs, isAnswer))
          == LongestFrom(if isAnswer then b'.answer else b'.thinking, TextsOf(cs[1..], isAnswer))
      {
        var acc := if isAnswer then b.answer else b.thinking;
        var rest := TextsOf(cs[1..], isAnswer);
        if cs[0].Text? && cs[0].isAnswer == isAnswer && cs[0].t != "" {
          assert TextsOf(cs, isAnswer) == [cs[0].t] + rest;
          assert ([cs[0].t] + rest)[1..] == rest;
        } else {
          assert TextsOf(cs, isAnswer) == rest;
        }
      }
      assert LongestFrom(b.answer, TextsOf(cs, true)) == LongestFrom(b'.answer, TextsOf(cs[1..], true));
      assert LongestFrom(b.thinking, TextsOf(cs, false)) == LongestFrom(b'.thinking, TextsOf(cs[1..], false));
    }
  }

  /**
   * The scan keeps `acc` when nothing is longer; otherwise it ends on the first text of
   * maximal length.
   */
  lemma {:induction false} LongestFromSpec(acc: string, ts: seq<string>)
    ensures var r := LongestFrom(acc, ts);
      || (r == acc && forall j :: 0 <= j < |ts| ==> |ts[j]| <= |acc|)
      || (exists i :: 0 <= i < |ts| && ts[i] == r && |r| > |acc|
            && (forall j :: 0 <= j < |ts| ==> |ts[j]| <= |r|)
            && (forall j :: 0 <= j < i ==> |ts[j]| < |r|))
    decreases |ts|
  {
    if |ts| > 0 {
      var acc' := if |ts[0]| > |acc| then ts[0] else acc;
      var r := LongestFrom(acc', ts[1..]);
      LongestFromSpec(acc', ts[1..]);
      if r == acc' && forall j :: 0 <= j < |ts[1..]| ==> |ts[1..][j]| <= |acc'| {
        if |ts[0]| > |acc| {
          assert ts[0] == r;
          forall j | 0 <= j < |ts| ensures |ts[j]| <= |r| {
            if j > 0 { assert ts[j] == ts[1..][j - 1]; }
          }
        } else {
          forall j | 0 <= j < |ts| ensures |ts[j]| <= |acc| {
            if j > 0 { assert ts[j] == ts[1..][j - 1]; }
          }
        }
      } else {
        var i :| 0 <= i < |ts[1..]| && ts[1..][i] == r && |r| > |acc'|
          && (forall j :: 0 <= j < |ts[1..]| ==> |ts[1..][j]| <= |r|)
          && (forall j :: 0 <= j < i ==> |ts[1..][j]| < |r|);
        assert ts[i + 1] == r;
        forall j | 0 <= j < |ts| ensures |ts[j]| <= |r| {
          if j > 0 { assert ts[j] == ts[1..][j - 1]; }
        }
        forall j | 0 <= j < i + 1 ensures |ts[j]| < |r| {
          if j > 0 { assert ts[j] == ts[1..][j - 1]; }
        }
      }
    }
  }

  /** From an empty running value, over non-empty texts, the scan is the first longest text. */
  lemma FirstLongestFromEmpty(ts: seq<string>)
    requires forall j :: 0 <= j < |ts| ==> ts[j] != ""
    ensures IsFirstLongest(ts, LongestFrom("", ts))
  {
    LongestFromSpec("", ts);
  }

  lemma {:induction false} TextsNonEmpty(cs: seq<Chunk>, isAnswer: bool)
    ensures forall j :: 0 <= j < |TextsOf(cs, isAnswer)| ==> TextsOf(cs, isAnswer)[j] != ""
    decreases |cs|
  {
    if |cs| > 0 {
      TextsNonEmpty(cs[1..], isAnswer);
    }
  }

  /**
   * The reference rule: the first longest answer text if any answer exists, else the first
   * longest thinking text, else `""`.
   */
  lemma {:induction false} ParseQueryResponseIsReference(decode: string -> Option<Json>, text: string)
    ensures var cs := Chunks(decode, Payloads(text));
      var r := ParseQueryResponse(decode, text);
      && (|TextsOf(cs, true)| > 0 ==> IsFirstLongest(TextsOf(cs, true), r))
      && (|TextsOf(cs, true)| == 0 ==> IsFirstLongest(TextsOf(cs, false), r))
  {
    var cs := Chunks(decode, Payloads(text));
    RunSplits(Best("", ""), cs);
    TextsNonEmpty(cs, true);
    TextsNonEmpty(cs, false);
    FirstLongestFromEmpty(TextsOf(cs, true));
    FirstLongestFromEmpty(TextsOf(cs, false));
  }

  lemma {:induction false} ChunksLong(cs: seq<Chunk>, isAnswer: bool)
    requires forall k :: 0 <= k < |cs| ==> cs[k].Text? ==> |cs[k].t| >= MinTextLength
    ensures forall j :: 0 <= j < |TextsOf(cs, isAnswer)| ==> |TextsOf(cs, isAnswer)[j]| >= MinTextLength
    decreases |cs|
  {
    if |cs| > 0 {
      ChunksLong(cs[1..], isAnswer);
    }
  }

  lemma ChunkAnswerLong(decode: string -> Option<Json>, line: string)
    ensures ChunkAnswer(decode, line).Text? ==> |ChunkAnswer(decode, line).t| >= MinTextLength
  {
    match decode(line)
    case None =>
    case Some(data) =>
      if data.Arr? && |data.items| > 0 {
        OnlyFirstQualifying(decode, data.items);
      }
  }

  /** A non-empty result is always longer than 20 characters. */
  lemma ParseQueryResponseLength(decode: string -> Option<Json>, text: string)
    ensures var r := ParseQueryResponse(decode, text); r == "" || |r| > 20
  {
    var cs := Chunks(decode, Payloads(text));
    forall k | 0 <= k < |cs| ensures cs[k].Text? ==> |cs[k].t| >= MinTextLength {
      ChunkAnswerLong(decode, Payloads(text)[k].text);
    }
    ChunksLong(cs, true);
    ChunksLong(cs, false);
    ParseQueryResponseIsReference(decode, text);
  }

  /** An equally long later answer does not replace an earlier one. */
  lemma TieKeepsEarlier(a: string, b: string)
    requires |a| == |b| && a != ""
    ensures Run(Best("", ""), [Text(a, true), Text(b, true)]).answer == a
  {
    assert Run(Best(a, ""), [Text(b, true)][1..]) == Best(a, "");
  }

  /** The type marker: a last element of `1` or `True` makes an answer; `2` makes a thinking step. */
  lemma TypeMarkerExamples(t: string)
    ensures IsAnswerType([Str(t), Null, Null, Null, Arr([Num(1)])])
    ensures IsAnswerType([Str(t), Null, Null, Null, Arr([Num(2), Bool(true)])])
    ensures !IsAnswerType([Str(t), Null, Null, Null, Arr([Num(1), Num(2)])])
    ensures !IsAnswerType([Str(t), Null, Null, Null, Arr([])])
    ensures !IsAnswerType([Str(t), Null, Null, Arr([Num(1)])])
  {
  }

  /** A bare string as the first element of the inner list is a thinking step. */
  lemma BareStringIsThinking(decode: string -> Option<Json>, raw: string, s: string, rest: seq<Json>)
    requires |s| > 20
    requires decode(raw) == Some(Arr([Str(s)] + rest))
    ensures ItemAnswer(decode, Arr([Str("wrb.fr"), Null, Str(raw)])) == Some(Text(s, false))
  {
    assert Arr([Str(s)] + rest).items[0] == Str(s);
  }
}

=== FILE: text.dfy ===
/** Character and string helpers with Python's `str` semantics where the source relies on them. */
module Text {

  /** Python's `str.isspace()`: the characters `strip()`, `\s` and `int()` treat as whitespace. */
  predicate IsSpace(c: char) {
    var n := c as int;
    || (9 <= n <= 13) || (28 <= n <= 32) || n == 0x85 || n == 0xA0 || n == 0x1680
    || (0x2000 <= n <= 0x200A) || n == 0x2028 || n == 0x2029 || n == 0x202F || n == 0x205F || n == 0x3000
  }

  predicate IsAsciiDigit(c: char) {
    '0' <= c <= '9'
  }

  /** A non-empty run of ASCII digits. */
  predicate IsDigits(s: string) {
    |s| > 0 && forall i :: 0 <= i < |s| ==> IsAsciiDigit(s[i])
  }

  predicate IsAscii(s: string) {
    forall i :: 0 <= i < |s| ==> s[i] as int < 128
  }

  predicate IsBlank(s: string) {
    forall i :: 0 <= i < |s| ==> IsSpace(s[i])
  }

  predicate StartsWith(s: string, prefix: string) {
    |prefix| <= |s| && s[..|prefix|] == prefix
  }

  predicate EndsWith(s: string, suffix: string) {
    |suffix| <= |s| && s[|s| - |suffix|..] == suffix
  }

  /** `sub` occurs in `s` starting at index `i`. */
  predicate OccursAt(s: string, sub: string, i: int) {
    0 <= i && i + |sub| <= |s| && s[i..i + |sub|] == sub
  }

  /** Python's `sub in s`. */
  function Contains(s: string, sub: string): (b: bool)
    ensures b <==> exists i :: OccursAt(s, sub, i)
    decreases |s|
  {
    if StartsWith(s, sub) then
      assert OccursAt(s, sub, 0);
      true
    else if |s| == 0 then
      false
    else
      var b := Contains(s[1..], sub);
      if b then
        var i :| OccursAt(s[1..], sub, i);
        assert OccursAt(s, sub, i + 1);
        true
      else
        assert forall i | OccursAt(s, sub, i) :: i > 0 && OccursAt(s[1..], sub, i - 1);
        false
  }

  /** Drops leading characters of Python whitespace. */
  function TrimStart(s: string): (r: string)
    ensures |r| <= |s|
    decreases |s|
  {
    if |s| > 0 && IsSpace(s[0]) then TrimStart(s[1..]) else s
  }

  /** `TrimStart` removes exactly the leading blank run: what remains is a suffix that starts with a non-space. */
  lemma {:induction false} TrimStartSpec(s: string)
    ensures var r := TrimStart(s);
      && r == s[|s| - |r|..]
      && (|r| > 0 ==> !IsSpace(r[0]))
      && IsBlank(s[..|s| - |r|])
    decreases |s|
  {
    if |s| > 0 && IsSpace(s[0]) {
      var r := TrimStart(s[1..]);
      TrimStartSpec(s[1..]);
      assert s[..|s| - |r|] == [s[0]] + s[1..][..|s[1..]| - |r|];
    }
  }

  /** Drops trailing characters of Python whitespace. */
  function TrimEnd(s: string): (r: string)
    ensures |r| <= |s|
    decreases |s|
  {
    if |s| > 0 && IsSpace(s[|s| - 1]) then TrimEnd(s[..|s| - 1]) else s
  }

  /** `TrimEnd` removes exactly the trailing blank run: what remains is a prefix that ends with a non-space. */
  lemma {:induction false} TrimEndSpec(s: string)
    ensures var r := TrimEnd(s);
      && r == s[..|r|]
      && (|r| > 0 ==> !IsSpace(r[|r| - 1]))
      && IsBlank(s[|r|..])
    decreases |s|
  {
    if |s| > 0 && IsSpace(s[|s| - 1]) {
      var r := TrimEnd(s[..|s| - 1]);
      TrimEndSpec(s[..|s| - 1]);
      assert s[|r|..] == s[..|s| - 1][|r|..] + [s[|s| - 1]];
    }
  }

  /** Python's `str.strip()` with no argument. */
  function Strip(s: string): (r: string)
    ensures |r| <= |s|
  {
    TrimEnd(TrimStart(s))
  }

  /**
   * `strip()` leaves a run of `s` with no whitespace at either end, and is empty exactly for
   * blank strings (the source's `not x.strip()` test).
   */
  lemma StripSpec(s: string)
    ensures var r := Strip(s);
      && (exists k :: OccursAt(s, r, k))
      && (|r| > 0 ==> !IsSpace(r[0]) && !IsSpace(r[|r| - 1]))
      && (r == "" <==> IsBlank(s))
  {
    var t := TrimStart(s);
    var r := TrimEnd(t);
    TrimStartSpec(s);
    TrimEndSpec(t);
    var k := |s| - |t|;
    assert s[k..k + |r|] == t[..|r|];
    assert OccursAt(s, Strip(s), k);
    assert r == "" ==> s == s[..k] + t[|r|..];
    assert |t| > 0 ==> t[0] == s[k];
  }

  /** Blankness in the source's own terms: `not s.strip()`. */
  lemma StripEmptyIffBlank(s: string)
    ensures Strip(s) == "" <==> IsBlank(s)
  {
    StripSpec(s);
  }

  /** A string with no whitespace at either end is its own strip. */
  lemma StripUnpadded(s: string)
    requires |s| > 0 && !IsSpace(s[0]) && !IsSpace(s[|s| - 1])
    ensures Strip(s) == s
  {
    assert TrimStart(s) == s;
  }

  /** Python's `s.split(sep)` for a one-character separator: never empty, one more part than separators. */
  function Split(s: string, sep: char): (parts: seq<string>)
    ensures |parts| >= 1
    ensures forall k :: 0 <= k < |parts| ==> sep !in parts[k]
    decreases |s|
  {
    if |s| == 0 then [""]
    else
      var rest := Split(s[1..], sep);
      if s[0] == sep then [""] + rest
      else [[s[0]] + rest[0]] + rest[1..]
  }

  /** Python's `sep.join(parts)`. */
  function Join(parts: seq<string>, sep: char): string
    decreases |parts|
  {
    if |parts| == 0 then ""
    else if |parts| == 1 then parts[0]
    else parts[0] + [sep] + Join(parts[1..], sep)
  }

  lemma SplitPrefix(a: string, rest: string, sep: char)
    requires sep !in a
    ensures Split(a + [sep] + rest, sep) == [a] + Split(rest, sep)
    decreases |a|
  {
    if |a| == 0 {
      assert a + [sep] + rest == [sep] + rest;
      assert ([sep] + rest)[1..] == rest;
    } else {
      assert (a + [sep] + rest)[1..] == a[1..] + [sep] + rest;
      SplitPrefix(a[1..], rest, sep);
      assert [a[0]] + a[1..] == a;
    }
  }

  lemma SplitNoSep(a: string, sep: char)
    requires sep !in a
    ensures Split(a, sep) == [a]
    decreases |a|
  {
    if |a| > 0 {
      SplitNoSep(a[1..], sep);
      assert [a[0]] + a[1..] == a;
    }
  }

  /** Splitting a join recovers the parts when no part contains the separator. */
  lemma {:induction false} SplitJoin(parts: seq<string>, sep: char)
    requires |parts| >= 1
    requires forall k :: 0 <= k < |parts| ==> sep !in parts[k]
    ensures Split(Join(parts, sep), sep) == parts
    decreases |parts|
  {
    if |parts| == 1 {
      SplitNoSep(parts[0], sep);
    } else {
      SplitJoin(parts[1..], sep);
      SplitPrefix(parts[0], Join(parts[1..], sep), sep);
      assert [parts[0]] + parts[1..] == parts;
    }
  }

  /** Python's `sep.join(parts)` for a separator string. */
  function JoinWith(parts: seq<string>, sep: string): string
    decreases |parts|
  {
    if |parts| == 0 then "" else if |parts| == 1 then parts[0] else parts[0] + sep + JoinWith(parts[1..], sep)
  }

  /** ASCII-only lower-casing; the letters the source searches for have no non-ASCII upper-case forms. */
  function LowerAscii(s: string): (r: string)
    ensures |r| == |s|
    ensures forall i :: 0 <= i < |s| ==> r[i] == (if 'A' <= s[i] <= 'Z' then (s[i] as int + 32) as char else s[i])
  {
    seq(|s|, i requires 0 <= i < |s| => if 'A' <= s[i] <= 'Z' then (s[i] as int + 32) as char else s[i])
  }

  function DigitChar(d: nat): char
    requires d < 10
  {
    ('0' as int + d) as char
  }

  /** Python's `str(n)` for a natural number. */
  function NatToString(n: nat): (r: string)
    ensures IsDigits(r)
    decreases n
  {
    if n < 10 then [DigitChar(n)] else NatToString(n / 10) + [DigitChar(n % 10)]
  }

  function DigitValue(c: char): nat
    requires IsAsciiDigit(c)
  {
    c as int - '0' as int
  }

  /** The value of a string of ASCII digits. */
  function DigitsValue(s: string): nat
    requires forall i :: 0 <= i < |s| ==> IsAsciiDigit(s[i])
    decreases |s|
  {
    if |s| == 0 then 0 else 10 * DigitsValue(s[..|s| - 1]) + DigitValue(s[|s| - 1])
  }

  lemma {:induction false} NatToStringValue(n: nat)
    ensures DigitsValue(NatToString(n)) == n
    decreases n
  {
    if n >= 10 {
      NatToStringValue(n / 10);
      var s := NatToString(n);
      assert s[..|s| - 1] == NatToString(n / 10);
    }
  }

  /** Python's `str(n)` for any integer. */
  function IntToString(n: int): string {
    if n < 0 then "-" + NatToString(-n) else NatToString(n)
  }

  /** Python's `<` on strings: code-point lexicographic order. */
  predicate LessThan(a: string, b: string)
    decreases |a|
  {
    if |a| == 0 then |b| > 0
    else if |b| == 0 then false
    else if a[0] != b[0] then a[0] < b[0]
    else LessThan(a[1..], b[1..])
  }

  predicate SortedStrictly(xs: seq<string>) {
    forall i, j :: 0 <= i < j < |xs| ==> LessThan(xs[i], xs[j])
  }
}

=== FILE: tools.dfy ===
/**
 * The MCP tool functions: validate the arguments, call the client, and turn its result or the
 * exception it raised into a status dict. The client call is a parameter: the value it
 * returned or the exception it raised.
 */
module Tools {
  import opened Wrappers
  import opened Text
  import opened Json
  import Executor
  import Client

  /** The exceptions a tool catches: `AuthenticationError`, another library error, anything else. */
  datatype Raised =
    | AuthError(message: string, hint: string)
    | LibraryError(message: string)
    | OtherError(message: string)

  /** A tool's reply dict. */
  type Reply = map<string, Json>

  const LoginHint: string := "Run 'notebook-julian login' to re-authenticate."
  const DoctorHint: string := "Run 'notebooklm-mcp-2026 doctor' to diagnose issues."

  /** `AuthenticationError(message, hint)`: an empty hint is replaced by the login hint. */
  function NewAuthError(message: string, hint: string): (e: Raised)
    ensures e.AuthError? && e.message == message && e.hint != ""
    ensures hint != "" ==> e.hint == hint
    ensures hint == "" ==> e.hint == LoginHint
  {
    AuthError(message, if hint != "" then hint else LoginHint)
  }

  /**
   * The exception each failure of the retry policy raises. `detail` is the text of the
   * underlying `httpx` exception, or of the exception the credential reload raised, which the
   * model does not produce.
   */
  function RaisedOf(f: Executor.Failure, detail: string): (e: Raised)
  {
    match f
    case ServerRetriesExhausted(status, attempts) =>
      LibraryError("Server error " + IntToString(status) + " after " + IntToString(attempts) + " attempts")
    case HttpError(status) => LibraryError("HTTP " + IntToString(status) + ": " + detail)
    case AuthExpiredAfterRetry => NewAuthError("Authentication expired after retry.", LoginHint)
    case RefreshRefused(LoginRedirect) => NewAuthError("Cookies expired — redirected to Google login.", LoginHint)
    case RefreshRefused(PageStatus(status)) =>
      NewAuthError("Failed to fetch NotebookLM page: HTTP " + IntToString(status), "")
    case RefreshRefused(NoCsrf) =>
      NewAuthError("Could not extract CSRF token from page. The page structure may have changed.", "")
    case Network(_) => OtherError(detail)
    case ReloadFailed(_) => OtherError(detail)
  }

  /**
   * Authentication failures raise `AuthenticationError` carrying the login hint, HTTP
   * failures raise the library's `APIError`, and only a transport error escapes the library.
   */
  lemma RaisedOfKinds(f: Executor.Failure, detail: string)
    ensures RaisedOf(f, detail).AuthError? <==> f.AuthExpiredAfterRetry? || f.RefreshRefused?
    ensures RaisedOf(f, detail).AuthError? ==> RaisedOf(f, detail).hint == LoginHint
    ensures RaisedOf(f, detail).LibraryError? <==> f.ServerRetriesExhausted? || f.HttpError?
    ensures RaisedOf(f, detail).OtherError? <==> f.Network? || f.ReloadFailed?
  {
    match f
    case RefreshRefused(why) => assert RaisedOf(f, detail).AuthError?;
    case _ =>
  }

  /** `{"status": "error", "error": message}`. */
  function Fail(message: string): Reply {
    map["status" := Str("error"), "error" := Str(message)]
  }

  /** The three `except` clauses; `doctorHint` says whether the last one adds the doctor hint. */
  function ErrorReply(e: Raised, doctorHint: bool): (r: Reply)
    ensures "status" in r && r["status"] == Str("error") && "error" in r
    ensures "hint" in r <==> e.AuthError? || (e.OtherError? && doctorHint)
    ensures r.Keys <= {"status", "error", "hint"}
  {
    match e
    case AuthError(message, hint) => Fail(message)["hint" := Str(hint)]
    case LibraryError(message) => Fail(message)
    case OtherError(message) =>
      var r := Fail("Unexpected error: " + message);
      if doctorHint then r["hint" := Str(DoctorHint)] else r
  }

  /** The notebook tools' handlers as written: an unexpected error gets no hint. */
  function NotebooksErrorAsWritten(e: Raised): (r: Reply)
    ensures "status" in r && r["status"] == Str("error") && "error" in r
    ensures "hint" in r <==> e.AuthError?
    ensures e.AuthError? ==> r["hint"] == Str(e.hint)
    ensures e.OtherError? ==> r["error"] == Str("Unexpected error: " + e.message)
    ensures e.LibraryError? ==> r == Fail(e.message)
  {
    ErrorReply(e, false)
  }

  /**
   * The handlers of the source, query and authentication tools, where unexpected errors get
   * the doctor hint; the notebook tools would need the same to give the hint their tests expect.
   */
  function ToolError(e: Raised): (r: Reply)
    ensures "status" in r && r["status"] == Str("error")
  {
    ErrorReply(e, true)
  }

  /** A `RuntimeError("boom")` from `list_notebooks` yields a reply without a hint. */
  lemma NotebooksUnexpectedErrorLacksHint()
    ensures NotebooksErrorAsWritten(OtherError("boom"))
            == map["status" := Str("error"), "error" := Str("Unexpected error: boom")]
    ensures "hint" !in NotebooksErrorAsWritten(OtherError("boom"))
  {
    assert "Unexpected error: " + "boom" == "Unexpected error: boom";
  }

  /** Every error reply for a caught exception that is not a plain library error carries a hint. */
  lemma ToolErrorHints(e: Raised)
    ensures "hint" in ToolError(e) <==> !e.LibraryError?
    ensures e.AuthError? ==> ToolError(e)["hint"] == Str(e.hint)
    ensures e.OtherError? ==> ToolError(e)["hint"] == Str(DoctorHint)
    ensures e.OtherError? ==> ToolError(e)["error"] == Str("Unexpected error: " + e.message)
  {
  }

  /** `not s or not s.strip()`. */
  predicate Missing(s: string) {
    Strip(s) == ""
  }

  /** A required argument is missing exactly when it is blank. */
  lemma MissingIffBlank(s: string)
    ensures Missing(s) <==> IsBlank(s)
  {
    StripEmptyIffBlank(s);
  }

  /** `{"status": "success", **result}`: the result's own keys win, `status` included. */
  function Overlay(result: map<string, Json>): (r: Reply)
  {
    map["status" := Str("success")] + result
  }

  lemma OverlaySpec(result: map<string, Json>)
    ensures Overlay(result).Keys == result.Keys + {"status"}
    ensures forall k :: k in result ==> Overlay(result)[k] == result[k]
    ensures "status" !in result ==> Overlay(result)["status"] == Str("success")
  {
  }

  /** Python `xs[:stop]`: a negative `stop` counts from the end. */
  function SliceTo<T>(xs: seq<T>, stop: int): (ys: seq<T>)
    ensures |ys| <= |xs| && ys == xs[..|ys|]
  {
    var k := if stop >= 0 then (if stop < |xs| then stop else |xs|)
             else (if |xs| + stop > 0 then |xs| + stop else 0);
    xs[..k]
  }

  /** The dicts as JSON values. */
  function Dicts(xs: seq<map<string, Json>>): (js: seq<Json>)
    ensures |js| == |xs| && forall i :: 0 <= i < |xs| ==> js[i] == Obj(xs[i])
  {
    seq(|xs|, i requires 0 <= i < |xs| => Obj(xs[i]))
  }

  /** `list_notebooks(max_results)`. */
  function ListNotebooksTool(maxResults: int, outcome: Result<seq<map<string, Json>>, Raised>): Reply {
    match outcome
    case Failure(e) => NotebooksErrorAsWritten(e)
    case Success(notebooks) =>
      var shown := SliceTo(notebooks, maxResults);
      map["status" := Str("success"), "count" := Num(|shown|), "notebooks" := Arr(Dicts(shown))]
  }

  /**
   * The reply lists the first `max_results` notebooks in the client's order, all of them
   * when there are no more than that, and `count` is their number; a negative bound drops
   * that many from the end.
   */
  lemma ListNotebooksToolSpec(maxResults: int, notebooks: seq<map<string, Json>>)
    ensures var r := ListNotebooksTool(maxResults, Success(notebooks));
            var k := if maxResults >= 0 then (if maxResults < |notebooks| then maxResults else |notebooks|)
                     else (if |notebooks| + maxResults > 0 then |notebooks| + maxResults else 0);
            && r["status"] == Str("success")
            && r["count"] == Num(k)
            && r["notebooks"] == Arr(Dicts(notebooks[..k]))
    ensures 0 <= |notebooks| <= maxResults ==>
            ListNotebooksTool(maxResults, Success(notebooks))["notebooks"] == Arr(Dicts(notebooks))
  {
    assert notebooks[..|notebooks|] == notebooks;
  }

  /** Ten notebooks with `max_results=3` give a count of 3; `max_results=-1` drops the last one. */
  lemma ListNotebooksToolExample(notebooks: seq<map<string, Json>>)
    requires |notebooks| == 10
    ensures ListNotebooksTool(3, Success(notebooks))["count"] == Num(3)
    ensures ListNotebooksTool(-1, Success(notebooks))["count"] == Num(9)
  {
  }

  /** The outcome of the lookup `next(nb for nb in notebooks if nb["id"] == notebook_id)`. */
  datatype Found = Match(nb: map<string, Json>) | NoMatch | NoId

  /** The first notebook whose `id` is the string `id`; a dict without `id` before it raises `KeyError`. */
  function FindNotebook(notebooks: seq<map<string, Json>>, id: string): (f: Found)
    ensures f.Match? ==> exists i :: 0 <= i < |notebooks| && notebooks[i] == f.nb
    decreases |notebooks|
  {
    if |notebooks| == 0 then NoMatch
    else if "id" !in notebooks[0] then NoId
    else if notebooks[0]["id"] == Str(id) then Match(notebooks[0])
    else
      var f := FindNotebook(notebooks[1..], id);
      if f.Match? then
        var i :| 0 <= i < |notebooks[1..]| && notebooks[1..][i] == f.nb;
        assert notebooks[i + 1] == f.nb;
        f
      else f
  }

  /** The lookup stops at the first dict that lacks `id` or carries the wanted one. */
  lemma {:induction false} FindNotebookSpec(notebooks: seq<map<string, Json>>, id: string, i: nat)
    requires i < |notebooks|
    requires forall j :: 0 <= j < i ==> "id" in notebooks[j] && notebooks[j]["id"] != Str(id)
    ensures "id" !in notebooks[i] ==> FindNotebook(notebooks, id) == NoId
    ensures "id" in notebooks[i] && notebooks[i]["id"] == Str(id) ==> FindNotebook(notebooks, id) == Match(notebooks[i])
    decreases i
  {
    if i > 0 {
      FindNotebookSpec(notebooks[1..], id, i - 1);
    }
  }

  /** Without a match and without a dict lacking `id`, nothing is found. */
  lemma {:induction false} FindNotebookNone(notebooks: seq<map<string, Json>>, id: string)
    requires forall j :: 0 <= j < |notebooks| ==> "id" in notebooks[j] && notebooks[j]["id"] != Str(id)
    ensures FindNotebook(notebooks, id) == NoMatch
    decreases |notebooks|
  {
    if |notebooks| > 0 {
      FindNotebookNone(notebooks[1..], id);
    }
  }

  /** `get_notebook(notebook_id)`: the sources are listed first, then the notebooks. */
  function GetNotebookTool(
    notebookId: string,
    sources: Result<seq<map<string, Json>>, Raised>,
    notebooks: Result<seq<map<string, Json>>, Raised>): Reply
  {
    if Missing(notebookId) then Fail("notebook_id is required.")
    else
      match sources
      case Failure(e) => NotebooksErrorAsWritten(e)
      case Success(srcs) =>
        match notebooks
        case Failure(e) => NotebooksErrorAsWritten(e)
        case Success(nbs) =>
          match FindNotebook(nbs, notebookId)
          case NoId => NotebooksErrorAsWritten(OtherError("'id'"))
          case Match(nb) =>
            if "title" !in nb then NotebooksErrorAsWritten(OtherError("'title'"))
            else NotebookReply(notebookId, nb["title"], srcs)
          case NoMatch => NotebookReply(notebookId, Str("Unknown"), srcs)
  }

  function NotebookReply(notebookId: string, title: Json, srcs: seq<map<string, Json>>): Reply {
    map["status" := Str("success"), "notebook_id" := Str(notebookId), "title" := title,
        "source_count" := Num(|srcs|), "sources" := Arr(Dicts(srcs))]
  }

  /**
   * The title is the first matching notebook's, or "Unknown" when none matches, and the
   * source count is the number of sources listed.
   */
  lemma GetNotebookToolTitle(notebookId: string, srcs: seq<map<string, Json>>, nbs: seq<map<string, Json>>, i: nat)
    requires !Missing(notebookId) && i < |nbs|
    requires forall j :: 0 <= j < i ==> "id" in nbs[j] && nbs[j]["id"] != Str(notebookId)
    requires "id" in nbs[i] && nbs[i]["id"] == Str(notebookId) && "title" in nbs[i]
    ensures var r := GetNotebookTool(notebookId, Success(srcs), Success(nbs));
            r["status"] == Str("success") && r["title"] == nbs[i]["title"] && r["source_count"] == Num(|srcs|)
  {
    FindNotebookSpec(nbs, notebookId, i);
  }

  lemma GetNotebookToolUnknown(notebookId: string, srcs: seq<map<string, Json>>, nbs: seq<map<string, Json>>)
    requires !Missing(notebookId)
    requires forall j :: 0 <= j < |nbs| ==> "id" in nbs[j] && nbs[j]["id"] != Str(notebookId)
    ensures var r := GetNotebookTool(notebookId, Success(srcs), Success(nbs));
            r["status"] == Str("success") && r["title"] == Str("Unknown") && r["source_count"] == Num(|srcs|)
  {
    FindNotebookNone(nbs, notebookId);
  }

  /** A notebook dict without `id` before the match is an unexpected `KeyError`. */
  lemma GetNotebookToolKeyError(notebookId: string, srcs: seq<map<string, Json>>, nbs: seq<map<string, Json>>, i: nat)
    requires !Missing(notebookId) && i < |nbs|
    requires forall j :: 0 <= j < i ==> "id" in nbs[j] && nbs[j]["id"] != Str(notebookId)
    requires "id" !in nbs[i]
    ensures GetNotebookTool(notebookId, Success(srcs), Success(nbs)) == NotebooksErrorAsWritten(OtherError("'id'"))
  {
    FindNotebookSpec(nbs, notebookId, i);
  }

  /** A failing `list_sources` decides the reply before the notebooks are listed. */
  lemma GetNotebookToolSourcesFirst(notebookId: string, e: Raised, n1: Result<seq<map<string, Json>>, Raised>,
                                    n2: Result<seq<map<string, Json>>, Raised>)
    requires !Missing(notebookId)
    ensures GetNotebookTool(notebookId, Failure(e), n1) == GetNotebookTool(notebookId, Failure(e), n2) == NotebooksErrorAsWritten(e)
  {
  }

  /**
   * Both notebook tools answer an unexpected exception without a hint, and an authentication
   * error with its own hint.
   */
  lemma NotebookToolsErrorHints(maxResults: int, notebookId: string, e: Raised, n: Result<seq<map<string, Json>>, Raised>)
    requires !Missing(notebookId)
    ensures "hint" in ListNotebooksTool(maxResults, Failure(e)) <==> e.AuthError?
    ensures "hint" in GetNotebookTool(notebookId, Failure(e), n) <==> e.AuthError?
    ensures e.OtherError? ==> ListNotebooksTool(maxResults, Failure(e))["error"] == Str("Unexpected error: " + e.message)
  {
  }

  /** `list_sources(notebook_id)`. */
  function ListSourcesTool(notebookId: string, outcome: Result<seq<map<string, Json>>, Raised>): Reply {
    if Missing(notebookId) then Fail("notebook_id is required.")
    else
      match outcome
      case Failure(e) => ToolError(e)
      case Success(srcs) =>
        map["status" := Str("success"), "notebook_id" := Str(notebookId), "count" := Num(|srcs|),
            "sources" := Arr(Dicts(srcs))]
  }

  /** `get_source_content(source_id)`. */
  function GetSourceContentTool(sourceId: string, outcome: Result<map<string, Json>, Raised>): Reply {
    if Missing(sourceId) then Fail("source_id is required.")
    else
      match outcome
      case Failure(e) => ToolError(e)
      case Success(result) => Overlay(result)
  }

  /** A blank id is refused before the client is used; otherwise the client's outcome decides. */
  lemma SingleIdTools(id: string, s: Result<seq<map<string, Json>>, Raised>, c: Result<map<string, Json>, Raised>)
    ensures Missing(id) ==> ListSourcesTool(id, s) == Fail("notebook_id is required.")
    ensures Missing(id) ==> GetSourceContentTool(id, c) == Fail("source_id is required.")
    ensures !Missing(id) && s.Success? ==>
            ListSourcesTool(id, s)["count"] == Num(|s.value|) && ListSourcesTool(id, s)["notebook_id"] == Str(id)
    ensures !Missing(id) && c.Success? && "status" !in c.value ==>
            GetSourceContentTool(id, c) == c.value["status" := Str("success")]
    ensures !Missing(id) && s.Failure? ==> ListSourcesTool(id, s) == ToolError(s.error)
  {
    if !Missing(id) && c.Success? && "status" !in c.value {
      assert Overlay(c.value) == c.value["status" := Str("success")];
    }
  }

  /** The reply once a source was added: nothing back is an error, a dict is overlaid. */
  function AddedReply(outcome: Result<Option<map<string, Json>>, Raised>): Reply {
    match outcome
    case Failure(e) => ToolError(e)
    case Success(None) => Fail("Failed to add source — no response.")
    case Success(Some(result)) => Overlay(result)
  }

  /** `add_source_url(notebook_id, url)`; the scheme check is case-sensitive and does not strip. */
  function AddSourceUrlTool(notebookId: string, url: string, outcome: Result<Option<map<string, Json>>, Raised>): Reply {
    if Missing(notebookId) then Fail("notebook_id is required.")
    else if Missing(url) then Fail("url is required.")
    else if !(StartsWith(url, "http://") || StartsWith(url, "https://")) then
      Fail("url must start with http:// or https://")
    else AddedReply(outcome)
  }

  const MaxTextLength: nat := 500000
  const DefaultTextTitle: string := "Pasted Text"

  /** `add_source_text(notebook_id, text, title)`; the title only reaches the client. */
  function AddSourceTextTool(notebookId: string, text: string, outcome: Result<Option<map<string, Json>>, Raised>): Reply {
    if Missing(notebookId) then Fail("notebook_id is required.")
    else if Missing(text) then Fail("text is required.")
    else if |text| > MaxTextLength then Fail("text exceeds 500,000 character limit.")
    else AddedReply(outcome)
  }

  /** Arguments are checked in order, and a refused call never depends on the client. */
  lemma AddSourceUrlToolValidation(notebookId: string, url: string, o1: Result<Option<map<string, Json>>, Raised>,
                                   o2: Result<Option<map<string, Json>>, Raised>)
    ensures var valid := !Missing(notebookId) && !Missing(url)
                         && (StartsWith(url, "http://") || StartsWith(url, "https://"));
            !valid ==> AddSourceUrlTool(notebookId, url, o1) == AddSourceUrlTool(notebookId, url, o2)
                       && AddSourceUrlTool(notebookId, url, o1)["status"] == Str("error")
    ensures Missing(notebookId) ==> AddSourceUrlTool(notebookId, url, o1)["error"] == Str("notebook_id is required.")
    ensures !Missing(notebookId) && Missing(url) ==> AddSourceUrlTool(notebookId, url, o1)["error"] == Str("url is required.")
  {
  }

  /** A URL's scheme must be lower-case and come first; surrounding spaces are not forgiven. */
  lemma UrlSchemeExamples(nb: string, o: Result<Option<map<string, Json>>, Raised>)
    requires !Missing(nb)
    ensures AddSourceUrlTool(nb, "HTTPS://a", o) == Fail("url must start with http:// or https://")
    ensures AddSourceUrlTool(nb, " https://a", o) == Fail("url must start with http:// or https://")
    ensures AddSourceUrlTool(nb, "https://a", o) == AddedReply(o)
  {
    assert !Missing("HTTPS://a") by {
      assert !IsSpace("HTTPS://a"[0]);
      StripEmptyIffBlank("HTTPS://a");
    }
    assert !StartsWith("HTTPS://a", "http://") by { assert "HTTPS://a"[0] != "http://"[0]; }
    assert !StartsWith("HTTPS://a", "https://") by { assert "HTTPS://a"[0] != "https://"[0]; }
    assert !Missing(" https://a") by {
      assert !IsSpace(" https://a"[1]);
      StripEmptyIffBlank(" https://a");
    }
    assert !StartsWith(" https://a", "http://") by { assert " https://a"[0] != "http://"[0]; }
    assert !StartsWith(" https://a", "https://") by { assert " https://a"[0] != "https://"[0]; }
    assert !Missing("https://a") by {
      assert !IsSpace("https://a"[0]);
      StripEmptyIffBlank("https://a");
    }
    assert "https://a"[..8] == "https://";
  }

  /** Text of exactly 500,000 characters is accepted; one more is refused. */
  lemma TextLimitBoundary(notebookId: string, text: string, o: Result<Option<map<string, Json>>, Raised>)
    requires !Missing(notebookId) && !Missing(text)
    ensures |text| <= 500000 ==> AddSourceTextTool(notebookId, text, o) == AddedReply(o)
    ensures |text| > 500000 ==> AddSourceTextTool(notebookId, text, o) == Fail("text exceeds 500,000 character limit.")
  {
  }

  /** A blank text is refused as missing whatever its length. */
  lemma BlankTextRefused(notebookId: string, text: string, o: Result<Option<map<string, Json>>, Raised>)
    requires !Missing(notebookId) && IsBlank(text)
    ensures AddSourceTextTool(notebookId, text, o) == Fail("text is required.")
  {
    StripEmptyIffBlank(text);
  }

  /** A timed-out add reports the client's `timeout` status, not success. */
  lemma TimeoutStatusKept(result: map<string, Json>)
    requires "status" in result
    ensures AddedReply(Success(Some(result))) == result
  {
    assert Overlay(result) == result;
  }

  /** `query_notebook(notebook_id, query, source_ids, conversation_id)`. */
  function QueryNotebookTool(notebookId: string, query: string, outcome: Result<map<string, Json>, Raised>): Reply {
    if Missing(notebookId) then Fail("notebook_id is required.")
    else if Missing(query) then Fail("query is required.")
    else
      match outcome
      case Failure(e) => ToolError(e)
      case Success(result) => Overlay(result)
  }

  /** The notebook id is checked before the query, and a refused call never depends on the client. */
  lemma QueryNotebookToolValidation(notebookId: string, query: string, o1: Result<map<string, Json>, Raised>,
                                    o2: Result<map<string, Json>, Raised>)
    ensures Missing(notebookId) || Missing(query) ==>
            QueryNotebookTool(notebookId, query, o1) == QueryNotebookTool(notebookId, query, o2)
    ensures Missing(notebookId) ==> QueryNotebookTool(notebookId, query, o1) == Fail("notebook_id is required.")
    ensures !Missing(notebookId) && Missing(query) ==> QueryNotebookTool(notebookId, query, o1) == Fail("query is required.")
    ensures !Missing(notebookId) && !Missing(query) && o1.Success? ==>
            forall k :: k in o1.value ==> QueryNotebookTool(notebookId, query, o1)[k] == o1.value[k]
  {
  }

  /** The dict `query` returns. */
  function QueryReplyDict(q: Client.QueryReply): map<string, Json> {
    map["answer" := Str(q.answer), "conversation_id" := Str(q.conversationId),
        "turn_number" := Num(q.turnNumber), "is_follow_up" := Bool(q.isFollowUp)]
  }

  /** A successful query reports the client's four fields under a success status. */
  lemma QueryToolReportsAnswer(notebookId: string, query: string, q: Client.QueryReply)
    requires !Missing(notebookId) && !Missing(query)
    ensures var r := QueryNotebookTool(notebookId, query, Success(QueryReplyDict(q)));
            && r.Keys == {"status", "answer", "conversation_id", "turn_number", "is_follow_up"}
            && r["status"] == Str("success")
            && r["answer"] == Str(q.answer)
            && r["conversation_id"] == Str(q.conversationId)
            && r["turn_number"] == Num(q.turnNumber)
            && r["is_follow_up"] == Bool(q.isFollowUp)
  {
    OverlaySpec(QueryReplyDict(q));
  }
}

=== FILE: wrappers.dfy ===
/** Failure-carrying result types shared by every module of the model. */
module Wrappers {

  /** An optional value, standing for Python's `X | None`. */
  datatype Option<+T> = None | Some(value: T) {
    function GetOr(default: T): T {
      match this
      case Some(v) => v
      case None => default
    }
  }

  /** A value or the failure that replaced it (a raised exception in the source). */
  datatype Result<+R, +E> = Success(value: R) | Failure(error: E) {
    predicate IsFailure() {
      Failure?
    }

    function PropagateFailure<U>(): Result<U, E>
      requires Failure?
    {
      Failure(error)
    }

    function Extract(): R
      requires Success?
    {
      value
    }
  }
}
